=== FILE: README.md ===
# vodk.rs: the path-fill tessellator and its stable-id containers, in Dafny

This project models the combinatorial core of the 2D path-fill tessellator of vodk.rs
(`lyon`) and the containers beneath it, and proves properties of that model.

- **Sweep-line tessellator** (`Tesselator`, `Span`, `SpanEdge`, `EventVector` in
  `lyon/src/tesselation/path_tesselator.rs`). Path vertices become events, sorted top to
  bottom. The sweep line is a sequence of spans, and each event extends, splits, merges,
  opens or closes spans. Edge crossings get synthetic vertices and go into a sorted queue,
  which the main loop drains from the front.
- **`MonotoneTesselator`**. Each span owns one of these stack machines, which triangulates
  the monotone region the span sweeps out.
- **Half-edge monotone helpers** (`geom/src/monotone.rs`, `src/vodk/geom/monotone.rs`).
  These are the vertex classifier, the y-monotonicity check, the event and sweep-status
  orderings, `find`, and `SliceTriangleStream`.
- **Polygon circulation** (`geom/src/tesselation/polygon.rs`). This covers index loops with
  modular `next`/`previous`, the wrap-around iterator, and complex polygons (an outer loop
  plus holes).
- **Stable-id containers**. These are `IdLookupTable` (`collections/id_lookup_table.rs`; the
  same code also appears in `src/vodk/base/containers.rs`), `PodFreeListVector`
  (`src/vodk/base/containers.rs`) and `IdVec` (`id/src/id_vector.rs`).

The floating-point tests are fields of an uninterpreted `Geometry.Oracle`, so every
combinatorial result below holds whatever those tests answer. The tests are `is_below`,
`directed_angle`, `directed_angle2`, segment intersection and
`line_horizontal_intersection`.

A panic in the source becomes an `Err` of `Results.Fault`:
- an `unreachable!`;
- a failed `assert!` or `debug_assert!` (the debug build is modelled);
- an index out of bounds;
- a `u16`/`usize` underflow;
- a remainder by zero.

This keeps the whole event loop a total function.

Module layout:

| module | file | what it holds |
|---|---|---|
| `Results` | results.dfy | `Option`, `Result` and the `Fault` kinds of panic |
| `Geometry` | geometry.dfy | points, `Side`, `Ordering`, the oracle, the convexity test |
| `Sorting` | sorting.dfy | the stable sort that stands for every `sort_by` |
| `EventVector` | event_vector.dfy | paths, vertex ids, `set_path` |
| `MonotoneTesselator` | monotone_tesselator.dfy | the per-span triangulator |
| `MonotoneTesselatorScenarios` | monotone_tesselator.dfy | the triangulator's unit-test scenarios |
| `SweepSpan` | sweep_span.dfy | `Span`, `SpanEdge` and the edge setters |
| `Sweep` | sweep.dfy | the `Tesselator`, its event handlers and `tesselate_path_fill` |
| `MonotoneHelpers` | monotone_helpers.dfy | the half-edge decomposition helpers |
| `Polygon` | polygon.dfy | polygons, complex polygons, iterators, winding order |
| `IdLookupTable` | id_lookup_table.dfy | the dense/sparse id table |
| `FreeListVector` | free_list_vector.dfy | `PodFreeListVector`, as written and corrected |
| `IdVector` | id_vector.dfy | `IdVec` and `IdSlice::ids` |

## Model

| member | source | states |
|---|---|---|
| EventVector.NextId | lyon/src/tesselation/path_tesselator.rs:222-226 | the next vertex of a valid id is a valid id of the same sub-path (wrapping to the sub-path's first vertex) |
| EventVector.PreviousId | lyon/src/tesselation/path_tesselator.rs:222-226 | the previous vertex of a valid id is a valid id of the same sub-path (wrapping to its last vertex) |
| EventVector.NextPreviousInverse | lyon/src/tesselation/path_tesselator.rs:222-230 | `previous(next(id)) == id` and `next(previous(id)) == id` for every valid id |
| EventVector.SubPathIds | lyon/src/tesselation/path_tesselator.rs:64-66 | `vertex_ids(sub_path)` lists the sub-path's vertices in order, each tagged with the sub-path |
| EventVector.IdsUpToAreConsecutive | lyon/src/tesselation/path_tesselator.rs:64-67 | on a well-formed path, the ids collected sub-path by sub-path are `0, 1, ..., n-1` in order; each is valid, and there are as many as the vertices covered |
| EventVector.CompareEventsIsKeyOrder | lyon/src/tesselation/path_tesselator.rs:69-77 | the event comparator is the lexicographic order on (y, x) |
| EventVector.OppositeTieBreak | lyon/src/tesselation/path_tesselator.rs:69-77 | at equal y, the left event comes first in the sweep; the half-edge decomposition puts it last |
| EventVector.SetPath | lyon/src/tesselation/path_tesselator.rs:61-79 | the events are a permutation of the path's vertex ids; their count equals the vertex count; every event is a valid id; they are sorted by ascending y, with ties broken by ascending x |
| EventVector.SetPathCoversEveryVertex | lyon/src/tesselation/path_tesselator.rs:61-68 | every vertex index `0 .. n` occurs among the events, so none is missed |
| Geometry.Side.Opposite | lyon/src/tesselation/path_tesselator.rs:91-99 | the opposite side differs from the side |
| SweepSpan.WithEdge | lyon/src/tesselation/path_tesselator.rs:169-174 | writing through `mut_edge(side)` changes the edge on that side only; the other edge and the tessellator are unchanged |
| SweepSpan.Begin | lyon/src/tesselation/path_tesselator.rs:132-137 | a new span keeps both edges given and starts an open tessellator holding only the left edge's upper vertex |
| SweepSpan.SetUpperVertex | lyon/src/tesselation/path_tesselator.rs:153-156 | succeeds exactly when the tessellator's two assertions hold (the vertex is below the previous one, and the stack is non-empty); then sets only that side's `upper` and feeds the vertex, so it becomes the tessellator's previous vertex, with one more vertex accounted for |
| SweepSpan.SetLowerVertex | lyon/src/tesselation/path_tesselator.rs:158-163 | sets `lower` and clears `merge` on that side, keeping `upper`; the other edge and the tessellator are unchanged |
| SweepSpan.SetNoLowerVertex | lyon/src/tesselation/path_tesselator.rs:165-167 | sets `merge` on that side and changes nothing else |
| SweepSpan.SpanVertex | lyon/src/tesselation/path_tesselator.rs:139-146 | on success the edge on that side runs from the vertex to `next`, live; the other edge is kept; success is exactly the tessellator's preconditions |
| SweepSpan.MergeVertex | lyon/src/tesselation/path_tesselator.rs:148-151 | on success the edge on that side starts at the merge vertex and is parked; its old lower end is kept; the other edge is kept |
| SweepSpan.SpanEnd | lyon/src/tesselation/path_tesselator.rs:176-178 | ending a span leaves its edges alone, empties the stack, and adds `stack - 1` triangles after the existing ones |
| MonotoneTesselator.Begin | lyon/src/tesselation/path_tesselator.rs:643-655 | the tessellator starts open, with the first vertex alone on the stack (on the left side) and no triangles |
| MonotoneTesselator.PushTriangle | lyon/src/tesselation/path_tesselator.rs:711-719 | the emitted triangle is (a, b, c) or (b, a, c); c always comes last |
| MonotoneTesselator.PushTriangleWinding | lyon/src/tesselation/path_tesselator.rs:711-719 | with an angle test that agrees with the cross product's sign, the emitted triangle is always wound the same way |
| MonotoneTesselator.Fan | lyon/src/tesselation/path_tesselator.rs:666-678 | on a side change, one triangle per consecutive pair of the stack, each closed by the new vertex |
| MonotoneTesselator.PopConvex | lyon/src/tesselation/path_tesselator.rs:679-699 | on the same side, every pop emits one triangle closed by the new vertex; the bottom of the stack stays, and stack plus triangles is conserved |
| MonotoneTesselator.Vertex | lyon/src/tesselation/path_tesselator.rs:657-703 | requires the vertex to be below the previous one and the stack non-empty; afterwards the stack is open with at least two entries, the vertex is the top, triangles plus stack grow by exactly one, earlier triangles are kept, and a side change leaves exactly [previous, current] |
| MonotoneTesselator.End | lyon/src/tesselation/path_tesselator.rs:705-709 | feeding the last vertex on the opposite side adds `stack - 1` triangles after the old ones and discards the stack |
| MonotoneTesselator.Flush | lyon/src/tesselation/path_tesselator.rs:721-727 | the output gets the triangles appended in emission order; the list is left empty and the stack is untouched |
| MonotoneTesselator.Feed | lyon/src/tesselation/path_tesselator.rs:657-703 | feeding k descending vertices keeps the stack non-empty, adds exactly k to triangles plus stack, and leaves the last vertex as previous |
| MonotoneTesselator.FedVerticesAccounted | lyon/src/tesselation/path_tesselator.rs:643-703 | after `begin` and k calls to `vertex`, triangles plus stack equals k + 1, whatever the angle test answers |
| MonotoneTesselator.TriangleCount | lyon/src/tesselation/path_tesselator.rs:643-709 | `begin`, then k calls to `vertex`, then `end` yields exactly k triangles, whatever the angle test answers |
| MonotoneTesselatorScenarios.OneVertexGivesOneTriangle | lyon/src/tesselation/path_tesselator.rs:732-737 | the first unit-test scenario yields 1 triangle |
| MonotoneTesselatorScenarios.ZigZagGivesFourTriangles | lyon/src/tesselation/path_tesselator.rs:739-747 | the zig-zag scenario yields 4 triangles |
| MonotoneTesselatorScenarios.RightChainGivesFiveTriangles | lyon/src/tesselation/path_tesselator.rs:749-758 | the right-chain scenario yields 5 triangles |
| MonotoneTesselatorScenarios.LeftChainGivesFiveTriangles | lyon/src/tesselation/path_tesselator.rs:760-769 | the left-chain scenario yields 5 triangles |
| Sweep.New | lyon/src/tesselation/path_tesselator.rs:194-207 | the sweep starts with no spans and no crossings; synthetic ids start at the path's vertex count, in the sub-path slot just past the path's own |
| Sweep.NewVertex | lyon/src/tesselation/path_tesselator.rs:556-570 | allocates the next consecutive synthetic id, pushes exactly its position to the output, and keeps "the id indexes its own position" |
| Sweep.CrossingEvent | lyon/src/tesselation/path_tesselator.rs:523-538 | the queued crossing holds the two lower ends, in one order or the other |
| Sweep.TestIntersection | lyon/src/tesselation/path_tesselator.rs:512-553 | a parked edge, or one whose lower end is an end of the new segment, is never tested; no crossing changes nothing; a crossing allocates one vertex and inserts one event, keeping the queue sorted by (y, x) (an ordered insertion into a sorted queue) |
| Sweep.Slots | lyon/src/tesselation/path_tesselator.rs:496-510 | the edges visited are exactly both edges of every span, except the edge on the given side of the given span |
| Sweep.CheckIntersections | lyon/src/tesselation/path_tesselator.rs:496-510 | the edge being replaced is never looked at: if no other edge passes the filter, nothing changes; spans and emitted triangles never change; the sweep invariant is kept |
| Sweep.Crossings | lyon/src/tesselation/path_tesselator.rs:512-553 | the crossings found on a list of edges are at most one per edge, and none when no edge crosses |
| Sweep.CrossingIds | lyon/src/tesselation/path_tesselator.rs:536-539 | the crossings found take consecutive synthetic ids from the next free one |
| Sweep.TestEachQueuesCrossings | lyon/src/tesselation/path_tesselator.rs:496-553 | testing a list of edges queues exactly the crossings found on them (as a multiset), allocates one output vertex per crossing at its position, in order, and advances the synthetic id by their number |
| Sweep.CheckIntersectionsQueuesCrossings | lyon/src/tesselation/path_tesselator.rs:496-553 | `check_intersections` queues exactly the crossings on every other edge of the sweep line, each with a new output vertex at its position and the next consecutive id |
| Sweep.FindSpanAndSide | lyon/src/tesselation/path_tesselator.rs:268-281 | finds a match exactly when some span has a live edge ending at the vertex (otherwise `unreachable!`); the result is the first such span, with its left edge checked before its right one |
| Sweep.EndSpan | lyon/src/tesselation/path_tesselator.rs:620-624 | removes exactly the span at the index; flushes its triangles after the existing output, in order; changes nothing else |
| Sweep.OnEndEvent | lyon/src/tesselation/path_tesselator.rs:449-461 | succeeds exactly when the span exists and takes the vertex, and, when its right edge was parked at a merge vertex, so does a right neighbour; then removes exactly the span, or the span and that neighbour |
| Sweep.InsertEdge | lyon/src/tesselation/path_tesselator.rs:481-494 | only the edge on that side of that span changes, to the new live edge; without the crossing check nothing else changes |
| Sweep.HandOver | lyon/src/tesselation/path_tesselator.rs:297-305 | succeeds exactly when a right neighbour exists and the span takes the vertex; the neighbour's left edge is brought down to the vertex and the span ends, so the neighbour, with its own right edge and triangulation state, takes its place |
| Sweep.OnLeftEvent | lyon/src/tesselation/path_tesselator.rs:294-324 | succeeds exactly when the span exists and takes the vertex, and, when its right edge was parked, so does its neighbour; the span's left edge continues from the vertex to `next`; when its right edge was parked, the span first ends and its neighbour takes the new edge; every other span is unchanged |
| Sweep.LeftEventAtMerge | lyon/src/tesselation/path_tesselator.rs:297-307 | succeeds exactly when the neighbour exists and both spans take the vertex; the sweep line then loses one span: the neighbour takes the ended span's place, keeps its own right edge, and its left edge now runs from the vertex to `next` |
| Sweep.OnRightEvent | lyon/src/tesselation/path_tesselator.rs:326-336 | the span's right edge continues from the vertex to `next`; every other span and the left edge are unchanged |
| Sweep.OnRegularEvent | lyon/src/tesselation/path_tesselator.rs:284-292 | a vertex that no live edge ends at is `unreachable!`; otherwise the edge found by the lookup now runs from the vertex to `next`, the spans before it are unchanged, and one span is lost exactly when a left edge meets a parked right edge |
| Sweep.ParkBoth | lyon/src/tesselation/path_tesselator.rs:475-478 | the right edge of the span and the left edge of its neighbour both reach the merge vertex and are parked; nothing else changes |
| Sweep.OnMergeEvent | lyon/src/tesselation/path_tesselator.rs:463-479 | no spans is an underflow; no right neighbour fails the `assert!` at line 465; on success, the span between two consecutive merge vertices has been closed when there was one, and both edges end at the merge vertex and are parked |
| Sweep.OnDownEvent | lyon/src/tesselation/path_tesselator.rs:437-447 | an unmatched vertex is `unreachable!`; a down event never increases the span count, and keeps it only at a merge |
| Sweep.FindSpanUp | lyon/src/tesselation/path_tesselator.rs:338-366 | the index is that of the first span with a live edge to the right of the vertex, or the span count; the flag says the vertex is inside that span |
| Sweep.UpEdges | lyon/src/tesselation/path_tesselator.rs:371-388 | the two new edges leave the up vertex towards its two neighbours, live, in one order or the other |
| Sweep.SplitAtMerge | lyon/src/tesselation/path_tesselator.rs:407-416 | at a parked left edge, the split vertex continues the left span's right edge and this span's left edge, resolving the merge without a new span |
| Sweep.OpenSplitSpan | lyon/src/tesselation/path_tesselator.rs:423-430 | inserts one span in front of the split span, bounded by that span's left edge and an edge down to the vertex |
| Sweep.SplitSpan | lyon/src/tesselation/path_tesselator.rs:417-434 | a split inside a span adds exactly one span; the two new edges become the facing edges of the old and the new span |
| Sweep.InsertSplitEdges | lyon/src/tesselation/path_tesselator.rs:432-433 | the two new edges of a split start at the vertex: the right edge of span `idx` and the left edge of span `idx + 1`; nothing else on the sweep line changes |
| Sweep.OnSplitEvent | lyon/src/tesselation/path_tesselator.rs:403-435 | a split adds one span, or none at a parked left edge; a parked left edge on the first span is an underflow |
| Sweep.OnUpEvent | lyon/src/tesselation/path_tesselator.rs:368-401 | a start vertex (one not inside a span) always succeeds, inserting exactly one new span where `find_span_up` points; an up vertex never closes a span and opens at most one |
| Sweep.OnIntersectionEvent | lyon/src/tesselation/path_tesselator.rs:572-618 | a crossing with no edge ending at `b_down` is `unreachable!`; handling one never queues or allocates |
| Sweep.Classify | lyon/src/tesselation/path_tesselator.rs:249-258 | down means below both neighbours, and up means below neither |
| Sweep.RegularNext | lyon/src/tesselation/path_tesselator.rs:260-264 | a regular vertex continues towards the neighbour below it |
| Sweep.OnEvent | lyon/src/tesselation/path_tesselator.rs:246-266 | down events never add spans; up events never remove spans; regular events remove at most one span |
| Sweep.Drain | lyon/src/tesselation/path_tesselator.rs:233-240 | crossings are only removed from the front of the queue: what is left is a suffix whose head is not above the event |
| Sweep.PopIntersection | lyon/src/tesselation/path_tesselator.rs:235-236 | handling the queue's head removes exactly that entry and allocates no vertex; the queue stays sorted |
| Sweep.EventAt | lyon/src/tesselation/path_tesselator.rs:224-231 | an event carries the vertex and its previous and next vertices on the sub-path, with their positions |
| Sweep.Tesselate | lyon/src/tesselation/path_tesselator.rs:222-244 | the event loop keeps the sweep invariant; it only appends to the output and only allocates ids forward |
| Sweep.TesselatePathFill | lyon/src/tesselation/path_tesselator.rs:783-805 | on success, the output starts with the path's vertices in order, and every synthetic vertex id indexes its own position; an empty path yields an empty output |
| MonotoneHelpers.GetVertexType | geom/src/monotone.rs:110-131 | merge or end when below both neighbours; split or start when above both, split and merge when the angle is at most PI; otherwise right when the boundary goes down, left when it goes up; exactly one type per input |
| MonotoneHelpers.StrictlyBetweenIsRegular | src/vodk/geom/monotone.rs:46-67 | a vertex strictly between its neighbours in y is a chain vertex, whatever the angle |
| MonotoneHelpers.TurnVertexIsExtreme | geom/src/monotone.rs:110-128 | a split or merge vertex is a local extreme in y with an angle at most PI |
| MonotoneHelpers.IsYMonotone | geom/src/monotone.rs:335-356 | false exactly when some vertex of the face is a split or merge vertex |
| MonotoneHelpers.Find | src/vodk/geom/monotone.rs:69-74 | `Some(i)` for the first i holding the item, `None` exactly when it is absent |
| MonotoneHelpers.CompareEventsIsKeyOrder | geom/src/monotone.rs:244-254 | the decomposition's event comparator orders by ascending y, ties by descending x |
| MonotoneHelpers.SortEvents | src/vodk/geom/monotone.rs:135-149 | the sorted edges are a permutation ordered by ascending y, ties by descending x |
| MonotoneHelpers.CompareDescendingYIsKeyOrder | src/vodk/geom/monotone.rs:75-79 | the status comparator orders by descending y |
| MonotoneHelpers.SortX | src/vodk/geom/monotone.rs:75-79 | despite its name, sorts into a permutation by descending y |
| MonotoneHelpers.SweepStatusPush | geom/src/monotone.rs:134-144 | the result is the old status plus the edge, by descending y |
| MonotoneHelpers.SweepStatusPushIsInsertion | src/vodk/geom/monotone.rs:81-89 | on an ordered status, the push is a stable ordered insertion |
| MonotoneHelpers.NewStream | geom/src/monotone.rs:385-395 | a new stream writes into the buffer from the start and has written nothing |
| MonotoneHelpers.Write | geom/src/monotone.rs:371-379 | succeeds exactly when the three ids are pairwise distinct and fit; stores them (as `u16`) at offset, offset+1 and offset+2, advances by 3, and touches nothing else |
| MonotoneHelpers.WriteAll | src/vodk/geom/monotone.rs:255-263 | successive writes lay the triangles out consecutively from the offset, keeping what came before |
| MonotoneHelpers.CountAfterWrites | geom/src/monotone.rs:381 | after k triangles into a fresh stream, `count` is k |
| MonotoneHelpers.WriteAllSucceeds | src/vodk/geom/monotone.rs:255-265 | distinct ids and room in the buffer are enough for every write to succeed |
| Polygon.VertexIdRange | geom/src/tesselation/polygon.rs:9-14 | the range starts at `from` and ends at `to`; `to < from` underflows |
| Polygon.Vertex | geom/src/tesselation/polygon.rs:120-122 | the vertex stored at a point; a point past the end panics |
| Polygon.Next | geom/src/tesselation/polygon.rs:124-126 | on a non-empty loop, the next point stays on the loop and wraps the last point to 0; an empty loop panics |
| Polygon.Previous | geom/src/tesselation/polygon.rs:128-130 | n-1 at point 0, p-1 elsewhere; point 0 of an empty loop underflows |
| Polygon.Advance | geom/src/tesselation/polygon.rs:49-54 | forward is `next` and backward is `previous` |
| Polygon.NextPreviousInverse | geom/src/tesselation/polygon.rs:124-130 | on a loop point, `next` and `previous` stay on the loop and undo each other |
| Polygon.AdvanceRoundTrip | geom/src/tesselation/polygon.rs:49-54 | advancing one way and then the other returns to the start |
| Polygon.PointIds | geom/src/tesselation/polygon.rs:107-112 | the point ids are exactly the points that have a vertex |
| Polygon.PushVertex | geom/src/tesselation/polygon.rs:166-170 | appends, returning the new last point, and keeps the others |
| Polygon.InsertVertex | geom/src/tesselation/polygon.rs:182-184 | the new vertex is at the point; earlier points are kept and later points shift up by one; past the end panics |
| Polygon.RemoveVertex | geom/src/tesselation/polygon.rs:172-175 | returns the removed vertex; earlier points are kept and later points shift down by one; past the end panics |
| Polygon.RemoveAfterInsert | geom/src/tesselation/polygon.rs:172-184 | removing what was just inserted gives back the polygon and the vertex |
| Polygon.InsertAfterRemove | geom/src/tesselation/polygon.rs:172-184 | re-inserting what was just removed gives back the polygon |
| Polygon.AddHole | geom/src/tesselation/polygon.rs:237-239 | the hole is appended; the outer loop is kept |
| Polygon.PolygonAt | geom/src/tesselation/polygon.rs:241-246 | id 0 is the outer loop; id i is hole i-1; past the holes panics |
| Polygon.GetSubPolygon | geom/src/tesselation/polygon.rs:336-346 | `None` exactly when the id is past the holes |
| Polygon.GetSubPolygonAgreesWithPolygon | geom/src/tesselation/polygon.rs:241-246 | `get_sub_polygon` and `polygon` give the same loop wherever `polygon` does not panic |
| Polygon.PolygonIds | geom/src/tesselation/polygon.rs:272-277 | one id per loop (holes + 1), and exactly the ids with a sub-polygon |
| Polygon.ComplexPointIds | geom/src/tesselation/polygon.rs:262-270 | the point ids of a loop, tagged with its polygon id |
| Polygon.ComplexVertex | geom/src/tesselation/polygon.rs:306-308 | defined exactly for a point of an existing loop, and is then that loop's vertex at that point; any other id is out of bounds |
| Polygon.ComplexNext | geom/src/tesselation/polygon.rs:310-315 | keeps the polygon id and circulates within that loop |
| Polygon.ComplexPrevious | geom/src/tesselation/polygon.rs:317-322 | keeps the polygon id and circulates backwards within that loop |
| Polygon.ComplexNextPreviousInverse | geom/src/tesselation/polygon.rs:310-322 | on every loop of a complex polygon, `next` and `previous` undo each other |
| Polygon.NumVerticesOnLoop | geom/src/tesselation/polygon.rs:332-334 | the size of the loop the point belongs to |
| Polygon.ComplexNumVertices | geom/src/tesselation/polygon.rs:324-330 | the outer loop's size plus every hole's, which is also the sum of the loop sizes over the polygon ids |
| Polygon.TotalIsSumOverLoops | geom/src/tesselation/polygon.rs:324-334 | the total counts each loop named by `polygon_ids` exactly once |
| Polygon.IterFrom | geom/src/tesselation/polygon.rs:91-94 | a fresh iterator at the point, having yielded nothing |
| Polygon.IterNext | geom/src/tesselation/polygon.rs:435-445 | the k-th item is `vertices[(first + k) mod n]`; after n items it yields `None` and stays put |
| Polygon.SizeHint | geom/src/tesselation/polygon.rs:447-450 | `(n, Some(n))` |
| Polygon.SizeHintExactWhenFresh | geom/src/tesselation/polygon.rs:447-450 | on a fresh iterator both bounds are the number of items it yields |
| Polygon.SizeHintOverstatesAfterNext | geom/src/tesselation/polygon.rs:447-450 | after `k` items have been taken, the hint still reports the whole polygon: it exceeds what is left by `k` |
| Polygon.Drain | geom/src/tesselation/polygon.rs:435-445 | the remaining items are exactly n - count wrap-around vertices, in order |
| Polygon.IterFromIsRotation | geom/src/tesselation/polygon.rs:91-94 | an iterator from a point yields the loop rotated to start there: every vertex exactly once |
| Polygon.AngleSum | geom/src/tesselation/polygon.rs:487-494 | the angle sum is defined exactly when every vertex involved has a position |
| Polygon.ComputeWindingOrder | geom/src/tesselation/polygon.rs:479-501 | `None` exactly below three vertices; otherwise an answer exactly when every vertex has a position (else out of bounds), and it is clockwise exactly when the sum of the directed angles exceeds (n-1)PI |
| Polygon.AngleSumBound | geom/src/tesselation/polygon.rs:487-494 | when each of the first k directed angles the sum adds is at most a bound, the sum is at most k times it |
| Polygon.SmallAnglesAreCounterClockwise | geom/src/tesselation/polygon.rs:479-501 | a positioned loop of at least three vertices whose n directed angles are each at most (n-1)PI/n is reported counter-clockwise |
| IdLookupTable.New | collections/id_lookup_table.rs:13-19 | empty, with no free list |
| IdLookupTable.NewIsValid | collections/id_lookup_table.rs:13-19 | a new table satisfies the table invariant |
| IdLookupTable.Lookup | collections/id_lookup_table.rs:61 | the sparse entry of the id (its offset while live, its free-list link while free); out of bounds exactly past the sparse array |
| IdLookupTable.IndexForOffset | collections/id_lookup_table.rs:63 | the id stored at the offset; out of bounds exactly past the dense array |
| IdLookupTable.LookupIndexForOffsetInverse | collections/id_lookup_table.rs:61-63 | with the round trip, `lookup(index_for_offset(o)) == o` for every offset below `len`, and an id is live exactly when its lookup is such an offset that maps back to it |
| IdLookupTable.Add | collections/id_lookup_table.rs:29-40 | with no free list, returns the old sparse length; otherwise returns the free-list head and advances the free list to the head's link; either way the id is appended to the dense array, its lookup is the old length, `len` grows by 1, and other ids' lookups are kept |
| IdLookupTable.Remove | collections/id_lookup_table.rs:42-53 | for a live id: `len` drops by 1; the last dense id moves into the freed offset with its lookup updated; the id becomes the free-list head; the round trip is kept |
| IdLookupTable.RemoveAsWritten | collections/id_lookup_table.rs:42-53 | `remove` of any id: fails exactly when the id is out of range, the table is empty (the `len() - 1` underflow), its link is past the dense array, or the moved id is out of range; otherwise `len` drops by 1 and the id heads the free list; on a live id it is `Remove` |
| IdLookupTable.DoubleRemoveAsWritten | collections/id_lookup_table.rs:42-53 | removing an already freed id is not caught: it drops a live id from the dense array and makes the free list a self-cycle |
| IdLookupTable.Clear | collections/id_lookup_table.rs:55-59 | `len` is 0 and the free list is reset; the table is valid again |
| IdLookupTable.AddPreservesValid | collections/id_lookup_table.rs:29-40 | `add` keeps the invariant, pops the free list, makes the new id live with lookup `len`, and keeps every live id's lookup |
| IdLookupTable.RemovePreservesValid | collections/id_lookup_table.rs:42-53 | `remove` of a live id keeps the invariant, with the id pushed onto the free list |
| IdLookupTable.RemoveThenAddReusesId | collections/id_lookup_table.rs:35-52 | the next `add` after a `remove` returns the removed id (LIFO reuse) |
| IdLookupTable.Run | collections/id_lookup_table.rs:95-124 | any sequence of adds and live removes keeps the invariant |
| IdLookupTable.RoundTripAfterAnyRun | collections/id_lookup_table.rs:95-124 | `lookup(index_for_offset(o)) == o` for every live offset after any such sequence from an empty table |
| IdLookupTable.SwapOffsetsAsWritten | collections/id_lookup_table.rs:82-88 | fails exactly when an offset is past the dense array or a stored id past the sparse array; otherwise the dense entries are exchanged, and on a table with the round trip no id's recorded offset moves |
| IdLookupTable.SwapOffsetsAsWrittenBreaksRoundTrip | collections/id_lookup_table.rs:82-88 | after two adds, `swap_offsets(0, 1)` as written breaks the round trip |
| IdLookupTable.SwapOffsets | collections/id_lookup_table.rs:82-88 | the dense entries are exchanged and each moved id points at its new offset; the round trip is kept and no other id changes |
| IdLookupTable.SwapAtIndices | collections/id_lookup_table.rs:76-80 | the intended `swap_at_indices`: `swap_offsets(lookup(a), lookup(b))` with the corrected swap, so the two ids exchange offsets and the round trip is kept |
| IdLookupTable.SwapAtIndicesAsWritten | collections/id_lookup_table.rs:76-88 | `swap_at_indices` as written, for any two ids: fails exactly when an id, its lookup or the id stored there is out of range; on two live ids the dense entries are exchanged but no recorded offset moves |
| IdLookupTable.SwapAtIndicesAsWrittenOnFreedId | collections/id_lookup_table.rs:76-85 | add, add, remove(0), then `swap_at_indices(0, 1)`: the freed id looks up `FREE_LIST_NONE` and the swap is out of bounds |
| IdLookupTable.SwapAtIndicesAsWrittenBreaksRoundTrip | collections/id_lookup_table.rs:76-88 | after two adds, `swap_at_indices(0, 1)` as written breaks the round trip, while the corrected one exchanges the two offsets |
| IdLookupTable.SwapOffsetsPreservesValid | src/vodk/base/containers.rs:143-149 | swapping keeps the whole invariant and the free list |
| FreeListVector.NewAsWritten | src/vodk/base/containers.rs:17-22 | empty, with no free list |
| FreeListVector.AddAsWritten | src/vodk/base/containers.rs:31-42 | with no free list, appends and returns the old length; otherwise returns the head, stores the payload there, pops the free list, and keeps the slot's old link |
| FreeListVector.RemoveAsWritten | src/vodk/base/containers.rs:44-47 | the slot links to the old head and becomes the head |
| FreeListVector.BorrowAsWritten | src/vodk/base/containers.rs:53-56 | succeeds exactly when the slot's link is `FREE_LIST_NONE` |
| FreeListVector.ReusedSlotFailsBorrowAsWritten | src/vodk/base/containers.rs:31-56 | add, add, remove, remove, add: the id just handed out fails `borrow` |
| FreeListVector.FreedSlotPassesBorrowAsWritten | src/vodk/base/containers.rs:31-56 | add then remove: the freed slot still passes `borrow` |
| FreeListVector.Contents | src/vodk/base/containers.rs:53-56 | the payloads by id of exactly the slots in use |
| FreeListVector.New | src/vodk/base/containers.rs:17-22 | valid and empty |
| FreeListVector.Add | src/vodk/base/containers.rs:31-42 | with no free list, appends the payload as a slot in use, keeps every earlier slot, and returns the old length; otherwise returns the head and pops the free list; the payload is stored in use; other slots are kept |
| FreeListVector.Remove | src/vodk/base/containers.rs:44-47 | the slot is marked free, linking to the old head, and becomes the head; other slots are kept |
| FreeListVector.Clear | src/vodk/base/containers.rs:49-51 | only the free list is reset: the data keeps its length and the slots in use stay readable |
| FreeListVector.ClearThenAddAppends | src/vodk/base/containers.rs:31-51 | the first `add` after `clear` appends and returns the old length |
| FreeListVector.Borrow | src/vodk/base/containers.rs:53-56 | succeeds exactly on a slot in use, with its payload; a free slot fails the assertion |
| FreeListVector.BorrowMut | src/vodk/base/containers.rs:58-61 | succeeds exactly on a slot in use; the write changes only that payload |
| FreeListVector.AddRefinesInsert | src/vodk/base/containers.rs:31-42 | on a valid vector `add` hands out a fresh id, inserts the payload under it, and pops the free list |
| FreeListVector.RemoveRefinesDelete | src/vodk/base/containers.rs:44-47 | `remove` deletes exactly that id and pushes it onto the free list |
| FreeListVector.AddThenBorrow | src/vodk/base/containers.rs:31-56 | an id just added borrows the payload just stored |
| FreeListVector.RemoveThenBorrowFails | src/vodk/base/containers.rs:44-56 | a removed id no longer borrows |
| FreeListVector.ReusedSlotBorrows | src/vodk/base/containers.rs:31-56 | the failing scenario of the code as written succeeds on the corrected vector |
| IdVector.New | id/src/id_vector.rs:19-25 | empty |
| IdVector.Index | id/src/id_vector.rs:113-119 | reads `data[id]`; past the end panics |
| IdVector.IndexMut | id/src/id_vector.rs:113-119 | writes `data[id]` only; past the end panics |
| IdVector.Push | id/src/id_vector.rs:62-66 | returns the old length as the id; the length grows by 1, and the element is there |
| IdVector.Clear | id/src/id_vector.rs:69-71 | length 0 |
| IdVector.Set | id/src/id_vector.rs:77-86 | `self[id] == val`; the length is `max(len, id + 1)`; other elements are kept; the gap is filled with the default |
| IdVector.SetPastEnd | id/src/id_vector.rs:77-86 | past the end, `set` is the vector followed by the default gap and then the value |
| IdVector.SetScenario | id/src/id_vector.rs:205-230 | the unit test's sequence of `set`s; ends with length 21 |
| IdVector.Grow | id/src/id_vector.rs:91-96 | appends exactly that many defaults after the old contents |
| IdVector.Shrink | id/src/id_vector.rs:97-102 | drops exactly that many elements from the end |
| IdVector.Resize | id/src/id_vector.rs:90-103 | the length is exactly `size`; the surviving prefix is kept; new slots hold the default |
| IdVector.ResizeBack | id/src/id_vector.rs:90-103 | growing then shrinking back restores the vector |
| IdVector.WithLen | id/src/id_vector.rs:106-110 | n elements, all default |
| IdVector.Ids | id/src/id_vector.rs:152-154 | the ids are exactly the valid indices of the slice |
| Sorting.CompareKeys | lyon/src/tesselation/path_tesselator.rs:69-77 | less, greater and equal exactly as the lexicographic order says |
| Sorting.Insert | lyon/src/tesselation/path_tesselator.rs:540-550 | adds exactly the element and keeps a sorted sequence sorted |
| Sorting.SortBy | lyon/src/tesselation/path_tesselator.rs:69-77 | `sort_by` yields a sorted permutation |
| Sorting.SortSortedIsIdentity | lyon/src/tesselation/path_tesselator.rs:540-550 | sorting a sorted sequence changes nothing |
| Sorting.PushThenSortIsInsert | lyon/src/tesselation/path_tesselator.rs:540-550 | pushing onto a sorted queue and re-sorting is an ordered insertion |

## Left out

- Floating-point geometry. `is_below`, `directed_angle`, `directed_angle2`,
  `segment_intersection` and `line_horizontal_intersection` are uninterpreted oracle
  functions. The geometric correctness of the triangulation (that the triangles tile the
  fill) is therefore not modelled, nor are the whole-path triangle counts of the
  tessellator's tests.
- The path type (`path.rs`) is not part of this model. A path is its vertex array plus
  sub-paths that tile it as non-empty consecutive runs. Every sub-path is treated as
  closed: `EventVector.NextId` and `EventVector.PreviousId` wrap around, as the source does. `TesselatePathFill` and `SetPath`
  require that shape, which `set_path`'s own length check assumes.
- `EventVector.Position`: returns the point (0, 0) for an id outside the vertex array.
  Every id the sweep builds is valid, so this default is never read.
- Printing and logging (`log_sl`, the `println!` calls of `tesselate_path_fill`), and the
  unimplemented `vertex_aa` option.
- `begin_geometry` and the `VertexBufferBuilder` trait. The output is an `Output` value
  that starts empty and is given the path's vertices, as `tesselate_path_fill` does.
- Overflow of `u16`/`u32` ids and handles is not modelled; ids are unbounded `nat`s.
  The exception is `SliceTriangleStream::write`, whose `as u16` cast is explicit.
- The `debug_assert!`s of the sweep and of `SliceTriangleStream::write` are modelled as
  in a debug build: as failures, not as no-ops. The `debug_assert_eq!` of `set_path` cannot
  fail in the model: the well-formed-path precondition of `SetPath` discharges it.
- `Sweep.OnMergeEvent`: states the neighbour's left edge by the id of its lower end
  only, because the source's debug assertion compares ids and not positions.
- `Sweep.Valid` and `Sweep.Extends` are the invariants proved for the whole event loop.
  The stronger invariant, that every emitted triangle's ids index the output vertex
  buffer, is not proved.
- `Sweep.OnIntersectionEvent`: the span shapes it produces are not stated beyond the
  unchanged queue, ids and vertices.
- Stroke tessellation (`tesselate_path_stroke`, `tesselate_sub_path_stroke`,
  `extrude_along_tangent`) and `TesselatorOptions`: these are outside the fill core.
- The half-edge-kernel-driven bodies are not part of this model, because the
  `ConnectivityKernel` is not part of it either. These are `connect`, `split_face`,
  `y_monotone_decomposition`, `y_monotone_triangulation` and `triangulate_faces`.
  `is_y_monotone` walks a face given as its cyclic sequence of positions, and the
  orderings take the edge-to-position map as a function.
- `Polygon.ComputeWindingOrder`: the angle is the oracle's `directed_angle`, so the
  clockwise threshold is stated over the oracle's angle sum; which real polygons are
  reported clockwise is not stated.
- `IdLookupTable::with_capacity`, `reserve`, `indices`, `PodFreeListVector::with_capacity`,
  `IdVec::with_capacity`, `from_vec`, `into_vec` and the iterators: allocation hints and
  views with no behaviour beyond the data they expose.
- `IdLookupTable.Remove` requires a live id. `remove` of any other id is
  `IdLookupTable.RemoveAsWritten`, which models the panics, and
  `IdLookupTable.DoubleRemoveAsWritten` shows the silent corruption; `Remove` does not
  promise anything for such ids.
- `Polygon.SizeHint` is modelled as written: it reports the whole polygon whatever has
  been consumed (`Polygon.SizeHintOverstatesAfterNext`). On a fresh iterator it is exact
  (`Polygon.SizeHintExactWhenFresh`); `from_iter`, which is not part of this model, reads
  it only as a capacity.
- `IdLookupTable.SwapOffsets` and `IdLookupTable.SwapAtIndices`, the corrected swaps,
  require in-range offsets and live ids; what `swap_offsets` and `swap_at_indices` do on
  other inputs is `IdLookupTable.SwapOffsetsAsWritten` and
  `IdLookupTable.SwapAtIndicesAsWritten`.
- `IdLookupTable.Clear` is modelled as written. `PodFreeListVector::clear` keeps the
  data, and `FreeListVector.Clear` says so.

## Findings

| source | as written | input that shows it | evidently intended | confidence | as-written member | corrected member |
|---|---|---|---|---|---|---|
| collections/id_lookup_table.rs:82-88 | after exchanging the dense entries, the id now at `o2` is given offset `o1`, and the id now at `o1` is given offset `o2` (the same code is at src/vodk/base/containers.rs:143-149; `swap_at_indices`, collections/id_lookup_table.rs:76-80, calls it and inherits the fault) | two `add`s, then `swap_offsets(0, 1)`: offset 0 holds id 1, whose recorded offset is 1 | each moved id records the offset it now occupies, so `lookup(index_for_offset(o)) == o` still holds | not executed | IdLookupTable.SwapOffsetsAsWrittenBreaksRoundTrip, IdLookupTable.SwapAtIndicesAsWrittenBreaksRoundTrip | IdLookupTable.SwapOffsetsPreservesValid, IdLookupTable.SwapAtIndices |
| src/vodk/base/containers.rs:31-42 | `add` on a reused slot stores the payload but leaves the slot's free-list link as it was | add, add, remove(0), remove(1), add: id 1 is handed out, but its link is still 0, so `borrow(1)` fails its assertion | a slot handed out by `add` is marked in use and can be borrowed | not executed | FreeListVector.ReusedSlotFailsBorrowAsWritten | FreeListVector.AddThenBorrow |
| src/vodk/base/containers.rs:44-47 | `remove` on an empty free list sets the slot's link to `FREE_LIST_NONE`, which is also the "in use" mark | add, then remove(0): `borrow(0)` still succeeds on the freed slot | a removed slot can no longer be borrowed | not executed | FreeListVector.FreedSlotPassesBorrowAsWritten | FreeListVector.RemoveThenBorrowFails |

=== FILE: event_vector.dfy ===
/** The path a fill tessellation reads, and its sorted event list (`EventVector`).

    The path type is not part of this model beyond what the sweep uses: a path is
    its array of vertex positions plus sub-paths, each a non-empty run of
    consecutive vertices that closes on itself.  A vertex is addressed by a
    `PathVertexId`: its index in the array and the sub-path it belongs to.
 */
module EventVector {
  import opened Geometry
  import opened Sorting
  import MonotoneHelpers

  datatype PathVertexId = PathVertexId(vertexId: nat, pathId: nat)

  datatype SubPath = SubPath(first: nat, count: nat)

  datatype Path = Path(vertices: seq<Point>, subPaths: seq<SubPath>)

  /** The number of vertices in the first `k` sub-paths. */
  function Covered(subs: seq<SubPath>, k: nat): nat
    requires k <= |subs|
  {
    if k == 0 then 0 else Covered(subs, k - 1) + subs[k - 1].count
  }

  /** Sub-paths tile the vertex array in order and none is empty. */
  ghost predicate WellFormed(p: Path) {
    TiledUpTo(p.subPaths, |p.subPaths|) && Covered(p.subPaths, |p.subPaths|) == |p.vertices|
  }

  /** Each of the first `k` sub-paths is non-empty and starts where the previous one ends. */
  ghost predicate TiledUpTo(subs: seq<SubPath>, k: nat)
    requires k <= |subs|
  {
    k == 0 || (TiledUpTo(subs, k - 1) && subs[k - 1].first == Covered(subs, k - 1) && subs[k - 1].count > 0)
  }

  lemma {:induction false} TiledAt(subs: seq<SubPath>, j: nat, k: nat)
    requires j < k <= |subs| && TiledUpTo(subs, k)
    ensures subs[j].first == Covered(subs, j) && subs[j].count > 0
    decreases k
  {
    if j < k - 1 {
      TiledAt(subs, j, k - 1);
    }
  }

  /** A vertex id that names a vertex of the path, inside the sub-path it claims. */
  ghost predicate ValidId(p: Path, id: PathVertexId) {
    && id.pathId < |p.subPaths|
    && p.subPaths[id.pathId].first <= id.vertexId < p.subPaths[id.pathId].first + p.subPaths[id.pathId].count
    && p.subPaths[id.pathId].first + p.subPaths[id.pathId].count <= |p.vertices|
  }

  /** `vertex(id).position`; the default is never reached for a valid id. */
  function Position(p: Path, id: PathVertexId): Point {
    if id.vertexId < |p.vertices| then p.vertices[id.vertexId] else Point(0.0, 0.0)
  }

  /** `next(id)`: the following vertex of the same sub-path, wrapping to its first. */
  function NextId(p: Path, id: PathVertexId): (r: PathVertexId)
    requires ValidId(p, id)
    ensures ValidId(p, r) && r.pathId == id.pathId
  {
    var s := p.subPaths[id.pathId];
    PathVertexId(if id.vertexId + 1 == s.first + s.count then s.first else id.vertexId + 1, id.pathId)
  }

  /** `previous(id)`: the preceding vertex of the same sub-path, wrapping to its last. */
  function PreviousId(p: Path, id: PathVertexId): (r: PathVertexId)
    requires ValidId(p, id)
    ensures ValidId(p, r) && r.pathId == id.pathId
  {
    var s := p.subPaths[id.pathId];
    PathVertexId(if id.vertexId == s.first then s.first + s.count - 1 else id.vertexId - 1, id.pathId)
  }

  lemma NextPreviousInverse(p: Path, id: PathVertexId)
    requires ValidId(p, id)
    ensures PreviousId(p, NextId(p, id)) == id && NextId(p, PreviousId(p, id)) == id
  {
  }

  /** `vertex_ids(sub_path)`. */
  function SubPathIds(p: Path, k: nat): (r: seq<PathVertexId>)
    requires k < |p.subPaths|
    ensures |r| == p.subPaths[k].count
    ensures forall i :: 0 <= i < |r| ==> r[i] == PathVertexId(p.subPaths[k].first + i, k)
  {
    seq(p.subPaths[k].count, i requires 0 <= i => PathVertexId(p.subPaths[k].first + i, k))
  }

  /** The ids of the first `k` sub-paths, in path order. */
  function IdsUpTo(p: Path, k: nat): (r: seq<PathVertexId>)
    requires k <= |p.subPaths|
    decreases k
  {
    if k == 0 then [] else IdsUpTo(p, k - 1) + SubPathIds(p, k - 1)
  }

  /** On a well-formed path the ids in path order are `0, 1, ..., n - 1`, each tagged with its
      sub-path. */
  lemma {:induction false} IdsUpToAreConsecutive(p: Path, k: nat)
    requires WellFormed(p) && k <= |p.subPaths|
    ensures |IdsUpTo(p, k)| == Covered(p.subPaths, k)
    ensures forall i :: 0 <= i < |IdsUpTo(p, k)| ==> IdsUpTo(p, k)[i].vertexId == i && ValidId(p, IdsUpTo(p, k)[i])
  {
    if k > 0 {
      IdsUpToAreConsecutive(p, k - 1);
      SubPathInside(p, k - 1);
      var a := IdsUpTo(p, k - 1);
      var b := SubPathIds(p, k - 1);
      var r := a + b;
      assert r == IdsUpTo(p, k);
      forall i | 0 <= i < |r| ensures r[i].vertexId == i && ValidId(p, r[i]) {
        if i >= |a| {
          assert r[i] == b[i - |a|];
        } else {
          assert r[i] == a[i];
        }
      }
    }
  }

  /** Sub-path `k` starts where the earlier ones end and lies inside the vertex array. */
  lemma {:induction false} SubPathInside(p: Path, k: nat)
    requires WellFormed(p) && k < |p.subPaths|
    ensures p.subPaths[k].first == Covered(p.subPaths, k)
    ensures p.subPaths[k].first + p.subPaths[k].count <= |p.vertices|
  {
    var subs := p.subPaths;
    TiledAt(subs, k, |subs|);
    assert Covered(subs, k + 1) == Covered(subs, k) + subs[k].count;
    CoveredMonotone(subs, k + 1, |subs|);
    assert Covered(subs, |subs|) == |p.vertices|;
  }

  lemma {:induction false} CoveredMonotone(subs: seq<SubPath>, j: nat, k: nat)
    requires j <= k <= |subs|
    ensures Covered(subs, j) <= Covered(subs, k)
    decreases k - j
  {
    if j < k {
      CoveredMonotone(subs, j, k - 1);
    }
  }

  /** Every vertex id of the path, sub-path by sub-path. */
  function AllIds(p: Path): seq<PathVertexId> {
    IdsUpTo(p, |p.subPaths|)
  }

  /** The key the event comparator orders by: y ascending, then x ascending. */
  function PointKey(v: Point): Key {
    Key(v.y, v.x)
  }

  function EventKey(p: Path, id: PathVertexId): Key {
    PointKey(Position(p, id))
  }

  /** The comparator of `set_path`, as written; the intersection queue is sorted with the same
      one. */
  function CompareEvents(va: Point, vb: Point): (r: Ordering) {
    if va.y > vb.y then Greater
    else if va.y < vb.y then Less
    else if va.x > vb.x then Greater
    else if va.x < vb.x then Less
    else Equal
  }

  lemma CompareEventsIsKeyOrder(va: Point, vb: Point)
    ensures CompareEvents(va, vb) == CompareKeys(PointKey(va), PointKey(vb))
  {
  }

  /** The half-edge monotone decomposition breaks ties the other way: of two events at the same
      height, the one on the left comes first here and last there. */
  lemma OppositeTieBreak(va: Point, vb: Point)
    requires va.y == vb.y && va.x < vb.x
    ensures CompareEvents(va, vb) == Less
    ensures MonotoneHelpers.CompareEvents(va, vb) == Greater
  {
  }

  /** `set_path`: collects every vertex id and sorts them from top to bottom (y pointing
      down), ties broken left to right.  The length check is a debug assertion that a
      well-formed path always passes. */
  function SetPath(p: Path): (r: seq<PathVertexId>)
    requires WellFormed(p)
    ensures |r| == |p.vertices|
    ensures multiset(r) == multiset(AllIds(p))
    ensures forall i :: 0 <= i < |r| ==> ValidId(p, r[i])
    ensures SortedBy(r, id => EventKey(p, id))
    ensures forall i, j :: 0 <= i < j < |r| ==>
              || Position(p, r[i]).y < Position(p, r[j]).y
              || (Position(p, r[i]).y == Position(p, r[j]).y && Position(p, r[i]).x <= Position(p, r[j]).x)
  {
    IdsUpToAreConsecutive(p, |p.subPaths|);
    var r := SortBy(AllIds(p), id => EventKey(p, id));
    assert forall i, j :: 0 <= i < j < |r| ==> KeyLe(EventKey(p, r[i]), EventKey(p, r[j]));
    forall i | 0 <= i < |r| ensures ValidId(p, r[i]) {
      assert r[i] in multiset(AllIds(p));
      var j :| 0 <= j < |AllIds(p)| && AllIds(p)[j] == r[i];
    }
    r
  }

  /** `set_path` yields each vertex of the path exactly once: the ids in path order are exactly
      `0 .. n`, and the result is a permutation of them. */
  lemma SetPathCoversEveryVertex(p: Path)
    requires WellFormed(p)
    ensures |AllIds(p)| == |p.vertices|
    ensures forall v :: 0 <= v < |p.vertices| ==> AllIds(p)[v].vertexId == v
    ensures forall v :: 0 <= v < |p.vertices| ==> AllIds(p)[v] in multiset(SetPath(p))
  {
    IdsUpToAreConsecutive(p, |p.subPaths|);
  }
}

=== FILE: free_list_vector.dfy ===
/** `PodFreeListVector`: a vector of slots whose freed entries are threaded into an
    intrusive free list and handed out again by `add`.

    Each slot carries a payload and a link.  In the code as written the link is a
    plain index, and `FREE_LIST_NONE` plays two roles: "end of the free list" and
    "this slot is in use" (the test `borrow` and `borrow_mut` assert).  The two
    roles clash, which the `...AsWritten` members below exhibit.  The corrected
    vector keeps a link that tells the roles apart and is the one the rest of this
    module reasons about.
 */
module FreeListVector {
  import opened Results

  const FREE_LIST_NONE: nat := 2147483647

  // ---------------------------------------------------------------------------
  // The code as written.

  datatype RawSlot<T> = RawSlot(payload: T, freeList: nat)

  datatype RawVector<T> = RawVector(data: seq<RawSlot<T>>, freeList: nat)

  function NewAsWritten<T>(): (r: RawVector<T>)
    ensures |r.data| == 0 && r.freeList == FREE_LIST_NONE
  {
    RawVector([], FREE_LIST_NONE)
  }

  /** `add` as written: a reused slot gets the new payload but keeps its old link. */
  function AddAsWritten<T>(v: RawVector<T>, val: T): (r: Result<(RawVector<T>, nat)>)
    ensures v.freeList == FREE_LIST_NONE ==>
              r.Ok? && r.value.1 == |v.data| && r.value.0.data == v.data + [RawSlot(val, FREE_LIST_NONE)]
    ensures v.freeList != FREE_LIST_NONE && v.freeList < |v.data| ==>
              r.Ok? && r.value.1 == v.freeList && r.value.0.freeList == v.data[v.freeList].freeList
              && |r.value.0.data| == |v.data|
              && r.value.0.data[v.freeList] == RawSlot(val, v.data[v.freeList].freeList)
    ensures v.freeList != FREE_LIST_NONE && v.freeList >= |v.data| ==> r == Err(IndexOutOfBounds)
  {
    if v.freeList == FREE_LIST_NONE then
      Ok((RawVector(v.data + [RawSlot(val, FREE_LIST_NONE)], FREE_LIST_NONE), |v.data|))
    else if v.freeList >= |v.data| then
      Err(IndexOutOfBounds)
    else
      var index := v.freeList;
      var next := v.data[index].freeList;
      Ok((RawVector(v.data[index := RawSlot(val, next)], next), index))
  }

  /** `remove` as written: the slot links to the old head, which may be `FREE_LIST_NONE`. */
  function RemoveAsWritten<T>(v: RawVector<T>, idx: nat): (r: Result<RawVector<T>>)
    ensures idx < |v.data| <==> r.Ok?
    ensures r.Ok? ==> r.value.freeList == idx && |r.value.data| == |v.data|
                      && r.value.data[idx].freeList == v.freeList
  {
    if idx >= |v.data| then Err(IndexOutOfBounds)
    else Ok(RawVector(v.data[idx := RawSlot(v.data[idx].payload, v.freeList)], idx))
  }

  /** `borrow` as written: asserts that the slot's link is `FREE_LIST_NONE`. */
  function BorrowAsWritten<T>(v: RawVector<T>, id: nat): (r: Result<T>)
    ensures r.Ok? <==> id < |v.data| && v.data[id].freeList == FREE_LIST_NONE
    ensures r.Ok? ==> r.value == v.data[id].payload
  {
    if id >= |v.data| then Err(IndexOutOfBounds)
    else if v.data[id].freeList != FREE_LIST_NONE then Err(AssertionFailed)
    else Ok(v.data[id].payload)
  }

  /** Add twice, remove both, add again: the id handed out is 1, but its slot still links to 0,
      so borrowing the live id fails the assertion. */
  lemma ReusedSlotFailsBorrowAsWritten(a: int, b: int, c: int)
    ensures var v0 := NewAsWritten<int>();
            var a1 := AddAsWritten(v0, a);
            a1.Ok? && a1.value.1 == 0 &&
            var a2 := AddAsWritten(a1.value.0, b);
            a2.Ok? && a2.value.1 == 1 &&
            var r1 := RemoveAsWritten(a2.value.0, 0);
            r1.Ok? &&
            var r2 := RemoveAsWritten(r1.value, 1);
            r2.Ok? &&
            var a3 := AddAsWritten(r2.value, c);
            a3.Ok? && a3.value.1 == 1 &&
            BorrowAsWritten(a3.value.0, 1) == Err(AssertionFailed)
  {
    var v0 := NewAsWritten<int>();
    var a1 := AddAsWritten(v0, a);
    var a2 := AddAsWritten(a1.value.0, b);
    assert a2.value.0.data == [RawSlot(a, FREE_LIST_NONE), RawSlot(b, FREE_LIST_NONE)];
    var r1 := RemoveAsWritten(a2.value.0, 0);
    assert r1.value.data == [RawSlot(a, FREE_LIST_NONE), RawSlot(b, FREE_LIST_NONE)];
    var r2 := RemoveAsWritten(r1.value, 1);
    assert r2.value.data == [RawSlot(a, FREE_LIST_NONE), RawSlot(b, 0)] && r2.value.freeList == 1;
    var a3 := AddAsWritten(r2.value, c);
    assert a3.value.0.data[1] == RawSlot(c, 0);
  }

  /** Add once and remove it: the free list was empty, so the freed slot links to
      `FREE_LIST_NONE` and borrowing it still succeeds. */
  lemma FreedSlotPassesBorrowAsWritten(a: int)
    ensures var a1 := AddAsWritten(NewAsWritten<int>(), a);
            a1.Ok? && a1.value.1 == 0 &&
            var r1 := RemoveAsWritten(a1.value.0, 0);
            r1.Ok? && BorrowAsWritten(r1.value, 0) == Ok(a)
  {
  }

  // ---------------------------------------------------------------------------
  // The corrected vector.

  /** A slot is either in use or free; a free slot names the next free slot, with
      `FREE_LIST_NONE` ending the list. */
  datatype Link = InUse | Free(next: nat)

  datatype Slot<T> = Slot(payload: T, link: Link)

  datatype Vector<T> = Vector(data: seq<Slot<T>>, freeList: nat)

  /** The abstract value: the payload of every slot in use, by id. */
  function Contents<T>(v: Vector<T>): (m: map<nat, T>)
    ensures forall id: nat :: id in m <==> id < |v.data| && v.data[id].link.InUse?
    ensures forall id: nat :: id in m ==> m[id] == v.data[id].payload
  {
    map id | 0 <= id < |v.data| && v.data[id].link.InUse? :: v.data[id].payload
  }

  /** `fl` is the free list spelled out: it starts at `freeList` and follows the links. */
  ghost predicate Valid<T>(v: Vector<T>, fl: seq<nat>) {
    && |v.data| < FREE_LIST_NONE
    && (if fl == [] then v.freeList == FREE_LIST_NONE else v.freeList == fl[0])
    && (forall i :: 0 <= i < |fl| ==>
          fl[i] < |v.data| && v.data[fl[i]].link == Free(if i + 1 < |fl| then fl[i + 1] else FREE_LIST_NONE))
    && (forall i, j :: 0 <= i < j < |fl| ==> fl[i] != fl[j])
  }

  lemma ChainAt<T>(v: Vector<T>, fl: seq<nat>, i: nat)
    requires Valid(v, fl) && i < |fl|
    ensures fl[i] < |v.data| && v.data[fl[i]].link == Free(if i + 1 < |fl| then fl[i + 1] else FREE_LIST_NONE)
  {
  }

  function New<T>(): (r: Vector<T>)
    ensures Valid(r, []) && Contents(r) == map[]
  {
    Vector([], FREE_LIST_NONE)
  }

  /** `add`, with the reused slot marked in use. */
  function Add<T>(v: Vector<T>, val: T): (r: Result<(Vector<T>, nat)>)
    ensures v.freeList == FREE_LIST_NONE ==>
              && r.Ok? && r.value.1 == |v.data|
              && r.value.0.data == v.data + [Slot(val, InUse)] && r.value.0.freeList == FREE_LIST_NONE
    ensures v.freeList != FREE_LIST_NONE ==> (r.Ok? <==> v.freeList < |v.data|)
    ensures v.freeList != FREE_LIST_NONE && r.Ok? ==>
              r.value.1 == v.freeList && |r.value.0.data| == |v.data|
              && (v.data[v.freeList].link.Free? ==> r.value.0.freeList == v.data[v.freeList].link.next)
              && forall k :: 0 <= k < |v.data| && k != r.value.1 ==> r.value.0.data[k] == v.data[k]
    ensures r.Ok? ==> r.value.1 < |r.value.0.data| && r.value.0.data[r.value.1] == Slot(val, InUse)
    ensures r.Err? ==> r.fault == IndexOutOfBounds
  {
    if v.freeList == FREE_LIST_NONE then
      Ok((Vector(v.data + [Slot(val, InUse)], FREE_LIST_NONE), |v.data|))
    else if v.freeList >= |v.data| then
      Err(IndexOutOfBounds)
    else
      var index := v.freeList;
      var next := match v.data[index].link case Free(n) => n case InUse => FREE_LIST_NONE;
      Ok((Vector(v.data[index := Slot(val, InUse)], next), index))
  }

  /** `remove`: the slot is marked free and becomes the free-list head. */
  function Remove<T>(v: Vector<T>, idx: nat): (r: Result<Vector<T>>)
    ensures idx < |v.data| <==> r.Ok?
    ensures r.Ok? ==> r.value.freeList == idx && |r.value.data| == |v.data|
                      && r.value.data[idx] == Slot(v.data[idx].payload, Free(v.freeList))
                      && forall k :: 0 <= k < |v.data| && k != idx ==> r.value.data[k] == v.data[k]
  {
    if idx >= |v.data| then Err(IndexOutOfBounds)
    else Ok(Vector(v.data[idx := Slot(v.data[idx].payload, Free(v.freeList))], idx))
  }

  /** `clear`: forgets the free list and keeps every slot, so the slots in use stay readable
      and the free ones are never handed out again. */
  function Clear<T>(v: Vector<T>): (r: Vector<T>)
    ensures |r.data| == |v.data| && r.freeList == FREE_LIST_NONE
    ensures |v.data| < FREE_LIST_NONE ==> Valid(r, [])
    ensures Contents(r) == Contents(v)
  {
    Vector(v.data, FREE_LIST_NONE)
  }

  /** After `clear` the next `add` appends: it hands out the old length, never a freed slot. */
  lemma ClearThenAddAppends<T>(v: Vector<T>, val: T)
    ensures var r := Add(Clear(v), val);
            && r.Ok? && r.value.1 == |v.data|
            && r.value.0.data == v.data + [Slot(val, InUse)]
  {
  }

  /** `borrow`: the payload of a slot in use; the assertion fails on a free slot. */
  function Borrow<T>(v: Vector<T>, id: nat): (r: Result<T>)
    ensures r.Ok? <==> id in Contents(v)
    ensures r.Ok? ==> r.value == Contents(v)[id]
    ensures r.Err? && id < |v.data| ==> r.fault == AssertionFailed
  {
    if id >= |v.data| then Err(IndexOutOfBounds)
    else if !v.data[id].link.InUse? then Err(AssertionFailed)
    else Ok(v.data[id].payload)
  }

  /** `borrow_mut`, with the write through the returned reference folded in. */
  function BorrowMut<T>(v: Vector<T>, idx: nat, val: T): (r: Result<Vector<T>>)
    ensures r.Ok? <==> idx in Contents(v)
    ensures r.Ok? ==> Contents(r.value) == Contents(v)[idx := val] && r.value.freeList == v.freeList
  {
    if idx >= |v.data| then Err(IndexOutOfBounds)
    else if !v.data[idx].link.InUse? then Err(AssertionFailed)
    else
      var r := Vector(v.data[idx := Slot(val, InUse)], v.freeList);
      assert Contents(r) == Contents(v)[idx := val] by {
        forall id: nat ensures id in Contents(r) <==> id in Contents(v)[idx := val] {
          if id < |v.data| && id != idx {
            assert r.data[id] == v.data[id];
          }
        }
      }
      Ok(r)
  }

  /** `add` on a valid vector succeeds with a fresh id, stores the payload under it and leaves
      every other entry alone; the free list loses its head. */
  lemma {:induction false} AddRefinesInsert<T>(v: Vector<T>, fl: seq<nat>, val: T)
    requires Valid(v, fl) && |v.data| + 1 < FREE_LIST_NONE
    ensures var r := Add(v, val);
            && r.Ok?
            && r.value.1 !in Contents(v)
            && Contents(r.value.0) == Contents(v)[r.value.1 := val]
            && Valid(r.value.0, if fl == [] then [] else fl[1..])
  {
    var r := Add(v, val);
    var w := r.value.0;
    var id := r.value.1;
    if fl == [] {
      assert w.data == v.data + [Slot(val, InUse)];
      forall k: nat ensures k in Contents(w) <==> k in Contents(v)[id := val] {
        if k < |v.data| {
          assert w.data[k] == v.data[k];
        }
      }
      forall k: nat | k in Contents(w) ensures Contents(w)[k] == Contents(v)[id := val][k] {
        if k < |v.data| {
          assert w.data[k] == v.data[k];
        }
      }
    } else {
      assert id == fl[0] && v.data[id].link == Free(if 1 < |fl| then fl[1] else FREE_LIST_NONE);
      forall k: nat ensures k in Contents(w) <==> k in Contents(v)[id := val] {
        if k < |v.data| && k != id {
          assert w.data[k] == v.data[k];
        }
      }
      forall k: nat | k in Contents(w) ensures Contents(w)[k] == Contents(v)[id := val][k] {
        if k != id {
          assert w.data[k] == v.data[k];
        }
      }
      assert Contents(w) == Contents(v)[id := val];
      var fl' := fl[1..];
      assert w.freeList == (if 1 < |fl| then fl[1] else FREE_LIST_NONE);
      assert fl' != [] ==> fl'[0] == fl[1];
      forall i, j | 0 <= i < j < |fl'|
        ensures fl'[i] != fl'[j]
      {
        assert fl'[i] == fl[i + 1] && fl'[j] == fl[j + 1];
      }
      forall i | 0 <= i < |fl'|
        ensures fl'[i] < |w.data| && w.data[fl'[i]].link == Free(if i + 1 < |fl'| then fl'[i + 1] else FREE_LIST_NONE)
      {
        var j := i + 1;
        assert fl'[i] == fl[j] && fl[j] != fl[0];
        ChainAt(v, fl, j);
        assert j + 1 < |fl| ==> fl'[i + 1] == fl[j + 1];
      }
      assert |w.data| < FREE_LIST_NONE;
      assert (if fl' == [] then w.freeList == FREE_LIST_NONE else w.freeList == fl'[0]);
      assert Valid(w, fl');
    }
  }

  /** `remove` of an id in use drops exactly that entry and pushes the id onto the free list. */
  lemma {:induction false} RemoveRefinesDelete<T>(v: Vector<T>, fl: seq<nat>, id: nat)
    requires Valid(v, fl) && id in Contents(v)
    ensures var r := Remove(v, id);
            && r.Ok?
            && Contents(r.value) == Contents(v) - {id}
            && Valid(r.value, [id] + fl)
  {
    var w := Remove(v, id).value;
    forall k: nat ensures k in Contents(w) <==> k in Contents(v) - {id} {
      if k < |v.data| && k != id {
        assert w.data[k] == v.data[k];
      }
    }
    forall k: nat | k in Contents(w) ensures Contents(w)[k] == (Contents(v) - {id})[k] {
      assert w.data[k] == v.data[k];
    }
    var fl' := [id] + fl;
    assert fl'[0] == id;
    forall i | 0 <= i < |fl|
      ensures fl[i] != id
    {
      ChainAt(v, fl, i);
    }
    forall i | 0 <= i < |fl'|
      ensures fl'[i] < |w.data| && w.data[fl'[i]].link == Free(if i + 1 < |fl'| then fl'[i + 1] else FREE_LIST_NONE)
    {
      if i > 0 {
        var j := i - 1;
        assert fl'[i] == fl[j] && fl[j] != id;
        ChainAt(v, fl, j);
        assert w.data[fl[j]] == v.data[fl[j]];
      } else if fl != [] {
        assert fl'[1] == fl[0];
      }
    }
    forall i, j | 0 <= i < j < |fl'|
      ensures fl'[i] != fl'[j]
    {
      assert fl'[j] == fl[j - 1];
      if i > 0 {
        assert fl'[i] == fl[i - 1];
      }
    }
    assert |w.data| < FREE_LIST_NONE;
    assert (if fl' == [] then w.freeList == FREE_LIST_NONE else w.freeList == fl'[0]);
    assert Valid(w, fl');
  }

  /** What `ReusedSlotFailsBorrowAsWritten` shows broken: an id `add` returns can be borrowed and
      yields the payload just stored. */
  lemma AddThenBorrow<T>(v: Vector<T>, fl: seq<nat>, val: T)
    requires Valid(v, fl) && |v.data| + 1 < FREE_LIST_NONE
    ensures var r := Add(v, val); r.Ok? && Borrow(r.value.0, r.value.1) == Ok(val)
  {
  }

  /** What `FreedSlotPassesBorrowAsWritten` shows broken: a removed id can no longer be
      borrowed. */
  lemma RemoveThenBorrowFails<T>(v: Vector<T>, fl: seq<nat>, id: nat)
    requires Valid(v, fl) && id in Contents(v)
    ensures var r := Remove(v, id); r.Ok? && Borrow(r.value, id) == Err(AssertionFailed)
  {
  }

  /** The replay of `ReusedSlotFailsBorrowAsWritten` on the corrected vector. */
  lemma ReusedSlotBorrows(a: int, b: int, c: int)
    ensures var a1 := Add(New<int>(), a);
            a1.Ok? &&
            var a2 := Add(a1.value.0, b);
            a2.Ok? &&
            var r1 := Remove(a2.value.0, 0);
            r1.Ok? &&
            var r2 := Remove(r1.value, 1);
            r2.Ok? &&
            var a3 := Add(r2.value, c);
            a3.Ok? && a3.value.1 == 1 && Borrow(a3.value.0, 1) == Ok(c)
  {
    var a1 := Add(New<int>(), a);
    var a2 := Add(a1.value.0, b);
    assert a2.value.0.data == [Slot(a, InUse), Slot(b, InUse)];
    var r1 := Remove(a2.value.0, 0);
    var r2 := Remove(r1.value, 1);
    assert r2.value.data == [Slot(a, Free(FREE_LIST_NONE)), Slot(b, Free(0))] && r2.value.freeList == 1;
  }
}

=== FILE: geometry.dfy ===
/** Points, sides, orderings and the geometric oracle.

    Coordinates are `real`.  Every floating-point test of the source (angles,
    "is below", segment intersection, horizontal line intersection) is an
    uninterpreted function carried by an `Oracle`, so that everything proved
    about the tessellator holds whatever those tests answer.
 */
module Geometry {
  import opened Results

  datatype Point = Point(x: real, y: real)

  function Sub(a: Point, b: Point): Point {
    Point(a.x - b.x, a.y - b.y)
  }

  /** z-component of the cross product of two vectors. */
  function Cross(u: Point, v: Point): real {
    u.x * v.y - u.y * v.x
  }

  /** `std::f32::consts::PI`, written out exactly. */
  const PI: real := 3.1415927410125732421875

  /** Which boundary chain of a span a vertex belongs to. */
  datatype Side = Left | Right {
    function Opposite(): (r: Side)
      ensures r != this
    {
      match this
      case Left => Right
      case Right => Left
    }
  }

  /** `std::cmp::Ordering`. */
  datatype Ordering = Less | Equal | Greater {
    function Reverse(): Ordering {
      match this
      case Less => Greater
      case Equal => Equal
      case Greater => Less
    }
  }

  /** The geometric tests the sweep relies on, left uninterpreted.
      - `below(a, b)`: `is_below(a, b)` of the math utilities;
      - `angle(u, v)`: `directed_angle(u, v)`, meant to lie in [0, 2*PI);
      - `angle2(p, a, b)`: `p.directed_angle2(a, b)`;
      - `segmentIntersection(a1, a2, b1, b2)`: the crossing point of two segments, if any;
      - `lineX(a, b, y)`: `line_horizontal_intersection(a, b, y)`, the x where line ab meets height y. */
  datatype Oracle = Oracle(
    below: (Point, Point) -> bool,
    angle: (Point, Point) -> real,
    angle2: (Point, Point, Point) -> real,
    segmentIntersection: (Point, Point, Point, Point) -> Option<Point>,
    lineX: (Point, Point, real) -> real)

  /** The convexity test shared by the monotone tessellator:
      `directed_angle(p - q, r - q) <= PI`. */
  predicate AngleAtMostPi(angle: (Point, Point) -> real, p: Point, q: Point, r: Point) {
    angle(Sub(p, q), Sub(r, q)) <= PI
  }
}

=== FILE: id_lookup_table.dfy ===
/** `IdLookupTable`: stable ids mapped to compacted dense offsets.

    `dense` (the source's `data_to_index`) lists the live ids in offset order;
    `sparse` (`index_to_data`) maps an id to its offset while the id is live, and
    to the next id of the free list while it is free.  `freeList` is the head of
    that intrusive list, `FREE_LIST_NONE` when it is empty.  Both copies of the
    table in the repository (collections/ and src/vodk/base/) are the same code
    and are modelled once here.
 */
module IdLookupTable {
  import opened Results

  const FREE_LIST_NONE: nat := 2147483647

  datatype Table = Table(dense: seq<nat>, sparse: seq<nat>, freeList: nat)

  function New(): (r: Table)
    ensures Len(r) == 0 && r.freeList == FREE_LIST_NONE
  {
    Table([], [], FREE_LIST_NONE)
  }

  function Len(t: Table): nat { |t.dense| }

  /** `lookup`: the sparse entry of the id, which is its offset while the id is live and its
      free-list link while it is free; past the sparse array it panics. */
  function Lookup(t: Table, id: nat): (r: Result<nat>)
    ensures r.Ok? <==> id < |t.sparse|
    ensures r.Ok? ==> r.value == t.sparse[id]
    ensures r.Err? ==> r.fault == IndexOutOfBounds
  {
    if id < |t.sparse| then Ok(t.sparse[id]) else Err(IndexOutOfBounds)
  }

  /** `index_for_offset`: the id stored at a dense offset; past the dense array it panics. */
  function IndexForOffset(t: Table, offset: nat): (r: Result<nat>)
    ensures r.Ok? <==> offset < |t.dense|
    ensures r.Ok? ==> r.value == t.dense[offset]
    ensures r.Err? ==> r.fault == IndexOutOfBounds
  {
    if offset < |t.dense| then Ok(t.dense[offset]) else Err(IndexOutOfBounds)
  }

  /** `lookup(index_for_offset(o)) == o` for every live offset. */
  ghost predicate RoundTrip(t: Table) {
    forall o :: 0 <= o < |t.dense| ==> t.dense[o] < |t.sparse| && t.sparse[t.dense[o]] == o
  }

  ghost predicate Live(t: Table, id: nat) {
    id < |t.sparse| && t.sparse[id] < |t.dense| && t.dense[t.sparse[id]] == id
  }

  /** `fl` is the free list as a sequence: it starts at `freeList`, each slot links to the next,
      the last one to `FREE_LIST_NONE`. */
  ghost predicate Chain(t: Table, fl: seq<nat>) {
    && (if fl == [] then t.freeList == FREE_LIST_NONE else t.freeList == fl[0])
    && forall i :: 0 <= i < |fl| ==>
         fl[i] < |t.sparse| && t.sparse[fl[i]] == (if i + 1 < |fl| then fl[i + 1] else FREE_LIST_NONE)
  }

  /** The table invariant, with its free list spelled out as `fl`: the round trip holds, the free
      ids are distinct and not live, and every id is either live or free. */
  ghost predicate Valid(t: Table, fl: seq<nat>) {
    && |t.sparse| < FREE_LIST_NONE
    && RoundTrip(t)
    && Chain(t, fl)
    && (forall i, j :: 0 <= i < j < |fl| ==> fl[i] != fl[j])
    && (forall i, o :: 0 <= i < |fl| && 0 <= o < |t.dense| ==> fl[i] != t.dense[o])
    && |t.dense| + |fl| == |t.sparse|
  }

  /** With the round trip, `lookup` and `index_for_offset` are inverse bijections between the
      live ids and the offsets `0 .. len`. */
  lemma LookupIndexForOffsetInverse(t: Table, id: nat, o: nat)
    requires RoundTrip(t)
    ensures o < Len(t) ==> IndexForOffset(t, o).Ok? && Lookup(t, IndexForOffset(t, o).value) == Ok(o)
    ensures Live(t, id) <==> Lookup(t, id).Ok? && Lookup(t, id).value < Len(t)
                             && IndexForOffset(t, Lookup(t, id).value) == Ok(id)
  {
  }

  /** One link of a chain. */
  lemma ChainAt(t: Table, fl: seq<nat>, i: nat)
    requires Chain(t, fl) && i < |fl|
    ensures fl[i] < |t.sparse| && t.sparse[fl[i]] == (if i + 1 < |fl| then fl[i + 1] else FREE_LIST_NONE)
  {
  }

  lemma NewIsValid()
    ensures Valid(New(), [])
  {
  }

  /** `add`: reuses the free-list head if there is one, otherwise appends a fresh id. */
  function Add(t: Table): (r: (Table, nat))
    requires t.freeList == FREE_LIST_NONE || t.freeList < |t.sparse|
    ensures r.0.dense == t.dense + [r.1]
    ensures r.1 < |r.0.sparse| && r.0.sparse[r.1] == |t.dense|
    ensures Len(r.0) == Len(t) + 1
    ensures t.freeList == FREE_LIST_NONE ==>
              r.1 == |t.sparse| && |r.0.sparse| == |t.sparse| + 1 && r.0.freeList == FREE_LIST_NONE
    ensures t.freeList != FREE_LIST_NONE ==>
              r.1 == t.freeList && r.0.freeList == t.sparse[t.freeList] && |r.0.sparse| == |t.sparse|
    ensures forall id :: 0 <= id < |t.sparse| && id != r.1 ==> r.0.sparse[id] == t.sparse[id]
  {
    if t.freeList == FREE_LIST_NONE then
      (Table(t.dense + [|t.sparse|], t.sparse + [|t.dense|], FREE_LIST_NONE), |t.sparse|)
    else
      var idx := t.freeList;
      (Table(t.dense + [idx], t.sparse[idx := |t.dense|], t.sparse[idx]), idx)
  }

  /** `remove`: swap-removes the id's dense entry and pushes the id onto the free list. */
  function Remove(t: Table, id: nat): (r: Table)
    requires RoundTrip(t) && Live(t, id)
    ensures Len(r) == Len(t) - 1
    ensures r.freeList == id && |r.sparse| == |t.sparse| && r.sparse[id] == t.freeList
    ensures RoundTrip(r)
    ensures t.sparse[id] != |t.dense| - 1 ==>
              r.dense[t.sparse[id]] == t.dense[|t.dense| - 1] && r.sparse[t.dense[|t.dense| - 1]] == t.sparse[id]
    ensures forall o :: 0 <= o < |r.dense| && o != t.sparse[id] ==> r.dense[o] == t.dense[o]
    ensures forall k :: 0 <= k < |t.sparse| && k != id && k != t.dense[|t.dense| - 1] ==> r.sparse[k] == t.sparse[k]
  {
    var o := t.sparse[id];
    var last := |t.dense| - 1;
    if o == last then
      Table(t.dense[..last], t.sparse[id := t.freeList], id)
    else
      var moved := t.dense[last];
      assert moved != id;
      var dense' := t.dense[..last][o := moved];
      var sparse' := t.sparse[moved := o][id := t.freeList];
      assert forall p :: 0 <= p < |dense'| && p != o ==> dense'[p] != id && dense'[p] != moved by {
        forall p | 0 <= p < |dense'| && p != o
          ensures dense'[p] != id && dense'[p] != moved
        {
          assert t.sparse[t.dense[p]] == p;
        }
      }
      Table(dense', sparse', id)
  }

  /** `remove` exactly as written, for any id.  It panics when the id is past the table, when
      the table is empty (`len() - 1` underflows), and when the id's stored value is not a
      dense offset (as for a free id whose link is `FREE_LIST_NONE`).  Otherwise it runs to
      completion whether or not the id is live; on a live id it is `Remove`. */
  function RemoveAsWritten(t: Table, id: nat): (r: Result<Table>)
    ensures r.Ok? <==>
              && id < |t.sparse| && |t.dense| > 0 && t.sparse[id] < |t.dense|
              && (t.sparse[id] < |t.dense| - 1 ==> t.dense[|t.dense| - 1] < |t.sparse|)
    ensures r.Err? ==> r.fault == (if |t.dense| == 0 && id < |t.sparse| then Underflow else IndexOutOfBounds)
    ensures r.Ok? ==>
              && Len(r.value) == Len(t) - 1 && |r.value.sparse| == |t.sparse|
              && r.value.freeList == id && r.value.sparse[id] == t.freeList
    ensures RoundTrip(t) && Live(t, id) ==> r == Ok(Remove(t, id))
  {
    if id >= |t.sparse| then Err(IndexOutOfBounds)
    else if |t.dense| == 0 then Err(Underflow)
    else
      var o := t.sparse[id];
      var last := |t.dense| - 1;
      if o == last then Ok(Table(t.dense[..last], t.sparse[id := t.freeList], id))
      else
        var moved := t.dense[last];
        if moved >= |t.sparse| || o >= last then Err(IndexOutOfBounds)
        else Ok(Table(t.dense[..last][o := moved], t.sparse[moved := o][id := t.freeList], id))
  }

  /** Removing an id twice is not caught: after four adds and the removal of ids 0 and 1,
      removing 1 again succeeds, drops the live id 3 from the table and makes the free list
      a cycle on 1. */
  lemma DoubleRemoveAsWritten()
    ensures var t := Remove(Remove(Add(Add(Add(Add(New()).0).0).0).0, 0), 1);
            && Live(t, 3) && !Live(t, 1)
            && RemoveAsWritten(t, 1).Ok?
            && var r := RemoveAsWritten(t, 1).value;
            && !Live(r, 3) && r.freeList == 1 && r.sparse[1] == 1
  {
    var t0 := Add(Add(Add(Add(New()).0).0).0).0;
    assert t0.dense == [0, 1, 2, 3] && t0.sparse == [0, 1, 2, 3];
    var t1 := Remove(t0, 0);
    assert t1.dense == [3, 1, 2] && t1.sparse == [FREE_LIST_NONE, 1, 2, 0] && t1.freeList == 0;
    var t := Remove(t1, 1);
    assert t.dense == [3, 2] && t.sparse == [FREE_LIST_NONE, 0, 1, 0] && t.freeList == 1;
    var r := RemoveAsWritten(t, 1).value;
    assert r.dense == [2] && r.sparse == [FREE_LIST_NONE, 1, 0, 0];
  }

  /** `clear`: empties both arrays and the free list. */
  function Clear(t: Table): (r: Table)
    ensures Len(r) == 0 && r.freeList == FREE_LIST_NONE && Valid(r, [])
  {
    Table([], [], FREE_LIST_NONE)
  }

  /** Popping the head of a chain of distinct ids: a table that starts at the head's link and
      agrees everywhere but the head holds the rest of the chain. */
  lemma PopChain(t: Table, fl: seq<nat>, r: Table)
    requires Chain(t, fl) && fl != []
    requires forall i, j :: 0 <= i < j < |fl| ==> fl[i] != fl[j]
    requires |r.sparse| == |t.sparse| && r.freeList == t.sparse[fl[0]]
    requires forall id :: 0 <= id < |t.sparse| && id != fl[0] ==> r.sparse[id] == t.sparse[id]
    ensures Chain(r, fl[1..])
  {
    var fl' := fl[1..];
    ChainAt(t, fl, 0);
    forall i | 0 <= i < |fl'|
      ensures fl'[i] < |r.sparse|
      ensures r.sparse[fl'[i]] == (if i + 1 < |fl'| then fl'[i + 1] else FREE_LIST_NONE)
    {
      var j := i + 1;
      assert fl'[i] == fl[j] && fl[j] != fl[0];
      ChainAt(t, fl, j);
      assert r.sparse[fl[j]] == t.sparse[fl[j]];
      assert j + 1 < |fl| ==> fl'[i + 1] == fl[j + 1];
    }
    assert fl' == [] ==> r.freeList == FREE_LIST_NONE;
    assert fl' != [] ==> r.freeList == fl'[0];
    assert Chain(r, fl');
  }

  lemma {:induction false} AddPreservesValid(t: Table, fl: seq<nat>)
    requires Valid(t, fl)
    requires |t.sparse| + 1 < FREE_LIST_NONE
    ensures t.freeList == FREE_LIST_NONE || t.freeList < |t.sparse|
    ensures var r := Add(t);
            && Valid(r.0, if fl == [] then [] else fl[1..])
            && Live(r.0, r.1) && Lookup(r.0, r.1) == Ok(Len(t))
            && (forall id :: Live(t, id) ==> Live(r.0, id) && Lookup(r.0, id) == Lookup(t, id))
  {
    var r := Add(t);
    if fl == [] {
      assert |t.dense| == |t.sparse|;
      forall o | 0 <= o < |r.0.dense|
        ensures r.0.dense[o] < |r.0.sparse| && r.0.sparse[r.0.dense[o]] == o
      {
        if o < |t.dense| {
          assert r.0.dense[o] == t.dense[o];
        }
      }
    } else {
      var idx := fl[0];
      var fl' := fl[1..];
      forall o | 0 <= o < |r.0.dense|
        ensures r.0.dense[o] < |r.0.sparse| && r.0.sparse[r.0.dense[o]] == o
      {
        if o < |t.dense| {
          assert r.0.dense[o] == t.dense[o];
          assert t.dense[o] != idx;
        }
      }
      PopChain(t, fl, r.0);
      forall i, o | 0 <= i < |fl'| && 0 <= o < |r.0.dense|
        ensures fl'[i] != r.0.dense[o]
      {
        assert fl'[i] == fl[i + 1];
        if o < |t.dense| {
          assert r.0.dense[o] == t.dense[o];
        } else {
          assert fl[i + 1] != fl[0];
        }
      }
    }
  }

  lemma {:induction false} RemovePreservesValid(t: Table, fl: seq<nat>, id: nat)
    requires Valid(t, fl) && Live(t, id)
    ensures Valid(Remove(t, id), [id] + fl)
  {
    var r := Remove(t, id);
    var fl' := [id] + fl;
    var last := |t.dense| - 1;
    assert t.sparse[t.dense[last]] == last;
    forall i | 0 <= i < |fl|
      ensures fl[i] != id && fl[i] != t.dense[last]
    {
      assert t.dense[t.sparse[id]] == id;
    }
    assert Chain(r, fl') by {
      forall i | 0 <= i < |fl'|
        ensures fl'[i] < |r.sparse|
        ensures r.sparse[fl'[i]] == (if i + 1 < |fl'| then fl'[i + 1] else FREE_LIST_NONE)
      {
        if i > 0 {
          var j := i - 1;
          assert fl'[i] == fl[j];
          ChainAt(t, fl, j);
          assert i + 1 < |fl'| ==> fl'[i + 1] == fl[j + 1];
          assert r.sparse[fl[j]] == t.sparse[fl[j]];
        } else {
          assert r.sparse[id] == t.freeList;
        }
      }
    }
    forall i, j | 0 <= i < j < |fl'|
      ensures fl'[i] != fl'[j]
    {
      if i > 0 {
        assert fl'[i] == fl[i - 1] && fl'[j] == fl[j - 1];
      }
    }
    forall i, o | 0 <= i < |fl'| && 0 <= o < |r.dense|
      ensures fl'[i] != r.dense[o]
    {
      assert r.sparse[r.dense[o]] == o;
      if i == 0 {
        assert r.sparse[id] == t.freeList;
        if fl == [] {
          assert o < FREE_LIST_NONE;
        } else {
          assert fl[0] < |t.sparse|;
        }
      } else {
        assert fl'[i] == fl[i - 1];
        if o == t.sparse[id] {
          assert r.dense[o] == t.dense[last];
        } else {
          assert r.dense[o] == t.dense[o];
        }
      }
    }
  }

  /** A removed id becomes the free-list head, so the next `add` hands it out again. */
  lemma RemoveThenAddReusesId(t: Table, fl: seq<nat>, id: nat)
    requires Valid(t, fl) && Live(t, id)
    ensures var r := Remove(t, id); r.freeList < |r.sparse| && Add(r).1 == id
  {
  }

  /** Operations applied by a client of the table. */
  datatype Op = AddOp | RemoveOp(id: nat)

  /** Applies `ops` in order; `None` as soon as a removal names an id that is not live. */
  function Run(t: Table, ghost fl: seq<nat>, ops: seq<Op>): (r: Option<Table>)
    requires Valid(t, fl)
    requires |t.sparse| + |ops| < FREE_LIST_NONE
    ensures r.Some? ==> RoundTrip(r.value) && exists fl' :: Valid(r.value, fl')
    decreases |ops|
  {
    if ops == [] then Some(t)
    else match ops[0]
      case AddOp =>
        AddPreservesValid(t, fl);
        Run(Add(t).0, if fl == [] then [] else fl[1..], ops[1..])
      case RemoveOp(id) =>
        if id < |t.sparse| && t.sparse[id] < |t.dense| && t.dense[t.sparse[id]] == id then
          RemovePreservesValid(t, fl, id);
          Run(Remove(t, id), [id] + fl, ops[1..])
        else None
  }

  /** The round trip `lookup(index_for_offset(o)) == o` holds after any sequence of adds and
      removes of live ids starting from an empty (or cleared) table. */
  lemma RoundTripAfterAnyRun(ops: seq<Op>)
    requires |ops| < FREE_LIST_NONE
    ensures var r := Run(New(), [], ops);
            r.Some? ==> forall o :: 0 <= o < Len(r.value) ==>
                          IndexForOffset(r.value, o).Ok? && Lookup(r.value, IndexForOffset(r.value, o).value) == Ok(o)
  {
  }

  /** `swap_offsets` exactly as written: after exchanging the two dense entries it stores `o1`
      as the offset of the id now at `o2`, and `o2` for the id now at `o1`.  An offset past the
      dense array, or a stored id past the sparse array, panics. */
  function SwapOffsetsAsWritten(t: Table, o1: nat, o2: nat): (r: Result<Table>)
    ensures r.Ok? <==> o1 < |t.dense| && o2 < |t.dense| && t.dense[o1] < |t.sparse| && t.dense[o2] < |t.sparse|
    ensures r.Err? ==> r.fault == IndexOutOfBounds
    ensures r.Ok? ==> r.value.dense == t.dense[o1 := t.dense[o2]][o2 := t.dense[o1]]
                      && |r.value.sparse| == |t.sparse| && r.value.freeList == t.freeList
    ensures r.Ok? && RoundTrip(t) ==> r.value.sparse == t.sparse
  {
    if o1 >= |t.dense| || o2 >= |t.dense| then Err(IndexOutOfBounds)
    else
      var dense' := t.dense[o1 := t.dense[o2]][o2 := t.dense[o1]];
      if dense'[o2] >= |t.sparse| || dense'[o1] >= |t.sparse| then Err(IndexOutOfBounds)
      else
        var sparse' := t.sparse[dense'[o2] := o1][dense'[o1] := o2];
        Ok(Table(dense', sparse', t.freeList))
  }

  /** `swap_at_indices` exactly as written, through `swap_offsets` as written, for any two ids.
      On two live ids the ids exchange dense entries but no lookup moves, so each id still
      reports its old offset; a free id's lookup is its free-list link, which is usually not an
      offset, and then the swap panics. */
  function SwapAtIndicesAsWritten(t: Table, id1: nat, id2: nat): (r: Result<Table>)
    ensures r.Ok? <==> && id1 < |t.sparse| && id2 < |t.sparse|
                       && t.sparse[id1] < |t.dense| && t.sparse[id2] < |t.dense|
                       && t.dense[t.sparse[id1]] < |t.sparse| && t.dense[t.sparse[id2]] < |t.sparse|
    ensures r.Err? ==> r.fault == IndexOutOfBounds
    ensures RoundTrip(t) && Live(t, id1) && Live(t, id2) ==>
              && r.Ok?
              && |r.value.dense| == |t.dense|
              && r.value.dense[t.sparse[id1]] == id2 && r.value.dense[t.sparse[id2]] == id1
              && r.value.sparse == t.sparse
  {
    var o1 :- Lookup(t, id1);
    var o2 :- Lookup(t, id2);
    SwapOffsetsAsWritten(t, o1, o2)
  }

  /** Add, add, remove(0), then `swap_at_indices(0, 1)` as written: the freed id 0 looks up its
      free-list link `FREE_LIST_NONE`, and indexing the dense array with it panics. */
  lemma SwapAtIndicesAsWrittenOnFreedId()
    ensures var t := Remove(Add(Add(New()).0).0, 0);
            && !Live(t, 0) && Live(t, 1)
            && Lookup(t, 0) == Ok(FREE_LIST_NONE)
            && SwapAtIndicesAsWritten(t, 0, 1) == Err(IndexOutOfBounds)
  {
    var t0 := Add(Add(New()).0).0;
    assert t0.dense == [0, 1] && t0.sparse == [0, 1] && t0.freeList == FREE_LIST_NONE;
    var t := Remove(t0, 0);
    assert t.dense == [1] && t.sparse == [FREE_LIST_NONE, 0];
  }

  /** Two adds then `swap_at_indices(0, 1)` as written: both ids keep their lookups while their
      dense entries are exchanged, so the round trip is broken; the intended version keeps it. */
  lemma SwapAtIndicesAsWrittenBreaksRoundTrip()
    ensures var t := Add(Add(New()).0).0;
            && RoundTrip(t) && Live(t, 0) && Live(t, 1)
            && SwapAtIndicesAsWritten(t, 0, 1).Ok?
            && SwapAtIndicesAsWritten(t, 0, 1).value.sparse == [0, 1]
            && !RoundTrip(SwapAtIndicesAsWritten(t, 0, 1).value)
            && SwapAtIndices(t, 0, 1).sparse == [1, 0]
            && RoundTrip(SwapAtIndices(t, 0, 1))
  {
    var t := Add(Add(New()).0).0;
    assert t.dense == [0, 1] && t.sparse == [0, 1];
    var r := SwapAtIndicesAsWritten(t, 0, 1).value;
    assert r.dense == [1, 0];
    assert r.sparse[r.dense[0]] == 1;
    var c := SwapAtIndices(t, 0, 1);
    assert c.sparse == [0, 1][1 := 1][0 := 0][0 := 1][1 := 0];
  }

  /** Two adds then `swap_offsets(0, 1)`: offset 0 now holds id 1, whose recorded offset is 1. */
  lemma SwapOffsetsAsWrittenBreaksRoundTrip()
    ensures var t := Add(Add(New()).0).0;
            && RoundTrip(t) && SwapOffsetsAsWritten(t, 0, 1).Ok?
            && var r := SwapOffsetsAsWritten(t, 0, 1).value;
            && IndexForOffset(r, 0) == Ok(1) && Lookup(r, 1) == Ok(1)
            && !RoundTrip(r)
  {
    var t := Add(Add(New()).0).0;
    assert t.dense == [0, 1] && t.sparse == [0, 1];
    var r := SwapOffsetsAsWritten(t, 0, 1).value;
    assert r.dense == [1, 0] && r.sparse == [0, 1];
  }

  /** `swap_offsets` as intended: exchanges two dense entries and points each moved id at its new
      offset, so ids stay valid while the dense order changes. */
  function SwapOffsets(t: Table, o1: nat, o2: nat): (r: Table)
    requires o1 < |t.dense| && o2 < |t.dense|
    requires t.dense[o1] < |t.sparse| && t.dense[o2] < |t.sparse|
    ensures r.dense == t.dense[o1 := t.dense[o2]][o2 := t.dense[o1]]
    ensures |r.sparse| == |t.sparse| && r.freeList == t.freeList
    ensures RoundTrip(t) ==> RoundTrip(r)
    ensures RoundTrip(t) ==> Lookup(r, t.dense[o1]) == Ok(o2) && Lookup(r, t.dense[o2]) == Ok(o1)
    ensures forall id :: 0 <= id < |t.sparse| && id != t.dense[o1] && id != t.dense[o2] ==> r.sparse[id] == t.sparse[id]
  {
    var dense' := t.dense[o1 := t.dense[o2]][o2 := t.dense[o1]];
    var sparse' := t.sparse[dense'[o2] := o2][dense'[o1] := o1];
    assert RoundTrip(t) ==> RoundTrip(Table(dense', sparse', t.freeList)) by {
      if RoundTrip(t) {
        forall o | 0 <= o < |dense'|
          ensures dense'[o] < |sparse'| && sparse'[dense'[o]] == o
        {
          if o != o1 && o != o2 {
            assert dense'[o] == t.dense[o];
            assert t.sparse[t.dense[o1]] == o1 && t.sparse[t.dense[o2]] == o2;
          }
        }
      }
    }
    Table(dense', sparse', t.freeList)
  }

  /** `swap_at_indices` as intended: the two live ids exchange offsets.  It composes the
      corrected `SwapOffsets`; the source composes the one as written and inherits its fault
      (`SwapAtIndicesAsWritten`). */
  function SwapAtIndices(t: Table, id1: nat, id2: nat): (r: Table)
    requires RoundTrip(t) && Live(t, id1) && Live(t, id2)
    ensures r == SwapOffsets(t, Lookup(t, id1).value, Lookup(t, id2).value)
    ensures RoundTrip(r) && Lookup(r, id1) == Lookup(t, id2) && Lookup(r, id2) == Lookup(t, id1)
    ensures r.dense[Lookup(t, id1).value] == id2 && r.dense[Lookup(t, id2).value] == id1
  {
    SwapOffsets(t, t.sparse[id1], t.sparse[id2])
  }

  /** Swapping keeps the free list and the whole invariant intact. */
  lemma SwapOffsetsPreservesValid(t: Table, fl: seq<nat>, o1: nat, o2: nat)
    requires Valid(t, fl) && o1 < |t.dense| && o2 < |t.dense|
    ensures Valid(SwapOffsets(t, o1, o2), fl)
  {
    var r := SwapOffsets(t, o1, o2);
    forall i | 0 <= i < |fl|
      ensures fl[i] != t.dense[o1] && fl[i] != t.dense[o2]
    {
    }
    assert Chain(r, fl);
    forall i, o | 0 <= i < |fl| && 0 <= o < |r.dense|
      ensures fl[i] != r.dense[o]
    {
      if o != o1 && o != o2 {
        assert r.dense[o] == t.dense[o];
      }
    }
  }
}

=== FILE: id_vector.dfy ===
/** `IdVec`: a vector indexed by typed ids rather than by `usize`.

    The id type only converts to and from an index, so ids are modelled by their
    index (`nat`).  `Data::default()` is passed explicitly as `dflt` to the members
    that need it.
 */
module IdVector {
  import opened Results

  datatype IdVec<T> = IdVec(data: seq<T>)

  function New<T>(): (r: IdVec<T>)
    ensures Len(r) == 0
  {
    IdVec([])
  }

  function Len<T>(v: IdVec<T>): nat { |v.data| }

  /** `v[id]` (and `nth`): panics past the end. */
  function Index<T>(v: IdVec<T>, id: nat): (r: Result<T>)
    ensures r.Ok? <==> id < Len(v)
    ensures r.Ok? ==> r.value == v.data[id]
  {
    if id < |v.data| then Ok(v.data[id]) else Err(IndexOutOfBounds)
  }

  /** `v[id] = val` through `IndexMut`: panics past the end. */
  function IndexMut<T>(v: IdVec<T>, id: nat, val: T): (r: Result<IdVec<T>>)
    ensures r.Ok? <==> id < Len(v)
    ensures r.Ok? ==> Len(r.value) == Len(v) && Index(r.value, id) == Ok(val)
                      && forall k :: 0 <= k < Len(v) && k != id ==> Index(r.value, k) == Index(v, k)
  {
    if id < |v.data| then Ok(IdVec(v.data[id := val])) else Err(IndexOutOfBounds)
  }

  /** `push`: appends and returns the id of the new element, the old length. */
  function Push<T>(v: IdVec<T>, elt: T): (r: (IdVec<T>, nat))
    ensures r.1 == Len(v) && Len(r.0) == Len(v) + 1
    ensures Index(r.0, r.1) == Ok(elt)
    ensures forall id :: 0 <= id < Len(v) ==> Index(r.0, id) == Index(v, id)
  {
    (IdVec(v.data + [elt]), |v.data|)
  }

  /** `clear`. */
  function Clear<T>(v: IdVec<T>): (r: IdVec<T>)
    ensures Len(r) == 0
  {
    IdVec([])
  }

  /** `set`: pushes defaults while the vector is shorter than `id`, then pushes `val` if `id`
      is the next index and overwrites it otherwise.  The loop is the recursion. */
  function Set<T>(v: IdVec<T>, id: nat, val: T, dflt: T): (r: IdVec<T>)
    ensures Len(r) == if id < Len(v) then Len(v) else id + 1
    ensures Index(r, id) == Ok(val)
    ensures forall k :: 0 <= k < Len(v) && k != id ==> r.data[k] == v.data[k]
    ensures forall k :: Len(v) <= k < id ==> r.data[k] == dflt
    decreases id - |v.data|
  {
    if |v.data| < id then Set(Push(v, dflt).0, id, val, dflt)
    else if |v.data| == id then Push(v, val).0
    else IndexMut(v, id, val).value
  }

  /** The push loop of `resize`: appends `d` defaults. */
  function Grow<T>(v: IdVec<T>, d: nat, dflt: T): (r: IdVec<T>)
    ensures Len(r) == Len(v) + d
    ensures r.data[..Len(v)] == v.data
    ensures forall k :: Len(v) <= k < Len(r) ==> r.data[k] == dflt
    decreases d
  {
    if d == 0 then v else Grow(Push(v, dflt).0, d - 1, dflt)
  }

  /** The pop loop of `resize`: removes the last `d` elements. */
  function Shrink<T>(v: IdVec<T>, d: nat): (r: IdVec<T>)
    requires d <= Len(v)
    ensures Len(r) == Len(v) - d
    ensures r.data == v.data[..Len(v) - d]
    decreases d
  {
    if d == 0 then v else Shrink(IdVec(v.data[..|v.data| - 1]), d - 1)
  }

  /** `resize`: grows with defaults or truncates to exactly `size` elements. */
  function Resize<T>(v: IdVec<T>, size: nat, dflt: T): (r: IdVec<T>)
    ensures Len(r) == size
    ensures forall k :: 0 <= k < size && k < Len(v) ==> r.data[k] == v.data[k]
    ensures forall k :: Len(v) <= k < size ==> r.data[k] == dflt
  {
    if size > |v.data| then
      var r := Grow(v, size - |v.data|, dflt);
      assert forall k :: 0 <= k < |v.data| ==> r.data[k] == r.data[..|v.data|][k];
      r
    else Shrink(v, |v.data| - size)
  }

  /** `with_len`: `n` defaults. */
  function WithLen<T>(n: nat, dflt: T): (r: IdVec<T>)
    ensures Len(r) == n && forall k :: 0 <= k < n ==> Index(r, k) == Ok(dflt)
  {
    Resize(New(), n, dflt)
  }

  /** `IdRange`: the `count` consecutive ids starting at `first`. */
  datatype IdRange = IdRange(first: nat, count: nat) {
    predicate Contains(id: nat) { first <= id < first + count }
  }

  /** `IdSlice::ids`: the ids of a slice are exactly the valid indices into it. */
  function Ids<T>(slice: seq<T>): (r: IdRange)
    ensures forall id: nat :: r.Contains(id) <==> id < |slice|
    ensures r.count == |slice|
  {
    IdRange(0, |slice|)
  }

  /** Shrinking after growing restores the original vector. */
  lemma {:induction false} ResizeBack<T>(v: IdVec<T>, size: nat, dflt: T)
    requires Len(v) <= size
    ensures Resize(Resize(v, size, dflt), Len(v), dflt) == v
  {
    var g := Resize(v, size, dflt);
    var s := Resize(g, Len(v), dflt);
    assert s.data == v.data by {
      assert |s.data| == |v.data|;
      forall k | 0 <= k < |v.data| ensures s.data[k] == v.data[k] {
        assert s.data[k] == g.data[k];
      }
    }
  }

  /** `set` past the end is the vector followed by the gap of defaults and then `val`. */
  lemma {:induction false} SetPastEnd<T>(v: IdVec<T>, id: nat, val: T, dflt: T)
    requires Len(v) <= id
    ensures Set(v, id, val, dflt).data == v.data + seq(id - Len(v), _ => dflt) + [val]
  {
    var r := Set(v, id, val, dflt);
    var s := v.data + seq(id - Len(v), _ => dflt) + [val];
    assert |r.data| == |s|;
    forall k | 0 <= k < |s| ensures r.data[k] == s[k] {
      if k < Len(v) {
        assert s[k] == v.data[k];
      } else if k < id {
        assert s[k] == dflt;
      }
    }
  }

  /** The scenario of the module's unit test. */
  lemma SetScenario()
    ensures var (v0, a) := Push(New<int>(), 42);
            && Index(v0, a) == Ok(42)
            && var v1 := Set(v0, a, 0, 0);
            && Index(v1, a) == Ok(0)
            && var v2 := Set(v1, 10, 100, 0);
            && Index(v2, 10) == Ok(100)
            && var v3 := Set(v2, 5, 50, 0);
            && Index(v3, 5) == Ok(50)
            && var v4 := Set(v3, 20, 200, 0);
            && Index(v4, 20) == Ok(200) && Len(v4) == 21
  {
  }
}

=== FILE: monotone_helpers.dfy ===
/** The helpers of the half-edge y-monotone decomposition: the vertex classifier,
    the y-monotonicity check, the event and sweep-status orderings, `find`, and the
    triangle stream.

    geom/src/monotone.rs and its predecessor src/vodk/geom/monotone.rs implement
    these equivalently on the modelled inputs, so each is modelled once: the older
    triangle stream takes `u16` ids, the newer one casts its ids `as u16`, and the
    `% 0x1_0000` below is that cast.  The half-edge kernel is not part
    of this model: a face is the cyclic sequence of its vertex positions, and an
    edge's position is given by a function.
 */
module MonotoneHelpers {
  import opened Results
  import Geometry
  import opened Sorting

  type Point = Geometry.Point

  /** `VertexType`. */
  datatype VertexType = Start | End | Split | Merge | Left | Right

  /** The two tests the classifier combines. */
  predicate BelowBoth(prev: Point, current: Point, next: Point) {
    current.y > prev.y && current.y >= next.y
  }

  predicate AboveBoth(prev: Point, current: Point, next: Point) {
    current.y < prev.y && current.y <= next.y
  }

  /** `get_vertex_type`: with y pointing down, a vertex lower than both neighbours ends a
      region or merges two, one higher than both starts a region or splits one, depending
      on whether the interior angle is at most PI; the others lie on the right chain when the
      boundary goes down through them and on the left chain otherwise. */
  function GetVertexType(prev: Point, current: Point, next: Point, angle: (Point, Point) -> real)
    : (r: VertexType)
    ensures r == Merge <==> BelowBoth(prev, current, next) && Geometry.AngleAtMostPi(angle, prev, current, next)
    ensures r == End <==> BelowBoth(prev, current, next) && !Geometry.AngleAtMostPi(angle, prev, current, next)
    ensures r == Split <==> AboveBoth(prev, current, next) && Geometry.AngleAtMostPi(angle, prev, current, next)
    ensures r == Start <==> AboveBoth(prev, current, next) && !Geometry.AngleAtMostPi(angle, prev, current, next)
    ensures r == Right <==> !BelowBoth(prev, current, next) && !AboveBoth(prev, current, next) && prev.y < next.y
    ensures r == Left <==> !BelowBoth(prev, current, next) && !AboveBoth(prev, current, next) && prev.y >= next.y
  {
    var convex := Geometry.AngleAtMostPi(angle, prev, current, next);
    if current.y > prev.y && current.y >= next.y then
      if convex then Merge else End
    else if current.y < prev.y && current.y <= next.y then
      if convex then Split else Start
    else if prev.y < next.y then Right
    else Left
  }

  /** A vertex strictly between its neighbours in y is a chain vertex, whatever the angle:
      on the right chain going down, on the left chain going up. */
  lemma StrictlyBetweenIsRegular(prev: Point, current: Point, next: Point, angle: (Point, Point) -> real)
    ensures prev.y < current.y < next.y ==> GetVertexType(prev, current, next, angle) == Right
    ensures next.y < current.y < prev.y ==> GetVertexType(prev, current, next, angle) == Left
  {
  }

  /** Only a vertex that is a local extreme in y can break monotonicity. */
  lemma TurnVertexIsExtreme(prev: Point, current: Point, next: Point, angle: (Point, Point) -> real)
    requires GetVertexType(prev, current, next, angle) in {Split, Merge}
    ensures (current.y > prev.y && current.y >= next.y) || (current.y < prev.y && current.y <= next.y)
    ensures Geometry.AngleAtMostPi(angle, prev, current, next)
  {
  }

  /** Point `i` of a face, with its predecessor and successor on the loop. */
  function Prev(face: seq<Point>, i: nat): Point
    requires i < |face|
  {
    if i == 0 then face[|face| - 1] else face[i - 1]
  }

  function Succ(face: seq<Point>, i: nat): Point
    requires i < |face|
  {
    face[(i + 1) % |face|]
  }

  predicate BreaksMonotonicity(face: seq<Point>, i: nat, angle: (Point, Point) -> real)
    requires i < |face|
  {
    GetVertexType(Prev(face, i), face[i], Succ(face, i), angle) in {Split, Merge}
  }

  /** `is_y_monotone`: walks the face and answers false at the first split or merge vertex. */
  method IsYMonotone(face: seq<Point>, angle: (Point, Point) -> real) returns (r: bool)
    ensures !r <==> exists i :: 0 <= i < |face| && BreaksMonotonicity(face, i, angle)
  {
    var i := 0;
    while i < |face|
      invariant 0 <= i <= |face|
      invariant forall j :: 0 <= j < i ==> !BreaksMonotonicity(face, j, angle)
    {
      var t := GetVertexType(Prev(face, i), face[i], Succ(face, i), angle);
      if t == Split || t == Merge {
        assert BreaksMonotonicity(face, i, angle);
        return false;
      }
      i := i + 1;
    }
    return true;
  }

  /** `find`: the first position holding `item`. */
  method Find<T(==)>(slice: seq<T>, item: T) returns (r: Option<nat>)
    ensures r.None? <==> item !in slice
    ensures r.Some? ==> r.value < |slice| && slice[r.value] == item
                        && forall j :: 0 <= j < r.value ==> slice[j] != item
  {
    var i := 0;
    while i < |slice|
      invariant 0 <= i <= |slice|
      invariant forall j :: 0 <= j < i ==> slice[j] != item
    {
      if slice[i] == item {
        return Some(i);
      }
      i := i + 1;
    }
    return None;
  }

  /** The event comparator of the decomposition, as written: larger y is greater; on equal y,
      smaller x is greater. */
  function CompareEvents(a: Point, b: Point): (r: Geometry.Ordering) {
    if a.y > b.y then Geometry.Greater
    else if a.y < b.y then Geometry.Less
    else if a.x < b.x then Geometry.Greater
    else if a.x > b.x then Geometry.Less
    else Geometry.Equal
  }

  /** The sort key that comparator orders by: y ascending, then x descending. */
  function EventKey(p: Point): Key {
    Key(p.y, -p.x)
  }

  lemma CompareEventsIsKeyOrder(a: Point, b: Point)
    ensures CompareEvents(a, b) == CompareKeys(EventKey(a), EventKey(b))
  {
  }

  /** The sorted event list: edges by the position of their vertex. */
  function SortEvents<E>(edges: seq<E>, pos: E -> Point): (r: seq<E>)
    ensures multiset(r) == multiset(edges)
    ensures forall i, j :: 0 <= i < j < |r| ==>
              pos(r[i]).y < pos(r[j]).y || (pos(r[i]).y == pos(r[j]).y && pos(r[i]).x >= pos(r[j]).x)
  {
    var r := SortBy(edges, e => EventKey(pos(e)));
    assert forall i, j :: 0 <= i < j < |r| ==> KeyLe(EventKey(pos(r[i])), EventKey(pos(r[j])));
    r
  }

  /** The comparator of `sort_x` and `sweep_status_push`, as written:
      `a.y.partial_cmp(b.y).reverse()`. */
  function CompareDescendingY(ay: real, yb: real): (r: Geometry.Ordering) {
    (if ay < yb then Geometry.Less else if ay > yb then Geometry.Greater else Geometry.Equal).Reverse()
  }

  function StatusKey(y: real): Key {
    Key(-y, 0.0)
  }

  lemma CompareDescendingYIsKeyOrder(ay: real, yb: real)
    ensures CompareDescendingY(ay, yb) == CompareKeys(StatusKey(ay), StatusKey(yb))
  {
  }

  /** `sort_x`: despite its name, orders edges by descending y of their vertex. */
  function SortX<E>(slice: seq<E>, y: E -> real): (r: seq<E>)
    ensures multiset(r) == multiset(slice)
    ensures forall i, j :: 0 <= i < j < |r| ==> y(r[i]) >= y(r[j])
  {
    var r := SortBy(slice, e => StatusKey(y(e)));
    assert forall i, j :: 0 <= i < j < |r| ==> KeyLe(StatusKey(y(r[i])), StatusKey(y(r[j])));
    r
  }

  /** `sweep_status_push`: push, then `sort_x`. */
  function SweepStatusPush<E>(sweep: seq<E>, e: E, y: E -> real): (r: seq<E>)
    ensures multiset(r) == multiset(sweep) + multiset{e}
    ensures forall i, j :: 0 <= i < j < |r| ==> y(r[i]) >= y(r[j])
  {
    SortX(sweep + [e], y)
  }

  /** On a status already in order, the push is a stable insertion: `e` goes after every edge
      at least as low and before the first one strictly higher. */
  lemma {:induction false} SweepStatusPushIsInsertion<E>(sweep: seq<E>, e: E, y: E -> real)
    requires forall i, j :: 0 <= i < j < |sweep| ==> y(sweep[i]) >= y(sweep[j])
    ensures SweepStatusPush(sweep, e, y) == Insert(sweep, e, x => StatusKey(y(x)))
  {
    PushThenSortIsInsert(sweep, e, x => StatusKey(y(x)));
  }

  /** `SliceTriangleStream`: a buffer of `u16` indices and the write position. */
  datatype SliceTriangleStream = SliceTriangleStream(indices: seq<nat>, offset: nat)

  function NewStream(buffer: seq<nat>): (r: SliceTriangleStream)
    ensures r.indices == buffer && Count(r) == 0
  {
    SliceTriangleStream(buffer, 0)
  }

  /** `write`: debug-asserts that the three ids differ, stores them (as `u16`) at the write
      position and advances it by three; a buffer too short panics. */
  function Write(s: SliceTriangleStream, a: nat, b: nat, c: nat): (r: Result<SliceTriangleStream>)
    ensures r.Ok? <==> a != b && b != c && c != a && s.offset + 2 < |s.indices|
    ensures r.Ok? ==> r.value.offset == s.offset + 3 && |r.value.indices| == |s.indices|
                      && r.value.indices[s.offset..s.offset + 3] == [a % 0x1_0000, b % 0x1_0000, c % 0x1_0000]
                      && r.value.indices[..s.offset] == s.indices[..s.offset]
                      && r.value.indices[s.offset + 3..] == s.indices[s.offset + 3..]
  {
    if a == b || b == c || c == a then Err(AssertionFailed)
    else if s.offset + 2 >= |s.indices| then Err(IndexOutOfBounds)
    else
      var ix := s.indices[s.offset := a % 0x1_0000][s.offset + 1 := b % 0x1_0000][s.offset + 2 := c % 0x1_0000];
      Ok(SliceTriangleStream(ix, s.offset + 3))
  }

  /** `count`: the number of triangles written. */
  function Count(s: SliceTriangleStream): nat {
    s.offset / 3
  }

  datatype Tri = Tri(a: nat, b: nat, c: nat)

  /** Writes a list of triangles in order, stopping at the first failing write. */
  function WriteAll(s: SliceTriangleStream, tris: seq<Tri>): (r: Result<SliceTriangleStream>)
    ensures r.Ok? ==> r.value.offset == s.offset + 3 * |tris| && |r.value.indices| == |s.indices|
    ensures r.Ok? && tris != [] ==> r.value.offset <= |r.value.indices|
    ensures r.Ok? ==> forall m :: 0 <= m < s.offset && m < |s.indices| ==> r.value.indices[m] == s.indices[m]
    ensures r.Ok? ==> forall k :: 0 <= k < |tris| ==>
              && s.offset + 3 * k + 2 < |r.value.indices|
              && r.value.indices[s.offset + 3 * k] == tris[k].a % 0x1_0000
              && r.value.indices[s.offset + 3 * k + 1] == tris[k].b % 0x1_0000
              && r.value.indices[s.offset + 3 * k + 2] == tris[k].c % 0x1_0000
    decreases |tris|
  {
    if tris == [] then Ok(s)
    else
      var s1 :- Write(s, tris[0].a, tris[0].b, tris[0].c);
      WriteCells(s, tris[0].a, tris[0].b, tris[0].c);
      var r :- WriteAll(s1, tris[1..]);
      WriteAllStep(s, s1, r, tris);
      Ok(r)
  }

  /** Writing the first triangle and then the rest lays out every triangle. */
  lemma WriteAllStep(s: SliceTriangleStream, s1: SliceTriangleStream, r: SliceTriangleStream, tris: seq<Tri>)
    requires tris != [] && s1.offset == s.offset + 3 && |s1.indices| == |s.indices|
    requires s.offset + 2 < |s.indices|
    requires s1.indices[s.offset] == tris[0].a % 0x1_0000
    requires s1.indices[s.offset + 1] == tris[0].b % 0x1_0000
    requires s1.indices[s.offset + 2] == tris[0].c % 0x1_0000
    requires |r.indices| == |s1.indices|
    requires forall m :: 0 <= m < s1.offset && m < |s1.indices| ==> r.indices[m] == s1.indices[m]
    requires forall k :: 0 <= k < |tris[1..]| ==>
               && s1.offset + 3 * k + 2 < |r.indices|
               && r.indices[s1.offset + 3 * k] == tris[1..][k].a % 0x1_0000
               && r.indices[s1.offset + 3 * k + 1] == tris[1..][k].b % 0x1_0000
               && r.indices[s1.offset + 3 * k + 2] == tris[1..][k].c % 0x1_0000
    ensures forall k :: 0 <= k < |tris| ==>
              && s.offset + 3 * k + 2 < |r.indices|
              && r.indices[s.offset + 3 * k] == tris[k].a % 0x1_0000
              && r.indices[s.offset + 3 * k + 1] == tris[k].b % 0x1_0000
              && r.indices[s.offset + 3 * k + 2] == tris[k].c % 0x1_0000
  {
    forall k | 0 <= k < |tris|
      ensures && s.offset + 3 * k + 2 < |r.indices|
              && r.indices[s.offset + 3 * k] == tris[k].a % 0x1_0000
              && r.indices[s.offset + 3 * k + 1] == tris[k].b % 0x1_0000
              && r.indices[s.offset + 3 * k + 2] == tris[k].c % 0x1_0000
    {
      if k > 0 {
        var j := k - 1;
        assert tris[1..][j] == tris[k];
        assert s1.offset + 3 * j == s.offset + 3 * k;
      }
    }
  }

  /** `Write`'s effect cell by cell. */
  lemma WriteCells(s: SliceTriangleStream, a: nat, b: nat, c: nat)
    requires Write(s, a, b, c).Ok?
    ensures var ix := Write(s, a, b, c).value.indices;
            && ix[s.offset] == a % 0x1_0000 && ix[s.offset + 1] == b % 0x1_0000 && ix[s.offset + 2] == c % 0x1_0000
            && forall m :: 0 <= m < s.offset ==> ix[m] == s.indices[m]
  {
  }

  /** After writing `k` triangles into a fresh stream, `count` is `k`. */
  lemma CountAfterWrites(buffer: seq<nat>, tris: seq<Tri>)
    requires WriteAll(NewStream(buffer), tris).Ok?
    ensures Count(WriteAll(NewStream(buffer), tris).value) == |tris|
  {
  }

  /** Distinct ids and room in the buffer are all it takes: every triangle is written. */
  lemma {:induction false} WriteAllSucceeds(s: SliceTriangleStream, tris: seq<Tri>)
    requires forall k :: 0 <= k < |tris| ==> tris[k].a != tris[k].b && tris[k].b != tris[k].c && tris[k].c != tris[k].a
    requires s.offset + 3 * |tris| <= |s.indices|
    ensures WriteAll(s, tris).Ok?
    decreases |tris|
  {
    if tris != [] {
      var s1 := Write(s, tris[0].a, tris[0].b, tris[0].c).value;
      assert forall k :: 0 <= k < |tris| - 1 ==> tris[1..][k] == tris[k + 1];
      WriteAllSucceeds(s1, tris[1..]);
    }
  }
}

=== FILE: monotone_tesselator.dfy ===
/** The per-span incremental triangulator of the path tessellator
    (`MonotoneTesselator` in lyon/src/tesselation/path_tesselator.rs).

    Vertices of a monotone region arrive top to bottom, each tagged with the
    chain (side) it belongs to.  The tessellator keeps a stack of vertices not
    yet fully triangulated and emits triangles as ids.  The convexity test is the
    oracle's directed angle compared with PI, so the combinatorial results below
    hold whatever the angle test answers.
 */
module MonotoneTesselator {
  import opened Geometry

  datatype MonotoneVertex = MonotoneVertex(pos: Point, id: nat, side: Side)

  datatype Triangle = Triangle(a: nat, b: nat, c: nat)

  datatype Tess = Tess(stack: seq<MonotoneVertex>, previous: MonotoneVertex, triangles: seq<Triangle>)

  /** The stack holds a vertex and its top is the last vertex fed: the state between two calls. */
  ghost predicate Open(t: Tess) {
    |t.stack| > 0 && t.stack[|t.stack| - 1] == t.previous
  }

  /** Seeds the tessellator with the region's first vertex, arbitrarily on the left side. */
  function Begin(pos: Point, id: nat): (r: Tess)
    ensures Open(r) && |r.stack| == 1
    ensures r.previous == MonotoneVertex(pos, id, Left)
    ensures r.triangles == []
  {
    var first := MonotoneVertex(pos, id, Left);
    Tess([first], first, [])
  }

  /** Emits (a, b, c) or (b, a, c), whichever the angle test says is correctly wound. */
  function PushTriangle(a: MonotoneVertex, b: MonotoneVertex, c: MonotoneVertex, o: Oracle): (r: Triangle)
    ensures r.c == c.id
    ensures (r.a == a.id && r.b == b.id) || (r.a == b.id && r.b == a.id)
  {
    if AngleAtMostPi(o.angle, c.pos, b.pos, a.pos) then Triangle(a.id, b.id, c.id)
    else Triangle(b.id, a.id, c.id)
  }

  /** Side switch: one triangle per consecutive pair of the stack, closed by `current`. */
  function Fan(stack: seq<MonotoneVertex>, current: MonotoneVertex, o: Oracle): (r: seq<Triangle>)
    requires |stack| > 0
    ensures |r| == |stack| - 1
    ensures forall k :: 0 <= k < |r| ==> r[k].c == current.id
  {
    if |stack| == 1 then []
    else
      var a := if current.side == Right then stack[1] else stack[0];
      var b := if current.side == Right then stack[0] else stack[1];
      [PushTriangle(a, b, current, o)] + Fan(stack[1..], current, o)
  }

  /** Same side: pops while the ear at the stack top is convex, emitting one triangle per pop,
      then pushes the last popped vertex back.  `lastPopped` was already taken off `stack`.
      Returns the resulting stack (before `current` is pushed) and the emitted triangles. */
  function PopConvex(stack: seq<MonotoneVertex>, lastPopped: MonotoneVertex, current: MonotoneVertex, o: Oracle)
    : (r: (seq<MonotoneVertex>, seq<Triangle>))
    ensures |r.0| >= 1
    ensures |r.0| + |r.1| == |stack| + 1
    ensures |stack| > 0 ==> r.0[0] == stack[0]
    ensures forall k :: 0 <= k < |r.1| ==> r.1[k].c == current.id
    decreases |stack|
  {
    if stack == [] then ([lastPopped], [])
    else
      var top := stack[|stack| - 1];
      var a := if current.side == Right then top else lastPopped;
      var b := if current.side == Right then lastPopped else top;
      if AngleAtMostPi(o.angle, current.pos, b.pos, a.pos) then
        var rest := PopConvex(stack[..|stack| - 1], top, current, o);
        (rest.0, [PushTriangle(a, b, current, o)] + rest.1)
      else
        (stack + [lastPopped], [])
  }

  /** Feeds one vertex.  The source asserts that it lies below the previous one and that the
      stack is not empty. */
  function Vertex(t: Tess, pos: Point, id: nat, side: Side, o: Oracle): (r: Tess)
    requires o.below(pos, t.previous.pos)
    requires |t.stack| > 0
    ensures Open(r) && |r.stack| >= 2
    ensures r.previous == MonotoneVertex(pos, id, side)
    ensures |r.triangles| + |r.stack| == |t.triangles| + |t.stack| + 1
    ensures |r.triangles| >= |t.triangles| && r.triangles[..|t.triangles|] == t.triangles
    ensures side != t.previous.side ==>
              r.stack == [t.previous, r.previous] && |r.triangles| == |t.triangles| + |t.stack| - 1
  {
    var current := MonotoneVertex(pos, id, side);
    if side != t.previous.side then
      var tris := t.triangles + Fan(t.stack, current, o);
      assert tris[..|t.triangles|] == t.triangles;
      Tess([t.previous, current], current, tris)
    else
      var popped := PopConvex(t.stack[..|t.stack| - 1], t.stack[|t.stack| - 1], current, o);
      var tris := t.triangles + popped.1;
      assert tris[..|t.triangles|] == t.triangles;
      Tess(popped.0 + [current], current, tris)
  }

  /** Closes the region: the terminal vertex is fed on the side opposite to the previous one,
      which forces a final fan, and the stack is discarded. */
  function End(t: Tess, pos: Point, id: nat, o: Oracle): (r: Tess)
    requires o.below(pos, t.previous.pos)
    requires |t.stack| > 0
    ensures r.stack == []
    ensures |r.triangles| == |t.triangles| + |t.stack| - 1
    ensures r.triangles[..|t.triangles|] == t.triangles
  {
    var v := Vertex(t, pos, id, t.previous.side.Opposite(), o);
    v.(stack := [])
  }

  /** Hands the accumulated triangles to `out` in emission order and empties the list. */
  function Flush(t: Tess, out: seq<Triangle>): (r: (Tess, seq<Triangle>))
    ensures r.0.triangles == [] && r.0.stack == t.stack && r.0.previous == t.previous
    ensures |r.1| == |out| + |t.triangles|
    ensures r.1[..|out|] == out && r.1[|out|..] == t.triangles
  {
    var o' := out + t.triangles;
    assert o'[..|out|] == out && o'[|out|..] == t.triangles;
    (t.(triangles := []), o')
  }

  /** Each vertex of `vs` lies below its predecessor, the first one below `start`. */
  ghost predicate Descending(start: Point, vs: seq<MonotoneVertex>, o: Oracle) {
    && (|vs| > 0 ==> o.below(vs[0].pos, start))
    && forall k :: 0 < k < |vs| ==> o.below(vs[k].pos, vs[k - 1].pos)
  }

  /** Feeds a whole chain of vertices, one `Vertex` call each. */
  function Feed(t: Tess, vs: seq<MonotoneVertex>, o: Oracle): (r: Tess)
    requires |t.stack| > 0
    requires Descending(t.previous.pos, vs, o)
    ensures |r.stack| > 0
    ensures |r.triangles| + |r.stack| == |t.triangles| + |t.stack| + |vs|
    ensures vs != [] ==> r.previous == vs[|vs| - 1]
    ensures vs == [] ==> r == t
    decreases |vs|
  {
    if vs == [] then t
    else
      var t1 := Vertex(t, vs[0].pos, vs[0].id, vs[0].side, o);
      assert Descending(t1.previous.pos, vs[1..], o) by {
        if |vs| > 1 {
          assert o.below(vs[1].pos, vs[0].pos);
        }
        forall k | 0 < k < |vs[1..]|
          ensures o.below(vs[1..][k].pos, vs[1..][k - 1].pos)
        {
          assert o.below(vs[k + 1].pos, vs[k].pos);
        }
      }
      Feed(t1, vs[1..], o)
  }

  /** Triangles emitted plus vertices still on the stack always equal the vertices fed:
      after `Begin` and k calls to `Vertex` there are k + 1 of them. */
  lemma {:induction false} FedVerticesAccounted(pos: Point, id: nat, vs: seq<MonotoneVertex>, o: Oracle)
    requires Descending(pos, vs, o)
    ensures var t := Feed(Begin(pos, id), vs, o); |t.triangles| + |t.stack| == |vs| + 1 && |t.stack| > 0
  {
  }

  /** `Begin`, then k calls to `Vertex`, then `End` yields exactly k triangles, whatever the
      angle test answers. */
  lemma {:induction false} TriangleCount(pos: Point, id: nat, vs: seq<MonotoneVertex>, last: Point, lastId: nat, o: Oracle)
    requires Descending(pos, vs, o)
    requires o.below(last, Feed(Begin(pos, id), vs, o).previous.pos)
    ensures |End(Feed(Begin(pos, id), vs, o), last, lastId, o).triangles| == |vs|
  {
    FedVerticesAccounted(pos, id, vs, o);
  }

  /** With an angle test that agrees with the sign of the cross product, every emitted triangle
      (x, y, c) satisfies Cross(c - y, x - y) >= 0: all triangles share one winding. */
  lemma PushTriangleWinding(a: MonotoneVertex, b: MonotoneVertex, c: MonotoneVertex, o: Oracle)
    requires forall u, v :: o.angle(u, v) <= PI <==> Cross(u, v) >= 0.0
    ensures var t := PushTriangle(a, b, c, o);
            (t == Triangle(a.id, b.id, c.id) && Cross(Sub(c.pos, b.pos), Sub(a.pos, b.pos)) >= 0.0)
            || (t == Triangle(b.id, a.id, c.id) && Cross(Sub(c.pos, a.pos), Sub(b.pos, a.pos)) > 0.0)
  {
    assert Cross(Sub(c.pos, a.pos), Sub(b.pos, a.pos)) == -Cross(Sub(c.pos, b.pos), Sub(a.pos, b.pos));
  }
}

/** The four scenarios of the tessellator's own unit test, for every angle test and every
    `is_below` that accepts each listed vertex as lying below its predecessor. */
module MonotoneTesselatorScenarios {
  import opened Geometry
  import opened MonotoneTesselator

  function P(x: real, y: real): Point { Point(x, y) }

  function V(x: real, y: real, id: nat, side: Side): MonotoneVertex { MonotoneVertex(P(x, y), id, side) }

  lemma OneVertexGivesOneTriangle(o: Oracle)
    requires o.below(P(-1.0, 1.0), P(0.0, 0.0)) && o.below(P(1.0, 2.0), P(-1.0, 1.0))
    ensures |End(Feed(Begin(P(0.0, 0.0), 0), [V(-1.0, 1.0, 1, Left)], o), P(1.0, 2.0), 2, o).triangles| == 1
  {
    TriangleCount(P(0.0, 0.0), 0, [V(-1.0, 1.0, 1, Left)], P(1.0, 2.0), 2, o);
  }

  lemma ZigZagGivesFourTriangles(o: Oracle)
    requires o.below(P(1.0, 1.0), P(0.0, 0.0)) && o.below(P(-1.5, 2.0), P(1.0, 1.0))
    requires o.below(P(-1.0, 3.0), P(-1.5, 2.0)) && o.below(P(1.0, 4.0), P(-1.0, 3.0))
    requires o.below(P(0.0, 5.0), P(1.0, 4.0))
    ensures var vs := [V(1.0, 1.0, 1, Right), V(-1.5, 2.0, 2, Left), V(-1.0, 3.0, 3, Left), V(1.0, 4.0, 4, Right)];
            |End(Feed(Begin(P(0.0, 0.0), 0), vs, o), P(0.0, 5.0), 5, o).triangles| == 4
  {
    var vs := [V(1.0, 1.0, 1, Right), V(-1.5, 2.0, 2, Left), V(-1.0, 3.0, 3, Left), V(1.0, 4.0, 4, Right)];
    TriangleCount(P(0.0, 0.0), 0, vs, P(0.0, 5.0), 5, o);
  }

  lemma RightChainGivesFiveTriangles(o: Oracle)
    requires o.below(P(1.0, 1.0), P(0.0, 0.0)) && o.below(P(3.0, 2.0), P(1.0, 1.0))
    requires o.below(P(1.0, 3.0), P(3.0, 2.0)) && o.below(P(1.0, 4.0), P(1.0, 3.0))
    requires o.below(P(4.0, 5.0), P(1.0, 4.0)) && o.below(P(0.0, 6.0), P(4.0, 5.0))
    ensures var vs := [V(1.0, 1.0, 1, Right), V(3.0, 2.0, 2, Right), V(1.0, 3.0, 3, Right),
                       V(1.0, 4.0, 4, Right), V(4.0, 5.0, 5, Right)];
            |End(Feed(Begin(P(0.0, 0.0), 0), vs, o), P(0.0, 6.0), 6, o).triangles| == 5
  {
    var vs := [V(1.0, 1.0, 1, Right), V(3.0, 2.0, 2, Right), V(1.0, 3.0, 3, Right),
               V(1.0, 4.0, 4, Right), V(4.0, 5.0, 5, Right)];
    TriangleCount(P(0.0, 0.0), 0, vs, P(0.0, 6.0), 6, o);
  }

  lemma LeftChainGivesFiveTriangles(o: Oracle)
    requires o.below(P(-1.0, 1.0), P(0.0, 0.0)) && o.below(P(-3.0, 2.0), P(-1.0, 1.0))
    requires o.below(P(-1.0, 3.0), P(-3.0, 2.0)) && o.below(P(-1.0, 4.0), P(-1.0, 3.0))
    requires o.below(P(-4.0, 5.0), P(-1.0, 4.0)) && o.below(P(0.0, 6.0), P(-4.0, 5.0))
    ensures var vs := [V(-1.0, 1.0, 1, Left), V(-3.0, 2.0, 2, Left), V(-1.0, 3.0, 3, Left),
                       V(-1.0, 4.0, 4, Left), V(-4.0, 5.0, 5, Left)];
            |End(Feed(Begin(P(0.0, 0.0), 0), vs, o), P(0.0, 6.0), 6, o).triangles| == 5
  {
    var vs := [V(-1.0, 1.0, 1, Left), V(-3.0, 2.0, 2, Left), V(-1.0, 3.0, 3, Left),
               V(-1.0, 4.0, 4, Left), V(-4.0, 5.0, 5, Left)];
    TriangleCount(P(0.0, 0.0), 0, vs, P(0.0, 6.0), 6, o);
  }
}

=== FILE: polygon.dfy ===
/** Polygons as loops of vertex ids, their circulation, and complex polygons (an
    outer loop plus holes) addressed by (polygon id, point id).

    A point id is a position in a loop; a vertex id is what the loop stores at that
    position.  Both are `u16` handles in the source and `nat` here.  A `Polygon`
    and the `PolygonView` it lends out hold the same sequence, so the view's
    circulation serves both.
 */
module Polygon {
  import opened Results
  import opened Geometry
  import opened IdVector

  /** `vertex_id_range(from, to)`: `count` is a `u16` subtraction, which panics below zero. */
  function VertexIdRange(from: nat, to: nat): (r: Result<IdRange>)
    ensures r.Ok? <==> from <= to
    ensures r.Ok? ==> r.value.first == from && r.value.first + r.value.count == to
  {
    if to < from then Err(Underflow) else Ok(IdRange(from, to - from))
  }

  /** `half_edge::iterators::Direction`. */
  datatype Direction = Forward | Backward

  datatype PolygonView = PolygonView(vertices: seq<nat>)

  function NumVertices(p: PolygonView): nat { |p.vertices| }

  /** `vertex(point)`: the vertex id stored at a point. */
  function Vertex(p: PolygonView, point: nat): (r: Result<nat>)
    ensures r.Ok? <==> point < NumVertices(p)
    ensures r.Ok? ==> r.value == p.vertices[point]
  {
    if point < |p.vertices| then Ok(p.vertices[point]) else Err(IndexOutOfBounds)
  }

  /** `next(point)`: `(point + 1) % n`; the remainder panics on an empty loop. */
  function Next(p: PolygonView, point: nat): (r: Result<nat>)
    ensures r.Ok? <==> NumVertices(p) > 0
    ensures r.Ok? ==> r.value < NumVertices(p)
    ensures r.Ok? && point + 1 < NumVertices(p) ==> r.value == point + 1
    ensures r.Ok? && point + 1 == NumVertices(p) ==> r.value == 0
  {
    if |p.vertices| == 0 then Err(DivisionByZero) else Ok((point + 1) % |p.vertices|)
  }

  /** `previous(point)`: `n - 1` at point 0 (which underflows on an empty loop), else
      `point - 1`. */
  function Previous(p: PolygonView, point: nat): (r: Result<nat>)
    ensures r.Ok? <==> point > 0 || NumVertices(p) > 0
    ensures r.Ok? && point == 0 ==> r.value == NumVertices(p) - 1
    ensures r.Ok? && point > 0 ==> r.value == point - 1
  {
    if point == 0 then
      if |p.vertices| == 0 then Err(Underflow) else Ok(|p.vertices| - 1)
    else Ok(point - 1)
  }

  /** `advance(point, dir)`. */
  function Advance(p: PolygonView, point: nat, dir: Direction): (r: Result<nat>)
    ensures dir == Forward ==> r == Next(p, point)
    ensures dir == Backward ==> r == Previous(p, point)
  {
    match dir
    case Forward => Next(p, point)
    case Backward => Previous(p, point)
  }

  /** On a non-empty loop `next` and `previous` stay on the loop and undo each other. */
  lemma NextPreviousInverse(p: PolygonView, point: nat)
    requires point < NumVertices(p)
    ensures Next(p, point).Ok? && Previous(p, point).Ok?
    ensures Previous(p, point).value < NumVertices(p)
    ensures Previous(p, Next(p, point).value) == Ok(point)
    ensures Next(p, Previous(p, point).value) == Ok(point)
  {
  }

  /** Advancing forward then backward, or backward then forward, returns to the start. */
  lemma AdvanceRoundTrip(p: PolygonView, point: nat, dir: Direction)
    requires point < NumVertices(p)
    ensures var q := Advance(p, point, dir);
            q.Ok? && Advance(p, q.value, if dir == Forward then Backward else Forward) == Ok(point)
  {
    NextPreviousInverse(p, point);
  }

  /** `point_ids`: the ids `0 .. n`. */
  function PointIds(p: PolygonView): (r: IdRange)
    ensures forall point: nat :: r.Contains(point) <==> Vertex(p, point).Ok?
  {
    IdRange(0, |p.vertices|)
  }

  /** `Polygon::push_vertex`: appends and returns the new last point. */
  function PushVertex(p: PolygonView, v: nat): (r: (PolygonView, nat))
    ensures NumVertices(r.0) == NumVertices(p) + 1 && r.1 == NumVertices(p)
    ensures Vertex(r.0, r.1) == Ok(v)
    ensures forall point :: 0 <= point < NumVertices(p) ==> Vertex(r.0, point) == Vertex(p, point)
  {
    (PolygonView(p.vertices + [v]), |p.vertices|)
  }

  /** `Polygon::insert_vertex`: `Vec::insert`, which panics past the end. */
  function InsertVertex(p: PolygonView, point: nat, v: nat): (r: Result<PolygonView>)
    ensures r.Ok? <==> point <= NumVertices(p)
    ensures r.Ok? ==> NumVertices(r.value) == NumVertices(p) + 1 && Vertex(r.value, point) == Ok(v)
    ensures r.Ok? ==> forall k :: 0 <= k < point ==> Vertex(r.value, k) == Vertex(p, k)
    ensures r.Ok? ==> forall k :: point <= k < NumVertices(p) ==> Vertex(r.value, k + 1) == Vertex(p, k)
  {
    if point > |p.vertices| then Err(IndexOutOfBounds)
    else Ok(PolygonView(p.vertices[..point] + [v] + p.vertices[point..]))
  }

  /** `Polygon::remove_vertex`: `Vec::remove`, which panics past the end; returns the removed
      vertex. */
  function RemoveVertex(p: PolygonView, point: nat): (r: Result<(PolygonView, nat)>)
    ensures r.Ok? <==> point < NumVertices(p)
    ensures r.Ok? ==> NumVertices(r.value.0) + 1 == NumVertices(p) && Vertex(p, point) == Ok(r.value.1)
    ensures r.Ok? ==> forall k :: 0 <= k < point ==> Vertex(r.value.0, k) == Vertex(p, k)
    ensures r.Ok? ==> forall k :: point < k < NumVertices(p) ==> Vertex(r.value.0, k - 1) == Vertex(p, k)
  {
    if point >= |p.vertices| then Err(IndexOutOfBounds)
    else Ok((PolygonView(p.vertices[..point] + p.vertices[point + 1..]), p.vertices[point]))
  }

  /** Removing what was just inserted gives back the polygon and the vertex. */
  lemma RemoveAfterInsert(p: PolygonView, point: nat, v: nat)
    requires point <= NumVertices(p)
    ensures var q := InsertVertex(p, point, v).value;
            RemoveVertex(q, point) == Ok((p, v))
  {
    var q := InsertVertex(p, point, v).value;
    assert q.vertices[..point] + q.vertices[point + 1..] == p.vertices;
  }

  /** Re-inserting what was just removed gives back the polygon. */
  lemma InsertAfterRemove(p: PolygonView, point: nat)
    requires point < NumVertices(p)
    ensures var (q, v) := RemoveVertex(p, point).value;
            InsertVertex(q, point, v) == Ok(p)
  {
    var (q, v) := RemoveVertex(p, point).value;
    assert q.vertices[..point] + [v] + q.vertices[point..] == p.vertices;
  }

  // ---------------------------------------------------------------------------
  // Complex polygons.

  datatype ComplexPolygon = ComplexPolygon(main: PolygonView, holes: seq<PolygonView>)

  datatype ComplexPointId = ComplexPointId(point: nat, polygonId: nat)

  /** `add_hole`. */
  function AddHole(cp: ComplexPolygon, hole: PolygonView): (r: ComplexPolygon)
    ensures r.main == cp.main && r.holes == cp.holes + [hole]
  {
    ComplexPolygon(cp.main, cp.holes + [hole])
  }

  /** `polygon(id)`: id 0 is the outer loop, id i > 0 the hole `i - 1`, which panics past the
      end. */
  function PolygonAt(cp: ComplexPolygon, id: nat): (r: Result<PolygonView>)
    ensures id == 0 ==> r == Ok(cp.main)
    ensures 0 < id <= |cp.holes| ==> r == Ok(cp.holes[id - 1])
    ensures id > |cp.holes| ==> r == Err(IndexOutOfBounds)
  {
    if id == 0 then Ok(cp.main)
    else if id - 1 < |cp.holes| then Ok(cp.holes[id - 1])
    else Err(IndexOutOfBounds)
  }

  /** `get_sub_polygon(id)`: the same lookup with a bounds check instead of a panic. */
  function GetSubPolygon(cp: ComplexPolygon, id: nat): (r: Option<PolygonView>)
    ensures r.None? <==> id > |cp.holes|
  {
    if id == 0 then Some(cp.main)
    else if id <= |cp.holes| then Some(cp.holes[id - 1])
    else None
  }

  /** `polygon_ids`: one id for the outer loop and one per hole. */
  function PolygonIds(cp: ComplexPolygon): (r: IdRange)
    ensures r.count == |cp.holes| + 1
    ensures forall id: nat :: r.Contains(id) <==> GetSubPolygon(cp, id).Some?
  {
    IdRange(0, |cp.holes| + 1)
  }

  /** `get_sub_polygon` and `polygon` agree wherever the latter does not panic. */
  lemma GetSubPolygonAgreesWithPolygon(cp: ComplexPolygon, id: nat)
    ensures GetSubPolygon(cp, id).Some? <==> PolygonAt(cp, id).Ok?
    ensures GetSubPolygon(cp, id).Some? ==> GetSubPolygon(cp, id).value == PolygonAt(cp, id).value
  {
  }

  /** `point_ids(p)`: the point ids of loop `p`, tagged with `p`. */
  datatype ComplexPointIdRange = ComplexPointIdRange(range: IdRange, polygonId: nat)

  function ComplexPointIds(cp: ComplexPolygon, id: nat): (r: Result<ComplexPointIdRange>)
    ensures r.Ok? <==> PolygonAt(cp, id).Ok?
    ensures r.Ok? ==> r.value.polygonId == id && r.value.range == PointIds(PolygonAt(cp, id).value)
  {
    var p :- PolygonAt(cp, id);
    Ok(ComplexPointIdRange(IdRange(0, NumVertices(p)), id))
  }

  /** `ComplexPolygon::vertex`. */
  function ComplexVertex(cp: ComplexPolygon, id: ComplexPointId): (r: Result<nat>)
    ensures r.Ok? <==> PolygonAt(cp, id.polygonId).Ok? && id.point < NumVertices(PolygonAt(cp, id.polygonId).value)
    ensures r.Ok? ==> r.value == PolygonAt(cp, id.polygonId).value.vertices[id.point]
    ensures r.Err? ==> r.fault == IndexOutOfBounds
  {
    var p :- PolygonAt(cp, id.polygonId);
    Vertex(p, id.point)
  }

  /** `ComplexPolygon::next`: circulates within the loop the point belongs to. */
  function ComplexNext(cp: ComplexPolygon, id: ComplexPointId): (r: Result<ComplexPointId>)
    ensures r.Ok? <==> PolygonAt(cp, id.polygonId).Ok? && NumVertices(PolygonAt(cp, id.polygonId).value) > 0
    ensures r.Ok? ==> r.value.polygonId == id.polygonId
                      && Ok(r.value.point) == Next(PolygonAt(cp, id.polygonId).value, id.point)
  {
    var p :- PolygonAt(cp, id.polygonId);
    var point :- Next(p, id.point);
    Ok(ComplexPointId(point, id.polygonId))
  }

  /** `ComplexPolygon::previous`. */
  function ComplexPrevious(cp: ComplexPolygon, id: ComplexPointId): (r: Result<ComplexPointId>)
    ensures r.Ok? <==> PolygonAt(cp, id.polygonId).Ok? && (id.point > 0 || NumVertices(PolygonAt(cp, id.polygonId).value) > 0)
    ensures r.Ok? ==> r.value.polygonId == id.polygonId
                      && Ok(r.value.point) == Previous(PolygonAt(cp, id.polygonId).value, id.point)
  {
    var p :- PolygonAt(cp, id.polygonId);
    var point :- Previous(p, id.point);
    Ok(ComplexPointId(point, id.polygonId))
  }

  /** On any loop of a complex polygon, `next` and `previous` undo each other. */
  lemma ComplexNextPreviousInverse(cp: ComplexPolygon, id: ComplexPointId)
    requires ComplexVertex(cp, id).Ok?
    ensures ComplexNext(cp, id).Ok? && ComplexPrevious(cp, ComplexNext(cp, id).value) == Ok(id)
    ensures ComplexPrevious(cp, id).Ok? && ComplexNext(cp, ComplexPrevious(cp, id).value) == Ok(id)
  {
    NextPreviousInverse(PolygonAt(cp, id.polygonId).value, id.point);
  }

  /** `num_vertices_on_loop(point)`: the size of the loop the point belongs to. */
  function NumVerticesOnLoop(cp: ComplexPolygon, id: ComplexPointId): (r: Result<nat>)
    ensures r.Ok? <==> id.polygonId <= |cp.holes|
    ensures r.Ok? ==> r.value == NumVertices(GetSubPolygon(cp, id.polygonId).value)
  {
    var p :- PolygonAt(cp, id.polygonId);
    Ok(NumVertices(p))
  }

  /** The total size of a list of loops. */
  function TotalVertices(loops: seq<PolygonView>): nat {
    if loops == [] then 0 else TotalVertices(loops[..|loops| - 1]) + NumVertices(loops[|loops| - 1])
  }

  /** `ComplexPolygon::num_vertices`: the outer loop plus every hole. */
  method ComplexNumVertices(cp: ComplexPolygon) returns (result: nat)
    ensures result == TotalVertices([cp.main] + cp.holes)
    ensures result == SumOnLoops(cp, |cp.holes| + 1)
  {
    result := NumVertices(cp.main);
    var i := 0;
    while i < |cp.holes|
      invariant 0 <= i <= |cp.holes|
      invariant result == TotalVertices([cp.main] + cp.holes[..i])
    {
      assert ([cp.main] + cp.holes[..i + 1])[..i + 1] == [cp.main] + cp.holes[..i];
      result := result + NumVertices(cp.holes[i]);
      i := i + 1;
    }
    assert cp.holes[..i] == cp.holes;
    TotalIsSumOverLoops(cp, |cp.holes| + 1);
    assert ([cp.main] + cp.holes)[..|cp.holes| + 1] == [cp.main] + cp.holes;
  }

  /** The total counts each loop that `polygon_ids` names once: it is the sum of
      `num_vertices_on_loop` over the polygon ids. */
  lemma {:induction false} TotalIsSumOverLoops(cp: ComplexPolygon, k: nat)
    requires k <= |cp.holes| + 1
    ensures TotalVertices(([cp.main] + cp.holes)[..k]) == SumOnLoops(cp, k)
  {
    if k > 0 {
      var loops := [cp.main] + cp.holes;
      assert loops[..k][..k - 1] == loops[..k - 1];
      TotalIsSumOverLoops(cp, k - 1);
    }
  }

  /** Sum of `num_vertices_on_loop` over the first `k` polygon ids. */
  function SumOnLoops(cp: ComplexPolygon, k: nat): nat
    requires k <= |cp.holes| + 1
  {
    if k == 0 then 0 else SumOnLoops(cp, k - 1) + NumVerticesOnLoop(cp, ComplexPointId(0, k - 1)).value
  }

  // ---------------------------------------------------------------------------
  // Iteration.

  /** `PolygonIterator`: `count` items already yielded, starting at point `first`. */
  datatype PolygonIterator = PolygonIterator(polygon: PolygonView, first: nat, count: nat)

  /** `iter_from(point)` / `circulator_at(point).iter()`. */
  function IterFrom(p: PolygonView, point: nat): (r: PolygonIterator)
    ensures r.polygon == p && r.first == point && r.count == 0
  {
    PolygonIterator(p, point, 0)
  }

  /** `PolygonIterator::next`. */
  function IterNext(it: PolygonIterator): (r: (Option<nat>, PolygonIterator))
    ensures r.0.None? <==> it.count >= NumVertices(it.polygon)
    ensures r.0.None? ==> r.1 == it
    ensures r.0.Some? ==> r.1 == it.(count := it.count + 1)
                          && r.0.value == it.polygon.vertices[(it.first + it.count) % NumVertices(it.polygon)]
  {
    var n := NumVertices(it.polygon);
    if it.count >= n then (None, it)
    else
      var idx := (it.count + it.first) % n;
      (Some(it.polygon.vertices[idx]), it.(count := it.count + 1))
  }

  /** `size_hint`: exactly the loop size, as both bounds. */
  function SizeHint(it: PolygonIterator): (r: (nat, Option<nat>))
    ensures r.0 == NumVertices(it.polygon) && r.1 == Some(NumVertices(it.polygon))
  {
    (NumVertices(it.polygon), Some(NumVertices(it.polygon)))
  }

  /** Everything the iterator still yields, by calling `next` until `None`. */
  function Drain(it: PolygonIterator): (r: seq<nat>)
    ensures |r| == if it.count >= NumVertices(it.polygon) then 0 else NumVertices(it.polygon) - it.count
    ensures forall k :: 0 <= k < |r| ==>
              r[k] == it.polygon.vertices[(it.first + it.count + k) % NumVertices(it.polygon)]
    decreases NumVertices(it.polygon) - it.count
  {
    var (item, rest) := IterNext(it);
    match item
    case None => []
    case Some(v) => [v] + Drain(rest)
  }

  lemma ModOnce(a: nat, n: nat)
    requires 0 < n && a < 2 * n
    ensures a % n == if a < n then a else a - n
  {
  }

  /** A fresh iterator from a point of the loop yields the loop rotated to start there:
      every vertex exactly once, then `None`. */
  lemma IterFromIsRotation(p: PolygonView, point: nat)
    requires point < NumVertices(p)
    ensures Drain(IterFrom(p, point)) == p.vertices[point..] + p.vertices[..point]
    ensures multiset(Drain(IterFrom(p, point))) == multiset(p.vertices)
  {
    var d := Drain(IterFrom(p, point));
    var rot := p.vertices[point..] + p.vertices[..point];
    var n := NumVertices(p);
    assert |d| == n == |rot|;
    forall k | 0 <= k < n ensures d[k] == rot[k] {
      ModOnce(point + k, n);
      assert d[k] == p.vertices[(point + k) % n];
      if point + k < n {
        assert rot[k] == p.vertices[point + k];
      } else {
        assert rot[k] == p.vertices[point + k - n];
      }
    }
    assert d == rot;
    assert p.vertices == p.vertices[..point] + p.vertices[point..];
  }

  /** On a fresh iterator the hint is exact: it is the number of items `next` yields. */
  lemma SizeHintExactWhenFresh(it: PolygonIterator)
    requires it.count == 0
    ensures SizeHint(it).0 == |Drain(it)| && SizeHint(it).1 == Some(|Drain(it)|)
  {
  }

  /** Once items have been taken the hint is not updated: its lower bound exceeds what is
      left by the number already yielded. */
  lemma SizeHintOverstatesAfterNext(it: PolygonIterator)
    requires 0 < it.count <= NumVertices(it.polygon)
    ensures SizeHint(it).0 == |Drain(it)| + it.count
  {
  }

  /** `WindingOrder` of a path. */
  datatype WindingOrder = Clockwise | CounterClockwise

  /** Sum of the directed angles at the first `k` points of the loop; `None` if a vertex id
      has no position. */
  function AngleSum(p: PolygonView, positions: seq<Point>, angle: (Point, Point) -> real, k: nat): (r: Option<real>)
    requires 0 < NumVertices(p) && k <= NumVertices(p)
    ensures r.Some? <==> forall j :: 0 <= j < k ==> AllPositioned(p, positions, j)
  {
    if k == 0 then Some(0.0)
    else
      var rest := AngleSum(p, positions, angle, k - 1);
      var n := NumVertices(p);
      var j := k - 1;
      var prev := if j == 0 then n - 1 else j - 1;
      var next := (j + 1) % n;
      if rest.None? then None
      else if !AllPositioned(p, positions, j) then None
      else Some(rest.value + AngleAt(p, positions, angle, j))
  }

  /** The directed angle at point `j`, between the edges towards its previous and its next
      vertex: the term `compute_winding_order` adds for that point. */
  function AngleAt(p: PolygonView, positions: seq<Point>, angle: (Point, Point) -> real, j: nat): real
    requires 0 < NumVertices(p) && AllPositioned(p, positions, j)
  {
    var n := NumVertices(p);
    var a := positions[p.vertices[if j == 0 then n - 1 else j - 1]];
    var b := positions[p.vertices[j]];
    var c := positions[p.vertices[(j + 1) % n]];
    angle(Sub(a, b), Sub(c, b))
  }

  /** The previous, current and next vertex of point `j` all have positions. */
  predicate AllPositioned(p: PolygonView, positions: seq<Point>, j: nat)
    requires 0 < NumVertices(p)
  {
    var n := NumVertices(p);
    j < n &&
    p.vertices[if j == 0 then n - 1 else j - 1] < |positions| &&
    p.vertices[j] < |positions| &&
    p.vertices[(j + 1) % n] < |positions|
  }

  /** `compute_winding_order`: no answer below three vertices; otherwise clockwise when the
      directed angles sum past `(n - 1) * PI`.  A vertex id without a position panics. */
  function ComputeWindingOrder(p: PolygonView, positions: seq<Point>, angle: (Point, Point) -> real): (r: Result<Option<WindingOrder>>)
    ensures NumVertices(p) < 3 <==> r == Ok(None)
    ensures NumVertices(p) >= 3 ==>
              (r.Ok? <==> forall j :: 0 <= j < NumVertices(p) ==> AllPositioned(p, positions, j))
    ensures r.Err? ==> r.fault == IndexOutOfBounds
    ensures NumVertices(p) >= 3 && r.Ok? ==>
              && AngleSum(p, positions, angle, NumVertices(p)).Some?
              && r.value.Some?
              && (r.value.value == Clockwise <==>
                    AngleSum(p, positions, angle, NumVertices(p)).value > ((NumVertices(p) - 1) as real) * PI)
  {
    var n := NumVertices(p);
    if n < 3 then Ok(None)
    else
      match AngleSum(p, positions, angle, n)
      case None => Err(IndexOutOfBounds)
      case Some(sum) => Ok(Some(if sum > ((n - 1) as real) * PI then Clockwise else CounterClockwise))
  }

  /** The sum of the first `k` directed angles, each at most `bound`, is at most `k * bound`. */
  lemma {:induction false} AngleSumBound(p: PolygonView, positions: seq<Point>, angle: (Point, Point) -> real, k: nat, bound: real)
    requires 0 < NumVertices(p) && k <= NumVertices(p)
    requires AngleSum(p, positions, angle, k).Some?
    requires forall j :: 0 <= j < k ==> AllPositioned(p, positions, j) && AngleAt(p, positions, angle, j) <= bound
    ensures AngleSum(p, positions, angle, k).value <= (k as real) * bound
  {
    if k > 0 {
      var rest := AngleSum(p, positions, angle, k - 1);
      AngleSumBound(p, positions, angle, k - 1, bound);
      assert AngleSum(p, positions, angle, k).value <= rest.value + bound;
      assert ((k - 1) as real) * bound + bound == (k as real) * bound;
    }
  }

  /** A loop of `n >= 3` positioned vertices whose `n` directed angles are each at most
      `(n - 1) * PI / n` is reported counter-clockwise. */
  lemma SmallAnglesAreCounterClockwise(p: PolygonView, positions: seq<Point>, angle: (Point, Point) -> real)
    requires NumVertices(p) >= 3
    requires forall j :: 0 <= j < NumVertices(p) ==>
               && AllPositioned(p, positions, j)
               && AngleAt(p, positions, angle, j) * (NumVertices(p) as real) <= ((NumVertices(p) - 1) as real) * PI
    ensures ComputeWindingOrder(p, positions, angle) == Ok(Some(CounterClockwise))
  {
    var n := NumVertices(p);
    var bound := ((n - 1) as real) * PI / (n as real);
    forall j | 0 <= j < n ensures AngleAt(p, positions, angle, j) <= bound {
      assert AngleAt(p, positions, angle, j) * (n as real) <= ((n - 1) as real) * PI;
    }
    AngleSumBound(p, positions, angle, n, bound);
    assert (n as real) * bound == ((n - 1) as real) * PI;
  }
}

=== FILE: results.dfy ===
/** Failure-compatible result types shared by the whole model.

    The Rust code reports internal inconsistencies by panicking (`unreachable!`,
    `assert!`, an out-of-bounds index, a `usize` subtraction below zero).  The
    model turns each such panic into an `Err` carrying the kind of fault, so that
    the sweep can be composed without preconditions the source never states.
 */
module Results {

  datatype Option<+T> = None | Some(value: T)

  /** Why a call of the source would have panicked. */
  datatype Fault =
    | Unreachable        // an `unreachable!()` was reached
    | AssertionFailed    // an `assert!` / `debug_assert!` did not hold
    | IndexOutOfBounds   // a slice or Vec index past the end
    | Underflow          // an unsigned subtraction below zero
    | DivisionByZero     // an integer `%` or `/` by zero

  datatype Result<+T> = Ok(value: T) | Err(fault: Fault) {
    predicate IsFailure() { Err? }

    function PropagateFailure<U>(): Result<U>
      requires Err?
    {
      Err(fault)
    }

    function Extract(): T
      requires Ok?
    {
      value
    }
  }
}

=== FILE: sorting.dfy ===
/** Stable sorting by a lexicographic pair of reals.

    Every `sort_by` of the source compares one or two coordinates; each of those
    comparators is modelled literally elsewhere and proved equal to `CompareKeys`
    on a suitable `Key`, so one sort serves all of them.  Rust's `sort_by` is
    stable; the model is an insertion sort that keeps equal keys in input order.
 */
module Sorting {
  import opened Geometry

  datatype Key = Key(major: real, minor: real)

  predicate KeyLt(a: Key, b: Key) {
    a.major < b.major || (a.major == b.major && a.minor < b.minor)
  }

  predicate KeyLe(a: Key, b: Key) {
    !KeyLt(b, a)
  }

  /** Three-way comparison of keys. */
  function CompareKeys(a: Key, b: Key): (r: Ordering)
    ensures r == Less <==> KeyLt(a, b)
    ensures r == Greater <==> KeyLt(b, a)
    ensures r == Equal <==> a == b
  {
    if KeyLt(a, b) then Less else if KeyLt(b, a) then Greater else Equal
  }

  ghost predicate SortedBy<T>(s: seq<T>, key: T -> Key) {
    forall i, j :: 0 <= i < j < |s| ==> KeyLe(key(s[i]), key(s[j]))
  }

  /** Inserts `x` in front of the first element whose key is strictly greater. */
  function Insert<T>(s: seq<T>, x: T, key: T -> Key): (r: seq<T>)
    ensures |r| == |s| + 1
    ensures multiset(r) == multiset(s) + multiset{x}
    ensures SortedBy(s, key) ==> SortedBy(r, key)
  {
    if s == [] then [x]
    else if KeyLt(key(x), key(s[0])) then [x] + s
    else
      var rest := Insert(s[1..], x, key);
      InsertStep(s, x, rest, key);
      [s[0]] + rest
  }

  /** The step of `Insert` that keeps the head: `rest` is the insertion into the tail. */
  lemma InsertStep<T>(s: seq<T>, x: T, rest: seq<T>, key: T -> Key)
    requires s != [] && !KeyLt(key(x), key(s[0]))
    requires multiset(rest) == multiset(s[1..]) + multiset{x}
    requires SortedBy(s[1..], key) ==> SortedBy(rest, key)
    ensures multiset([s[0]] + rest) == multiset(s) + multiset{x}
    ensures SortedBy(s, key) ==> SortedBy([s[0]] + rest, key)
  {
    assert s == [s[0]] + s[1..];
    if SortedBy(s, key) {
      assert forall k :: 0 <= k < |s[1..]| ==> s[1..][k] == s[k + 1];
      InsertKeepsLowerBound(s[1..], x, rest, key(s[0]), key);
      ConsSorted(s[0], rest, key);
    }
  }

  /** Every key of `rest` is bounded below by `lo` when `rest` holds `s` and `x`, and each of
      those keys is. */
  lemma InsertKeepsLowerBound<T>(s: seq<T>, x: T, rest: seq<T>, lo: Key, key: T -> Key)
    requires multiset(rest) == multiset(s) + multiset{x}
    requires forall k :: 0 <= k < |s| ==> KeyLe(lo, key(s[k]))
    requires KeyLe(lo, key(x))
    ensures forall k :: 0 <= k < |rest| ==> KeyLe(lo, key(rest[k]))
  {
    forall k | 0 <= k < |rest|
      ensures KeyLe(lo, key(rest[k]))
    {
      assert rest[k] in multiset(rest);
      if rest[k] != x {
        assert rest[k] in multiset(s);
        var m :| 0 <= m < |s| && s[m] == rest[k];
      }
    }
  }

  lemma ConsSorted<T>(h: T, rest: seq<T>, key: T -> Key)
    requires SortedBy(rest, key)
    requires forall k :: 0 <= k < |rest| ==> KeyLe(key(h), key(rest[k]))
    ensures SortedBy([h] + rest, key)
  {
    var r := [h] + rest;
    forall i, j | 0 <= i < j < |r|
      ensures KeyLe(key(r[i]), key(r[j]))
    {
      assert r[j] == rest[j - 1];
      if i > 0 {
        assert r[i] == rest[i - 1];
      }
    }
  }

  /** Stable insertion sort: the model of `slice::sort_by`. */
  function SortBy<T>(s: seq<T>, key: T -> Key): (r: seq<T>)
    ensures |r| == |s|
    ensures multiset(r) == multiset(s)
    ensures SortedBy(r, key)
  {
    if s == [] then []
    else
      var init := s[..|s| - 1];
      assert s == init + [s[|s| - 1]];
      Insert(SortBy(init, key), s[|s| - 1], key)
  }

  lemma {:induction false} InsertLast<T>(s: seq<T>, x: T, key: T -> Key)
    requires forall k :: 0 <= k < |s| ==> KeyLe(key(s[k]), key(x))
    ensures Insert(s, x, key) == s + [x]
  {
    if s != [] {
      assert !KeyLt(key(x), key(s[0])) by { assert KeyLe(key(s[0]), key(x)); }
      InsertLast(s[1..], x, key);
    }
  }

  /** Sorting a sequence that is already sorted changes nothing. */
  lemma {:induction false} SortSortedIsIdentity<T>(s: seq<T>, key: T -> Key)
    requires SortedBy(s, key)
    ensures SortBy(s, key) == s
  {
    if s != [] {
      var init := s[..|s| - 1];
      assert SortedBy(init, key);
      SortSortedIsIdentity(init, key);
      InsertLast(init, s[|s| - 1], key);
      assert init + [s[|s| - 1]] == s;
    }
  }

  /** Pushing onto a sorted queue and re-sorting is an ordered insertion. */
  lemma PushThenSortIsInsert<T>(q: seq<T>, x: T, key: T -> Key)
    requires SortedBy(q, key)
    ensures SortBy(q + [x], key) == Insert(q, x, key)
  {
    assert (q + [x])[..|q + [x]| - 1] == q;
    SortSortedIsIdentity(q, key);
  }
}

=== FILE: sweep.dfy ===
/** The sweep-line fill tessellator (`Tesselator` in lyon/src/tesselation/path_tesselator.rs).

    Events (path vertices sorted top to bottom) are processed in order.  The sweep line
    is a sequence of spans; each event extends, splits, merges, opens or closes spans.
    Crossings between edges are detected when an edge is inserted: each gets a new
    synthetic vertex and an entry in a queue sorted by (y, x), which the main loop
    drains from the front before each event that lies below it.

    Every panic of the source (index out of bounds, `unreachable!`, a failed assertion of
    a span's tessellator, a `usize` underflow) is an `Err` here, so that the whole event
    loop is a total function.  The geometry is the uninterpreted `Oracle`.
 */
module Sweep {
  import opened Results
  import opened Geometry
  import opened Sorting
  import opened EventVector
  import opened SweepSpan
  import MonotoneTesselator

  datatype Event = Event(current: Vertex, next: Vertex, previous: Vertex)

  datatype Intersection = Intersection(point: Vertex, aDown: Vertex, bDown: Vertex)

  /** The vertex buffer builder written to: positions pushed, and triangles as id triples. */
  datatype Output = Output(vertices: seq<Point>, indices: seq<MonotoneTesselator.Triangle>)

  datatype Tesselator = Tesselator(
    spans: seq<Span>,
    intersections: seq<Intersection>,
    nextNewVertex: PathVertexId,
    output: Output)

  /** The intersection queue is ordered like the events: by y, then by x. */
  function IntersectionKey(i: Intersection): Key {
    PointKey(i.point.position)
  }

  /** Every span's tessellator holds at least one vertex. */
  ghost predicate StacksOpen(spans: seq<Span>) {
    forall i :: 0 <= i < |spans| ==> |spans[i].tess.stack| > 0
  }

  /** What holds between two events:
      - the next synthetic vertex id is the length of the output vertex buffer, so every
        synthetic id indexes its own position;
      - the intersection queue is sorted by (y, x);
      - no span's tessellator is empty, so its stack assertion cannot fail. */
  ghost predicate Valid(t: Tesselator) {
    && |t.output.vertices| == t.nextNewVertex.vertexId
    && SortedBy(t.intersections, IntersectionKey)
    && StacksOpen(t.spans)
  }

  /** `r` is a later state of `t`: output only appended to, ids only allocated forward, and
      synthetic vertices all in the sub-path slot reserved for them. */
  ghost predicate Extends(t: Tesselator, r: Tesselator) {
    && |t.output.vertices| <= |r.output.vertices|
    && r.output.vertices[..|t.output.vertices|] == t.output.vertices
    && |t.output.indices| <= |r.output.indices|
    && r.output.indices[..|t.output.indices|] == t.output.indices
    && r.nextNewVertex.pathId == t.nextNewVertex.pathId
    && t.nextNewVertex.vertexId <= r.nextNewVertex.vertexId
  }

  lemma ExtendsTransitive(a: Tesselator, b: Tesselator, c: Tesselator)
    requires Extends(a, b) && Extends(b, c)
    ensures Extends(a, c)
  {
    assert c.output.vertices[..|a.output.vertices|] == c.output.vertices[..|b.output.vertices|][..|a.output.vertices|];
    assert c.output.indices[..|a.output.indices|] == c.output.indices[..|b.output.indices|][..|a.output.indices|];
  }

  /** `Tesselator::new`: synthetic vertices are numbered from the path's vertex count on, in
      the sub-path slot just past the path's own. */
  function New(p: Path, output: Output): (r: Tesselator)
    ensures r.spans == [] && r.intersections == [] && r.output == output
    ensures r.nextNewVertex.vertexId == |p.vertices| && r.nextNewVertex.pathId == |p.subPaths|
    ensures |output.vertices| == |p.vertices| ==> Valid(r)
  {
    Tesselator([], [], PathVertexId(|p.vertices|, |p.subPaths|), output)
  }

  /** `new_vertex`: allocates the next synthetic id and pushes its position to the output. */
  function NewVertex(t: Tesselator, pos: Point): (r: (Tesselator, Vertex))
    ensures r.1.position == pos && r.1.id == t.nextNewVertex
    ensures r.0.nextNewVertex == PathVertexId(t.nextNewVertex.vertexId + 1, t.nextNewVertex.pathId)
    ensures r.0.output.vertices == t.output.vertices + [pos] && r.0.output.indices == t.output.indices
    ensures r.0.spans == t.spans && r.0.intersections == t.intersections
    ensures Valid(t) ==> Valid(r.0) && r.0.output.vertices[r.1.id.vertexId] == pos
  {
    var next := PathVertexId(t.nextNewVertex.vertexId + 1, t.nextNewVertex.pathId);
    (t.(nextNewVertex := next, output := t.output.(vertices := t.output.vertices + [pos])),
     Vertex(pos, t.nextNewVertex))
  }

  /** The filter of `test_intersection`: an edge parked in `merge`, or one whose lower end is
      an end of the new segment, is never tested. */
  predicate Candidate(edge: SpanEdge, up: Vertex, down: Vertex) {
    !edge.merge && edge.lower.id != up.id && edge.lower.id != down.id
  }

  /** The queued crossing: the two lower ends, swapped when the angle test says so. */
  function CrossingEvent(point: Vertex, down: Vertex, edgeLower: Vertex, o: Oracle): (r: Intersection)
    ensures r.point == point
    ensures (r.aDown == down && r.bDown == edgeLower) || (r.aDown == edgeLower && r.bDown == down)
  {
    if o.angle2(point.position, edgeLower.position, down.position) > PI then Intersection(point, edgeLower, down)
    else Intersection(point, down, edgeLower)
  }

  /** `test_intersection`: if the edge passes the filter and crosses the segment `up`-`down`,
      allocates a vertex at the crossing and queues it, re-sorting the queue. */
  function TestIntersection(t: Tesselator, edge: SpanEdge, up: Vertex, down: Vertex, o: Oracle): (r: Tesselator)
    ensures r.spans == t.spans && r.output.indices == t.output.indices
    ensures !Candidate(edge, up, down) ==> r == t
    ensures o.segmentIntersection(edge.upper.position, edge.lower.position, up.position, down.position).None? ==> r == t
    ensures Candidate(edge, up, down) ==>
              match o.segmentIntersection(edge.upper.position, edge.lower.position, up.position, down.position)
              case None => true
              case Some(p) =>
                var e := CrossingEvent(Vertex(p, t.nextNewVertex), down, edge.lower, o);
                && multiset(r.intersections) == multiset(t.intersections) + multiset{e}
                && SortedBy(r.intersections, IntersectionKey)
                && (SortedBy(t.intersections, IntersectionKey) ==> r.intersections == Insert(t.intersections, e, IntersectionKey))
                && r.nextNewVertex == PathVertexId(t.nextNewVertex.vertexId + 1, t.nextNewVertex.pathId)
                && r.output.vertices == t.output.vertices + [p]
    ensures Valid(t) ==> Valid(r)
    ensures Extends(t, r)
  {
    if !Candidate(edge, up, down) then t
    else
      match o.segmentIntersection(edge.upper.position, edge.lower.position, up.position, down.position)
      case None => t
      case Some(p) =>
        var (t1, point) := NewVertex(t, p);
        var e := CrossingEvent(point, down, edge.lower, o);
        var q := SortBy(t1.intersections + [e], IntersectionKey);
        assert SortedBy(t.intersections, IntersectionKey) ==> q == Insert(t.intersections, e, IntersectionKey) by {
          if SortedBy(t.intersections, IntersectionKey) {
            PushThenSortIsInsert(t.intersections, e, IntersectionKey);
          }
        }
        assert t1.output.vertices[..|t.output.vertices|] == t.output.vertices;
        t1.(intersections := q)
  }

  /** The (span, side) pairs `check_intersections` visits from span `idx` on, in order: both
      edges of every span except the edge on `side` of span `spanIndex`. */
  function Slots(n: nat, spanIndex: nat, side: Side, idx: nat): (r: seq<(nat, Side)>)
    requires idx <= n
    ensures forall k: nat, s: Side :: (k, s) in r <==> idx <= k < n && (k != spanIndex || s != side)
    ensures forall j :: 0 <= j < |r| ==> r[j].0 < n
    decreases n - idx
  {
    if idx == n then []
    else
      var l := if idx != spanIndex || side == Right then [(idx, Left)] else [];
      var r := if idx != spanIndex || side == Left then [(idx, Right)] else [];
      var rest := Slots(n, spanIndex, side, idx + 1);
      forall k: nat, s: Side
        ensures (k, s) in l + r + rest <==> idx <= k < n && (k != spanIndex || s != side)
      {
        assert (k, s) in l + r + rest <==> (k, s) in l || (k, s) in r || (k, s) in rest;
        if k == idx {
          assert (k, s) !in rest;
          if s == Left {
            assert (k, s) in l <==> (idx != spanIndex || side == Right);
          } else {
            assert (k, s) in r <==> (idx != spanIndex || side == Left);
          }
        }
      }
      l + r + rest
  }

  /** The crossing `test_intersection` finds for an edge: none when the edge fails the
      filter, otherwise the oracle's answer. */
  function CrossingPoint(edge: SpanEdge, up: Vertex, down: Vertex, o: Oracle): Option<Point> {
    if Candidate(edge, up, down) then
      o.segmentIntersection(edge.upper.position, edge.lower.position, up.position, down.position)
    else None
  }

  /** The crossings found on the edges at `slots`, in slot order, each given the next synthetic
      id from `next` on. */
  function Crossings(spans: seq<Span>, slots: seq<(nat, Side)>, up: Vertex, down: Vertex, o: Oracle, next: PathVertexId)
    : (r: seq<Intersection>)
    requires forall j :: 0 <= j < |slots| ==> slots[j].0 < |spans|
    ensures |r| <= |slots|
    ensures (forall j :: 0 <= j < |slots| ==> CrossingPoint(Edge(spans[slots[j].0], slots[j].1), up, down, o).None?)
            ==> r == []
    decreases |slots|
  {
    if slots == [] then []
    else
      var edge := Edge(spans[slots[0].0], slots[0].1);
      assert forall j :: 1 <= j < |slots| ==> slots[1..][j - 1] == slots[j];
      match CrossingPoint(edge, up, down, o)
      case None => Crossings(spans, slots[1..], up, down, o, next)
      case Some(p) =>
        [CrossingEvent(Vertex(p, next), down, edge.lower, o)]
          + Crossings(spans, slots[1..], up, down, o, PathVertexId(next.vertexId + 1, next.pathId))
  }

  /** The points of `c` carry consecutive ids from `next` on. */
  predicate NumberedFrom(c: seq<Intersection>, next: PathVertexId) {
    forall i :: 0 <= i < |c| ==> c[i].point.id == PathVertexId(next.vertexId + i, next.pathId)
  }

  /** The crossings are numbered consecutively from `next`. */
  lemma {:induction false} CrossingIds(spans: seq<Span>, slots: seq<(nat, Side)>, up: Vertex, down: Vertex, o: Oracle, next: PathVertexId)
    requires forall j :: 0 <= j < |slots| ==> slots[j].0 < |spans|
    ensures NumberedFrom(Crossings(spans, slots, up, down, o, next), next)
    decreases |slots|
  {
    if slots != [] {
      var edge := Edge(spans[slots[0].0], slots[0].1);
      assert forall j :: 1 <= j < |slots| ==> slots[1..][j - 1] == slots[j];
      match CrossingPoint(edge, up, down, o)
      case None =>
        CrossingIds(spans, slots[1..], up, down, o, next);
        assert Crossings(spans, slots, up, down, o, next) == Crossings(spans, slots[1..], up, down, o, next);
      case Some(p) =>
        var next' := PathVertexId(next.vertexId + 1, next.pathId);
        CrossingIds(spans, slots[1..], up, down, o, next');
        var rest := Crossings(spans, slots[1..], up, down, o, next');
        var e := CrossingEvent(Vertex(p, next), down, edge.lower, o);
        var c := Crossings(spans, slots, up, down, o, next);
        assert c == [e] + rest;
        assert NumberedFrom(rest, next');
        forall i | 0 <= i < |c|
          ensures c[i].point.id == PathVertexId(next.vertexId + i, next.pathId)
        {
          if i > 0 {
            assert c[i] == rest[i - 1];
          }
        }
    }
  }

  /** The positions of the crossings, in order. */
  function Points(c: seq<Intersection>): (r: seq<Point>)
    ensures |r| == |c|
  {
    if c == [] then [] else [c[0].point.position] + Points(c[1..])
  }

  /** Runs `test_intersection` on the edges at `slots`, in order. */
  function TestEach(t: Tesselator, slots: seq<(nat, Side)>, up: Vertex, down: Vertex, o: Oracle): (r: Tesselator)
    requires forall j :: 0 <= j < |slots| ==> slots[j].0 < |t.spans|
    ensures r.spans == t.spans && r.output.indices == t.output.indices
    ensures (forall j :: 0 <= j < |slots| ==> !Candidate(Edge(t.spans[slots[j].0], slots[j].1), up, down)) ==> r == t
    ensures Valid(t) ==> Valid(r)
    ensures Extends(t, r)
    decreases |slots|
  {
    if slots == [] then t
    else
      var edge := Edge(t.spans[slots[0].0], slots[0].1);
      var t1 := TestIntersection(t, edge, up, down, o);
      var r := TestEach(t1, slots[1..], up, down, o);
      ExtendsTransitive(t, t1, r);
      r
  }

  /** What `TestEach` does is the crossings it finds: the queue gains exactly those, and each
      gets a new output vertex at its position and the next synthetic id, in slot order. */
  lemma {:induction false} TestEachQueuesCrossings(t: Tesselator, slots: seq<(nat, Side)>, up: Vertex, down: Vertex, o: Oracle)
    requires forall j :: 0 <= j < |slots| ==> slots[j].0 < |t.spans|
    ensures var r := TestEach(t, slots, up, down, o);
            var c := Crossings(t.spans, slots, up, down, o, t.nextNewVertex);
            && multiset(r.intersections) == multiset(t.intersections) + multiset(c)
            && r.nextNewVertex == PathVertexId(t.nextNewVertex.vertexId + |c|, t.nextNewVertex.pathId)
            && r.output.vertices == t.output.vertices + Points(c)
    decreases |slots|
  {
    if slots != [] {
      var edge := Edge(t.spans[slots[0].0], slots[0].1);
      var t1 := TestIntersection(t, edge, up, down, o);
      TestEachQueuesCrossings(t1, slots[1..], up, down, o);
      TestEachStep(t, t1, TestEach(t1, slots[1..], up, down, o), slots, up, down, o);
    }
  }

  /** The step of `TestEach`: the first slot's crossing, if any, followed by the rest. */
  lemma TestEachStep(t: Tesselator, t1: Tesselator, r: Tesselator, slots: seq<(nat, Side)>, up: Vertex, down: Vertex, o: Oracle)
    requires slots != [] && forall j :: 0 <= j < |slots| ==> slots[j].0 < |t.spans|
    requires t1.spans == t.spans
    requires var edge := Edge(t.spans[slots[0].0], slots[0].1);
             match CrossingPoint(edge, up, down, o)
             case None => t1 == t
             case Some(p) =>
               var e := CrossingEvent(Vertex(p, t.nextNewVertex), down, edge.lower, o);
               && multiset(t1.intersections) == multiset(t.intersections) + multiset{e}
               && t1.nextNewVertex == PathVertexId(t.nextNewVertex.vertexId + 1, t.nextNewVertex.pathId)
               && t1.output.vertices == t.output.vertices + [p]
    requires var c := Crossings(t1.spans, slots[1..], up, down, o, t1.nextNewVertex);
             && multiset(r.intersections) == multiset(t1.intersections) + multiset(c)
             && r.nextNewVertex == PathVertexId(t1.nextNewVertex.vertexId + |c|, t1.nextNewVertex.pathId)
             && r.output.vertices == t1.output.vertices + Points(c)
    ensures var c := Crossings(t.spans, slots, up, down, o, t.nextNewVertex);
            && multiset(r.intersections) == multiset(t.intersections) + multiset(c)
            && r.nextNewVertex == PathVertexId(t.nextNewVertex.vertexId + |c|, t.nextNewVertex.pathId)
            && r.output.vertices == t.output.vertices + Points(c)
  {
    var edge := Edge(t.spans[slots[0].0], slots[0].1);
    var c := Crossings(t.spans, slots, up, down, o, t.nextNewVertex);
    var rest := Crossings(t1.spans, slots[1..], up, down, o, t1.nextNewVertex);
    match CrossingPoint(edge, up, down, o)
    case None =>
      assert c == rest;
    case Some(p) =>
      var e := CrossingEvent(Vertex(p, t.nextNewVertex), down, edge.lower, o);
      assert c == [e] + rest;
      assert multiset(c) == multiset{e} + multiset(rest);
      assert c[1..] == rest;
      assert Points(c) == [p] + Points(rest);
  }

  /** `check_intersections`: tests the segment `up`-`down` against every edge of the sweep
      line except the one it is about to replace, on `side` of span `spanIndex`.  That edge is
      never looked at: if no other edge passes the filter, nothing changes. */
  function CheckIntersections(t: Tesselator, spanIndex: nat, side: Side, up: Vertex, down: Vertex, o: Oracle)
    : (r: Tesselator)
    ensures r.spans == t.spans && r.output.indices == t.output.indices
    ensures (forall k: nat, s: Side :: k < |t.spans| && (k != spanIndex || s != side) ==> !Candidate(Edge(t.spans[k], s), up, down))
            ==> r == t
    ensures Valid(t) ==> Valid(r)
    ensures Extends(t, r)
  {
    var slots := Slots(|t.spans|, spanIndex, side, 0);
    assert forall j :: 0 <= j < |slots| ==> slots[j] in slots;
    TestEach(t, slots, up, down, o)
  }

  /** `check_intersections` queues every crossing found on the other edges, and nothing else:
      one queue entry and one new output vertex per crossing, with consecutive new ids. */
  lemma CheckIntersectionsQueuesCrossings(t: Tesselator, spanIndex: nat, side: Side, up: Vertex, down: Vertex, o: Oracle)
    ensures var r := CheckIntersections(t, spanIndex, side, up, down, o);
            var c := Crossings(t.spans, Slots(|t.spans|, spanIndex, side, 0), up, down, o, t.nextNewVertex);
            && multiset(r.intersections) == multiset(t.intersections) + multiset(c)
            && r.nextNewVertex == PathVertexId(t.nextNewVertex.vertexId + |c|, t.nextNewVertex.pathId)
            && r.output.vertices == t.output.vertices + Points(c)
            && NumberedFrom(c, t.nextNewVertex)
  {
    var slots := Slots(|t.spans|, spanIndex, side, 0);
    TestEachQueuesCrossings(t, slots, up, down, o);
    CrossingIds(t.spans, slots, up, down, o, t.nextNewVertex);
  }

  /** A live edge whose lower end is the vertex. */
  predicate Hits(e: SpanEdge, id: PathVertexId) {
    !e.merge && e.lower.id == id
  }

  predicate SpanHits(s: Span, id: PathVertexId) {
    Hits(s.left, id) || Hits(s.right, id)
  }

  function FindFrom(spans: seq<Span>, id: PathVertexId, i: nat): (r: Result<(nat, Side)>)
    requires i <= |spans|
    ensures r.Ok? <==> exists j :: i <= j < |spans| && SpanHits(spans[j], id)
    ensures r.Err? ==> r.fault == Unreachable
    ensures r.Ok? ==>
              && i <= r.value.0 < |spans|
              && Hits(Edge(spans[r.value.0], r.value.1), id)
              && (r.value.1 == Right ==> !Hits(spans[r.value.0].left, id))
              && forall j :: i <= j < r.value.0 ==> !SpanHits(spans[j], id)
    decreases |spans| - i
  {
    if i == |spans| then Err(Unreachable)
    else if Hits(spans[i].left, id) then Ok((i, Left))
    else if Hits(spans[i].right, id) then Ok((i, Right))
    else FindFrom(spans, id, i + 1)
  }

  /** `find_span_and_side`: the first span with a live edge ending at the vertex, its left edge
      checked before its right one; running off the end is `unreachable!`. */
  function FindSpanAndSide(spans: seq<Span>, id: PathVertexId): (r: Result<(nat, Side)>)
    ensures r.Ok? <==> exists j :: 0 <= j < |spans| && SpanHits(spans[j], id)
    ensures r.Err? ==> r.fault == Unreachable
    ensures r.Ok? ==>
              && r.value.0 < |spans|
              && Hits(Edge(spans[r.value.0], r.value.1), id)
              && (r.value.1 == Right ==> !Hits(spans[r.value.0].left, id))
              && forall j :: 0 <= j < r.value.0 ==> !SpanHits(spans[j], id)
  {
    FindFrom(spans, id, 0)
  }

  /** `end_span`: closes span `idx` at `v`, flushes its triangles to the output in order, and
      removes exactly that span. */
  function EndSpan(t: Tesselator, idx: nat, v: Vertex, o: Oracle): (r: Result<Tesselator>)
    ensures r.Ok? <==> idx < |t.spans| && CanFeed(t.spans[idx], v, o)
    ensures r.Ok? ==>
              && r.value.spans == t.spans[..idx] + t.spans[idx + 1..]
              && r.value.intersections == t.intersections
              && r.value.nextNewVertex == t.nextNewVertex
              && r.value.output.vertices == t.output.vertices
              && |r.value.output.indices| == |t.output.indices| + |t.spans[idx].tess.triangles| + |t.spans[idx].tess.stack| - 1
              && r.value.output.indices[..|t.output.indices| + |t.spans[idx].tess.triangles|]
                 == t.output.indices + t.spans[idx].tess.triangles
    ensures r.Ok? && Valid(t) ==> Valid(r.value)
    ensures r.Ok? ==> Extends(t, r.value)
  {
    if idx >= |t.spans| then Err(IndexOutOfBounds)
    else
      var s :- SpanEnd(t.spans[idx], v, o);
      var flushed := MonotoneTesselator.Flush(s.tess, t.output.indices);
      var out := flushed.1;
      var n := |t.output.indices|;
      var m := |t.spans[idx].tess.triangles|;
      assert out[..n + m] == t.output.indices + t.spans[idx].tess.triangles by {
        assert out[n..] == s.tess.triangles;
        assert s.tess.triangles[..m] == t.spans[idx].tess.triangles;
        assert out[..n] == t.output.indices;
        assert out[..n + m] == out[..n] + out[n..][..m];
      }
      assert out[..n] == t.output.indices;
      var r := t.(spans := t.spans[..idx] + t.spans[idx + 1..], output := t.output.(indices := out));
      assert StacksOpen(t.spans) ==> StacksOpen(r.spans) by {
        if StacksOpen(t.spans) {
          forall i | 0 <= i < |r.spans| ensures |r.spans[i].tess.stack| > 0 {
            if i < idx {
              assert r.spans[i] == t.spans[i];
            } else {
              assert r.spans[i] == t.spans[i + 1];
            }
          }
        }
      }
      assert r.output.vertices[..|t.output.vertices|] == t.output.vertices;
      Ok(r)
  }

  /** `on_end_event`: the span ends at `v`; when its right edge was parked at a merge vertex,
      the span to its right ends there too.  Exactly those one or two spans are removed. */
  function OnEndEvent(t: Tesselator, v: Vertex, idx: nat, o: Oracle): (r: Result<Tesselator>)
    ensures r.Ok? <==>
              && idx < |t.spans| && CanFeed(t.spans[idx], v, o)
              && (t.spans[idx].right.merge ==> idx + 1 < |t.spans| && CanFeed(t.spans[idx + 1], v, o))
    ensures r.Ok? ==>
              && idx < |t.spans|
              && var k := if t.spans[idx].right.merge then 2 else 1;
              && idx + k <= |t.spans|
              && r.value.spans == t.spans[..idx] + t.spans[idx + k..]
    ensures r.Ok? ==>
              && r.value.intersections == t.intersections
              && r.value.nextNewVertex == t.nextNewVertex
              && r.value.output.vertices == t.output.vertices
    ensures r.Ok? && Valid(t) ==> Valid(r.value)
    ensures r.Ok? ==> Extends(t, r.value)
  {
    if idx >= |t.spans| then Err(IndexOutOfBounds)
    else if t.spans[idx].right.merge then
      var t1 :- EndSpan(t, idx, v, o);
      assert idx + 1 < |t.spans| ==> t1.spans[idx] == t.spans[idx + 1];
      var t2 :- EndSpan(t1, idx, v, o);
      assert t2.spans == t.spans[..idx] + t.spans[idx + 2..] by {
        assert t1.spans[..idx] == t.spans[..idx];
        assert t1.spans[idx + 1..] == t.spans[idx + 2..];
      }
      ExtendsTransitive(t, t1, t2);
      Ok(t2)
    else
      EndSpan(t, idx, v, o)
  }

  /** Updating span `i` of `mid`, which is `spans` with `k` spans after `i` dropped, keeps the
      spans around `i` those of `spans`. */
  lemma LeftEventShape(spans: seq<Span>, mid: seq<Span>, r: seq<Span>, i: nat, k: nat)
    requires i < |mid| && i + k < |spans| && |mid| + k == |spans|
    requires mid[..i] == spans[..i] && mid[i + 1..] == spans[i + 1 + k..]
    requires |r| == |mid| && r == mid[i := r[i]]
    ensures |r| + k == |spans| && r[..i] == spans[..i] && r[i + 1..] == spans[i + 1 + k..]
  {
    assert r[..i] == mid[..i];
    assert r[i + 1..] == mid[i + 1..];
  }

  lemma StacksOpenUpdate(spans: seq<Span>, i: nat, s: Span)
    requires StacksOpen(spans) && i < |spans| && |s.tess.stack| > 0
    ensures StacksOpen(spans[i := s])
  {
  }

  lemma StacksOpenInsert(spans: seq<Span>, i: nat, s: Span)
    requires StacksOpen(spans) && i <= |spans| && |s.tess.stack| > 0
    ensures StacksOpen(spans[..i] + [s] + spans[i..])
  {
    var r := spans[..i] + [s] + spans[i..];
    forall j | 0 <= j < |r| ensures |r[j].tess.stack| > 0 {
      if j < i {
        assert r[j] == spans[j];
      } else if j > i {
        assert r[j] == spans[j - 1];
      }
    }
  }

  /** `insert_edge`, or `insert_edge_no_intersection` when `check` is false: the edge on `side`
      of span `idx` now runs from `up` to `down`, after the new segment is tested for
      crossings.  No other span and no other edge changes. */
  function InsertEdge(t: Tesselator, idx: nat, side: Side, up: Vertex, down: Vertex, o: Oracle, check: bool)
    : (r: Result<Tesselator>)
    ensures r.Ok? <==> idx < |t.spans| && CanFeed(t.spans[idx], up, o)
    ensures r.Ok? ==>
              && |r.value.spans| == |t.spans|
              && r.value.spans == t.spans[idx := r.value.spans[idx]]
              && Edge(r.value.spans[idx], side) == SpanEdge(up, down, false)
              && Edge(r.value.spans[idx], side.Opposite()) == Edge(t.spans[idx], side.Opposite())
              && r.value.output.indices == t.output.indices
    ensures r.Ok? && !check ==>
              r.value.intersections == t.intersections && r.value.nextNewVertex == t.nextNewVertex && r.value.output == t.output
    ensures r.Ok? && Valid(t) ==> Valid(r.value)
    ensures r.Ok? ==> Extends(t, r.value)
  {
    var t1 := if check then CheckIntersections(t, idx, side, up, down, o) else t;
    if idx >= |t1.spans| then Err(IndexOutOfBounds)
    else
      var s :- SpanVertex(t1.spans[idx], up, down, side, o);
      assert StacksOpen(t1.spans) ==> StacksOpen(t1.spans[idx := s]) by {
        if StacksOpen(t1.spans) {
          StacksOpenUpdate(t1.spans, idx, s);
        }
      }
      Ok(t1.(spans := t1.spans[idx := s]))
  }

  /** The shared step of `on_left_event` and `on_merge_event`: the left edge of span `j + 1`
      is brought down to `v`, then span `j` ends at `v`, so the neighbour takes its place. */
  function HandOver(t: Tesselator, j: nat, v: Vertex, o: Oracle): (r: Result<Tesselator>)
    ensures r.Ok? <==> j + 1 < |t.spans| && CanFeed(t.spans[j], v, o)
    ensures r.Ok? ==>
              && |r.value.spans| + 1 == |t.spans|
              && r.value.spans[..j] == t.spans[..j]
              && r.value.spans[j].left == SpanEdge(t.spans[j + 1].left.upper, v, false)
              && r.value.spans[j].right == t.spans[j + 1].right
              && r.value.spans[j].tess == t.spans[j + 1].tess
              && r.value.spans[j + 1..] == t.spans[j + 2..]
              && r.value.intersections == t.intersections
              && r.value.nextNewVertex == t.nextNewVertex
              && r.value.output.vertices == t.output.vertices
    ensures r.Ok? && Valid(t) ==> Valid(r.value)
    ensures r.Ok? ==> Extends(t, r.value)
  {
    if j + 1 >= |t.spans| then Err(IndexOutOfBounds)
    else
      var t0 := t.(spans := t.spans[j + 1 := SetLowerVertex(t.spans[j + 1], v, Left)]);
      assert StacksOpen(t.spans) ==> StacksOpen(t0.spans) by {
        if StacksOpen(t.spans) {
          StacksOpenUpdate(t.spans, j + 1, t0.spans[j + 1]);
        }
      }
      var r :- EndSpan(t0, j, v, o);
      assert r.spans[j] == t0.spans[j + 1];
      assert r.spans[..j] == t.spans[..j];
      assert r.spans[j + 1..] == t.spans[j + 2..];
      Ok(r)
  }

  /** `on_left_event`, or `on_left_event_no_intersection` when `check` is false: the left edge
      of span `idx` continues from `current` down to `next`.  If the span's right edge is parked
      at a merge vertex, the span first ends at `current`, the left edge of its right neighbour
      is brought down to `current`, and the new edge goes into that neighbour. */
  function OnLeftEvent(t: Tesselator, idx: nat, current: Vertex, next: Vertex, o: Oracle, check: bool)
    : (r: Result<Tesselator>)
    ensures r.Ok? <==>
              && idx < |t.spans| && CanFeed(t.spans[idx], current, o)
              && (t.spans[idx].right.merge ==> idx + 1 < |t.spans| && CanFeed(t.spans[idx + 1], current, o))
    ensures r.Ok? ==>
              && idx < |t.spans|
              && var k := if t.spans[idx].right.merge then 1 else 0;
              && idx + k < |t.spans|
              && |r.value.spans| + k == |t.spans|
              && r.value.spans[..idx] == t.spans[..idx]
              && r.value.spans[idx].left == SpanEdge(current, next, false)
              && r.value.spans[idx].right == t.spans[idx + k].right
              && r.value.spans[idx + 1..] == t.spans[idx + 1 + k..]
    ensures r.Ok? && !check ==> r.value.intersections == t.intersections && r.value.nextNewVertex == t.nextNewVertex
    ensures r.Ok? ==> r.value.output.vertices == t.output.vertices || check
    ensures r.Ok? && Valid(t) ==> Valid(r.value)
    ensures r.Ok? ==> Extends(t, r.value)
  {
    if idx >= |t.spans| then Err(IndexOutOfBounds)
    else if t.spans[idx].right.merge then
      LeftEventAtMerge(t, idx, current, next, o, check)
    else
      var r :- InsertEdge(t, idx, Left, current, next, o, check);
      LeftEventShape(t.spans, t.spans, r.spans, idx, 0);
      Ok(r)
  }

  /** The branch of `on_left_event` where the right edge of span `idx` is parked at a merge
      vertex: span `idx` ends at `current` and hands its place to its right neighbour, whose
      left edge then continues from `current` down to `next`. */
  function LeftEventAtMerge(t: Tesselator, idx: nat, current: Vertex, next: Vertex, o: Oracle, check: bool)
    : (r: Result<Tesselator>)
    ensures r.Ok? <==> idx + 1 < |t.spans| && CanFeed(t.spans[idx], current, o) && CanFeed(t.spans[idx + 1], current, o)
    ensures r.Ok? ==>
              && idx + 1 < |t.spans|
              && |r.value.spans| + 1 == |t.spans|
              && r.value.spans[..idx] == t.spans[..idx]
              && r.value.spans[idx].left == SpanEdge(current, next, false)
              && r.value.spans[idx].right == t.spans[idx + 1].right
              && r.value.spans[idx + 1..] == t.spans[idx + 2..]
    ensures r.Ok? && !check ==> r.value.intersections == t.intersections && r.value.nextNewVertex == t.nextNewVertex
    ensures r.Ok? && !check ==> r.value.output.vertices == t.output.vertices
    ensures r.Ok? && Valid(t) ==> Valid(r.value)
    ensures r.Ok? ==> Extends(t, r.value)
  {
    var t1 :- HandOver(t, idx, current, o);
    var r :- InsertEdge(t1, idx, Left, current, next, o, check);
    LeftEventShape(t.spans, t1.spans, r.spans, idx, 1);
    ExtendsTransitive(t, t1, r);
    Ok(r)
  }

  /** `on_right_event`, or `on_right_event_no_intersection` when `check` is false: the right
      edge of span `idx` continues from `current` down to `next`. */
  function OnRightEvent(t: Tesselator, idx: nat, current: Vertex, next: Vertex, o: Oracle, check: bool)
    : (r: Result<Tesselator>)
    ensures r.Ok? <==> idx < |t.spans| && CanFeed(t.spans[idx], current, o)
    ensures r.Ok? ==>
              && |r.value.spans| == |t.spans|
              && (forall j :: 0 <= j < |t.spans| && j != idx ==> r.value.spans[j] == t.spans[j])
              && r.value.spans[idx].right == SpanEdge(current, next, false)
              && r.value.spans[idx].left == t.spans[idx].left
    ensures r.Ok? && !check ==> r.value.intersections == t.intersections && r.value.nextNewVertex == t.nextNewVertex
    ensures r.Ok? && Valid(t) ==> Valid(r.value)
    ensures r.Ok? ==> Extends(t, r.value)
  {
    InsertEdge(t, idx, Right, current, next, o, check)
  }

  /** `on_regular_event`: the vertex continues the live edge that ends at it, on whichever side
      the lookup finds it; a vertex no live edge ends at is `unreachable!`. */
  function OnRegularEvent(t: Tesselator, current: Vertex, next: Vertex, o: Oracle): (r: Result<Tesselator>)
    ensures (forall j :: 0 <= j < |t.spans| ==> !SpanHits(t.spans[j], current.id)) ==> r == Err(Unreachable)
    ensures r.Ok? ==>
              && FindSpanAndSide(t.spans, current.id).Ok?
              && var (i, side) := FindSpanAndSide(t.spans, current.id).value;
              && i < |r.value.spans|
              && Edge(r.value.spans[i], side) == SpanEdge(current, next, false)
              && r.value.spans[..i] == t.spans[..i]
              && |r.value.spans| + (if side == Left && t.spans[i].right.merge then 1 else 0) == |t.spans|
    ensures r.Ok? && Valid(t) ==> Valid(r.value)
    ensures r.Ok? ==> Extends(t, r.value)
  {
    var found :- FindSpanAndSide(t.spans, current.id);
    if found.1 == Left then
      OnLeftEvent(t, found.0, current, next, o, true)
    else
      var r :- OnRightEvent(t, found.0, current, next, o, true);
      assert r.spans[..found.0] == t.spans[..found.0];
      Ok(r)
  }

  /** `on_merge_event`: `v` closes both the right edge of span `idx` and the left edge of span
      `idx + 1`, which are then parked at `v`.  If the right edge of span `idx` was already parked
      at an earlier merge vertex, the span between the two merge vertices ends first and the
      next one takes its place.  The `assert!` that span `idx` has a right neighbour and the
      `debug_assert!` that the second edge ends at `v` are both checked. */
  function OnMergeEvent(t: Tesselator, v: Vertex, idx: nat, o: Oracle): (r: Result<Tesselator>)
    ensures |t.spans| == 0 ==> r == Err(Underflow)
    ensures |t.spans| > 0 && idx >= |t.spans| - 1 ==> r == Err(AssertionFailed)
    ensures r.Ok? ==>
              && idx + 1 < |t.spans|
              && var k := if t.spans[idx].right.merge then 1 else 0;
              && idx + 1 + k < |t.spans|
              && |r.value.spans| + k == |t.spans|
              && r.value.spans[..idx] == t.spans[..idx]
              && r.value.spans[idx].left == t.spans[idx].left
              && r.value.spans[idx].right == SpanEdge(v, t.spans[idx].right.lower, true)
              && r.value.spans[idx + 1].left.upper == v && r.value.spans[idx + 1].left.merge
              && r.value.spans[idx + 1].left.lower.id == v.id
              && r.value.spans[idx + 1].right == t.spans[idx + 1 + k].right
              && r.value.spans[idx + 2..] == t.spans[idx + 2 + k..]
    ensures r.Ok? ==>
              && r.value.intersections == t.intersections
              && r.value.nextNewVertex == t.nextNewVertex
              && r.value.output.vertices == t.output.vertices
    ensures r.Ok? && Valid(t) ==> Valid(r.value)
    ensures r.Ok? ==> Extends(t, r.value)
  {
    if |t.spans| == 0 then Err(Underflow)
    else if idx >= |t.spans| - 1 then Err(AssertionFailed)
    else
      var k := if t.spans[idx].right.merge then 1 else 0;
      var t1 :- if t.spans[idx].right.merge then HandOver(t, idx + 1, v, o) else Ok(t);
      assert idx + 1 + k < |t.spans| && |t1.spans| + k == |t.spans|;
      assert t1.spans[..idx + 1] == t.spans[..idx + 1];
      assert t1.spans[idx + 1].right == t.spans[idx + 1 + k].right;
      assert t1.spans[idx + 2..] == t.spans[idx + 2 + k..];
      if t1.spans[idx + 1].left.lower.id != v.id then Err(AssertionFailed)
      else
        var r :- ParkBoth(t1, v, idx, o);
        assert r.spans[..idx] == t.spans[..idx];
        assert r.spans[idx + 2..] == t.spans[idx + 2 + k..];
        Ok(r)
  }

  /** The last step of `on_merge_event`: the right edge of span `idx` and the left edge of span
      `idx + 1` both reach `v` and are parked there. */
  function ParkBoth(t: Tesselator, v: Vertex, idx: nat, o: Oracle): (r: Result<Tesselator>)
    requires idx + 1 < |t.spans|
    ensures r.Ok? ==>
              && |r.value.spans| == |t.spans|
              && r.value.spans[..idx] == t.spans[..idx]
              && r.value.spans[idx].left == t.spans[idx].left
              && r.value.spans[idx].right == SpanEdge(v, t.spans[idx].right.lower, true)
              && r.value.spans[idx + 1].left == SpanEdge(v, t.spans[idx + 1].left.lower, true)
              && r.value.spans[idx + 1].right == t.spans[idx + 1].right
              && r.value.spans[idx + 2..] == t.spans[idx + 2..]
              && r.value.intersections == t.intersections
              && r.value.nextNewVertex == t.nextNewVertex
              && r.value.output == t.output
    ensures r.Ok? && Valid(t) ==> Valid(r.value)
  {
    var a :- MergeVertex(t.spans[idx], v, Right, o);
    var b :- MergeVertex(t.spans[idx + 1], v, Left, o);
    var spans := t.spans[idx := a][idx + 1 := b];
    assert StacksOpen(t.spans) ==> StacksOpen(spans) by {
      if StacksOpen(t.spans) {
        StacksOpenUpdate(t.spans, idx, a);
        StacksOpenUpdate(t.spans[idx := a], idx + 1, b);
      }
    }
    assert spans[..idx] == t.spans[..idx];
    assert spans[idx + 2..] == t.spans[idx + 2..];
    Ok(t.(spans := spans))
  }

  /** `on_down_event`: the vertex ends the live edge found for it; on a left edge the span ends,
      on a right edge two spans merge.  A down event never opens a span. */
  function OnDownEvent(t: Tesselator, v: Vertex, o: Oracle): (r: Result<Tesselator>)
    ensures (forall j :: 0 <= j < |t.spans| ==> !SpanHits(t.spans[j], v.id)) ==> r == Err(Unreachable)
    ensures r.Ok? ==>
              || |r.value.spans| < |t.spans|
              || (FindSpanAndSide(t.spans, v.id).value.1 == Right && |r.value.spans| == |t.spans|)
    ensures r.Ok? ==> r.value.intersections == t.intersections && r.value.nextNewVertex == t.nextNewVertex
    ensures r.Ok? && Valid(t) ==> Valid(r.value)
    ensures r.Ok? ==> Extends(t, r.value)
  {
    var found :- FindSpanAndSide(t.spans, v.id);
    if found.1 == Left then OnEndEvent(t, v, found.0, o)
    else OnMergeEvent(t, v, found.0, o)
  }

  /** The edge crosses the vertex's height strictly to the right of it. */
  predicate PassesRightOf(e: SpanEdge, v: Vertex, o: Oracle) {
    !e.merge && o.lineX(e.upper.position, e.lower.position, v.position.y) > v.position.x
  }

  function FindSpanUpFrom(spans: seq<Span>, v: Vertex, o: Oracle, i: nat): (r: (nat, bool))
    requires i <= |spans|
    ensures i <= r.0 <= |spans|
    ensures forall j :: i <= j < r.0 ==> !PassesRightOf(spans[j].left, v, o) && !PassesRightOf(spans[j].right, v, o)
    ensures r.0 < |spans| ==>
              && (PassesRightOf(spans[r.0].left, v, o) || PassesRightOf(spans[r.0].right, v, o))
              && (r.1 <==> !PassesRightOf(spans[r.0].left, v, o))
    ensures r.0 == |spans| ==> !r.1
    decreases |spans| - i
  {
    if i == |spans| then (i, false)
    else if PassesRightOf(spans[i].left, v, o) then (i, false)
    else if PassesRightOf(spans[i].right, v, o) then (i, true)
    else FindSpanUpFrom(spans, v, o, i + 1)
  }

  /** `find_span_up`: where an up vertex falls on the sweep line.  The index is that of the first
      span with a live edge to the right of the vertex (or the span count); the flag says the
      vertex is inside that span, i.e. its left edge is not to the right. */
  function FindSpanUp(spans: seq<Span>, v: Vertex, o: Oracle): (r: (nat, bool))
    ensures r.0 <= |spans|
    ensures forall j :: 0 <= j < r.0 ==> !PassesRightOf(spans[j].left, v, o) && !PassesRightOf(spans[j].right, v, o)
    ensures r.0 < |spans| ==>
              && (PassesRightOf(spans[r.0].left, v, o) || PassesRightOf(spans[r.0].right, v, o))
              && (r.1 <==> !PassesRightOf(spans[r.0].left, v, o))
    ensures r.0 == |spans| ==> !r.1
  {
    FindSpanUpFrom(spans, v, o, 0)
  }

  /** The two edges leaving an up vertex, as (left, right): towards the previous and the next
      vertex, swapped when the directed angle from the one to the other is below PI. */
  function UpEdges(e: Event, o: Oracle): (r: (SpanEdge, SpanEdge))
    ensures r.0.upper == e.current && r.1.upper == e.current && !r.0.merge && !r.1.merge
    ensures (r.0.lower == e.previous && r.1.lower == e.next) || (r.0.lower == e.next && r.1.lower == e.previous)
  {
    var l := SpanEdge(e.current, e.previous, false);
    var r := SpanEdge(e.current, e.next, false);
    if o.angle(Sub(e.previous.position, e.current.position), Sub(e.next.position, e.current.position)) < PI then (r, l)
    else (l, r)
  }

  /** The split branch of `on_split_event` whose span's left edge is parked at a merge vertex:
      the vertex extends the right edge of the span to the left and the left edge of this
      span, resolving the merge. */
  function SplitAtMerge(t: Tesselator, current: Vertex, idx: nat, l: SpanEdge, r: SpanEdge, o: Oracle)
    : (res: Result<Tesselator>)
    requires 0 < idx < |t.spans|
    ensures res.Ok? ==>
              && |res.value.spans| == |t.spans|
              && res.value.spans[..idx - 1] == t.spans[..idx - 1]
              && res.value.spans[idx - 1].left == t.spans[idx - 1].left
              && res.value.spans[idx - 1].right == SpanEdge(current, l.lower, false)
              && res.value.spans[idx].left == SpanEdge(current, r.lower, false)
              && res.value.spans[idx].right == t.spans[idx].right
              && res.value.spans[idx + 1..] == t.spans[idx + 1..]
              && res.value.intersections == t.intersections
              && res.value.output == t.output
              && res.value.nextNewVertex == t.nextNewVertex
    ensures res.Ok? && Valid(t) ==> Valid(res.value)
  {
    var a :- SpanVertex(t.spans[idx - 1], current, l.lower, Right, o);
    var b :- SpanVertex(t.spans[idx], current, r.lower, Left, o);
    var spans := t.spans[idx - 1 := a][idx := b];
    assert StacksOpen(t.spans) ==> StacksOpen(spans) by {
      if StacksOpen(t.spans) {
        StacksOpenUpdate(t.spans, idx - 1, a);
        StacksOpenUpdate(t.spans[idx - 1 := a], idx, b);
      }
    }
    assert spans[..idx - 1] == t.spans[..idx - 1];
    assert spans[idx + 1..] == t.spans[idx + 1..];
    Ok(t.(spans := spans))
  }

  /** The span a split opens in front of span `idx`: from that span's left edge down to the
      split vertex. */
  function OpenSplitSpan(t: Tesselator, current: Vertex, idx: nat): (r: Tesselator)
    requires idx < |t.spans|
    ensures |r.spans| == |t.spans| + 1
    ensures r.spans[..idx] == t.spans[..idx]
    ensures r.spans[idx].left == t.spans[idx].left
    ensures r.spans[idx].right == SpanEdge(t.spans[idx].left.upper, current, false)
    ensures r.spans[idx + 1] == t.spans[idx]
    ensures r.spans[idx + 2..] == t.spans[idx + 1..]
    ensures r.intersections == t.intersections && r.output == t.output && r.nextNewVertex == t.nextNewVertex
    ensures Valid(t) ==> Valid(r)
  {
    var ll := t.spans[idx].left;
    var s := Begin(ll, SpanEdge(ll.upper, current, false));
    var spans := t.spans[..idx] + [s] + t.spans[idx..];
    assert StacksOpen(t.spans) ==> StacksOpen(spans) by {
      if StacksOpen(t.spans) {
        StacksOpenInsert(t.spans, idx, s);
      }
    }
    assert spans[idx + 1] == t.spans[idx];
    assert spans[..idx] == t.spans[..idx];
    assert spans[idx + 2..] == t.spans[idx + 1..];
    t.(spans := spans)
  }

  /** The other split branch: a new span from the old left edge down to the vertex is inserted
      in front of span `idx`; the two new edges become its right edge and the old span's left
      edge, each tested for crossings. */
  function SplitSpan(t: Tesselator, current: Vertex, idx: nat, l: SpanEdge, r: SpanEdge, o: Oracle)
    : (res: Result<Tesselator>)
    requires idx < |t.spans|
    ensures res.Ok? ==>
              && |res.value.spans| == |t.spans| + 1
              && res.value.spans[..idx] == t.spans[..idx]
              && res.value.spans[idx].left == t.spans[idx].left
              && res.value.spans[idx].right == SpanEdge(current, l.lower, false)
              && res.value.spans[idx + 1].left == SpanEdge(current, r.lower, false)
              && res.value.spans[idx + 1].right == t.spans[idx].right
              && res.value.spans[idx + 2..] == t.spans[idx + 1..]
    ensures res.Ok? && Valid(t) ==> Valid(res.value)
    ensures res.Ok? ==> Extends(t, res.value)
  {
    var t1 := OpenSplitSpan(t, current, idx);
    var t2 :- InsertSplitEdges(t1, current, idx, l, r, o);
    ExtendsTransitive(t, t1, t2);
    Ok(t2)
  }

  /** The two edges of a split, each tested for crossings: from `current` down along `l` as
      the right edge of span `idx`, and down along `r` as the left edge of span `idx + 1`. */
  function InsertSplitEdges(t: Tesselator, current: Vertex, idx: nat, l: SpanEdge, r: SpanEdge, o: Oracle)
    : (res: Result<Tesselator>)
    requires idx + 1 < |t.spans|
    ensures res.Ok? ==>
              && |res.value.spans| == |t.spans|
              && res.value.spans[..idx] == t.spans[..idx]
              && res.value.spans[idx].left == t.spans[idx].left
              && res.value.spans[idx].right == SpanEdge(current, l.lower, false)
              && res.value.spans[idx + 1].left == SpanEdge(current, r.lower, false)
              && res.value.spans[idx + 1].right == t.spans[idx + 1].right
              && res.value.spans[idx + 2..] == t.spans[idx + 2..]
    ensures res.Ok? && Valid(t) ==> Valid(res.value)
    ensures res.Ok? ==> Extends(t, res.value)
  {
    var t2 :- InsertEdge(t, idx, Right, current, l.lower, o, true);
    var t3 :- InsertEdge(t2, idx + 1, Left, current, r.lower, o, true);
    TwoUpdatesKeepOthers(t.spans, t2.spans, t3.spans, idx);
    ExtendsTransitive(t, t2, t3);
    Ok(t3)
  }

  /** Updating span `i` and then span `i + 1` leaves the spans around the pair as they were. */
  lemma TwoUpdatesKeepOthers(s1: seq<Span>, s2: seq<Span>, s3: seq<Span>, i: nat)
    requires i + 1 < |s1| && |s2| == |s1| && |s3| == |s1|
    requires s2 == s1[i := s2[i]] && s3 == s2[i + 1 := s3[i + 1]]
    ensures s3[..i] == s1[..i] && s3[i] == s2[i] && s2[i + 1] == s1[i + 1] && s3[i + 2..] == s1[i + 2..]
  {
    assert s3[..i] == s2[..i];
    assert s3[i + 2..] == s2[i + 2..];
  }

  /** `on_split_event`: an up vertex inside span `idx`, handled by one of the two branches
      above; a parked left edge on the first span is a `usize` underflow. */
  function OnSplitEvent(t: Tesselator, e: Event, idx: nat, l: SpanEdge, r: SpanEdge, o: Oracle)
    : (res: Result<Tesselator>)
    ensures idx >= |t.spans| ==> res == Err(IndexOutOfBounds)
    ensures idx < |t.spans| && t.spans[idx].left.merge && idx == 0 ==> res == Err(Underflow)
    ensures res.Ok? ==>
              && idx < |t.spans|
              && |res.value.spans| == |t.spans| + (if t.spans[idx].left.merge then 0 else 1)
    ensures res.Ok? && Valid(t) ==> Valid(res.value)
    ensures res.Ok? ==> Extends(t, res.value)
  {
    if idx >= |t.spans| then Err(IndexOutOfBounds)
    else if t.spans[idx].left.merge then
      if idx == 0 then Err(Underflow)
      else SplitAtMerge(t, e.current, idx, l, r, o)
    else SplitSpan(t, e.current, idx, l, r, o)
  }

  /** `on_up_event`: an up vertex (below neither neighbour).  Inside a span it is a split;
      otherwise it is a start: both new edges are tested against the whole sweep line and a new
      span bounded by them is inserted where `find_span_up` points.  A start event never fails. */
  function OnUpEvent(t: Tesselator, e: Event, o: Oracle): (r: Result<Tesselator>)
    ensures !FindSpanUp(t.spans, e.current, o).1 ==>
              && r.Ok?
              && var idx := FindSpanUp(t.spans, e.current, o).0;
              && |r.value.spans| == |t.spans| + 1
              && r.value.spans == t.spans[..idx] + [Begin(UpEdges(e, o).0, UpEdges(e, o).1)] + t.spans[idx..]
    ensures r.Ok? ==> |t.spans| <= |r.value.spans| <= |t.spans| + 1
    ensures r.Ok? && Valid(t) ==> Valid(r.value)
    ensures r.Ok? ==> Extends(t, r.value)
  {
    var (idx, inside) := FindSpanUp(t.spans, e.current, o);
    var (le, re) := UpEdges(e, o);
    if inside then OnSplitEvent(t, e, idx, le, re, o)
    else
      var n := |t.spans|;
      var t1 := CheckIntersections(t, n, Left, le.upper, le.lower, o);
      var t2 := CheckIntersections(t1, n, Right, re.upper, re.lower, o);
      ExtendsTransitive(t, t1, t2);
      assert StacksOpen(t2.spans) ==> StacksOpen(t2.spans[..idx] + [Begin(le, re)] + t2.spans[idx..]) by {
        if StacksOpen(t2.spans) {
          StacksOpenInsert(t2.spans, idx, Begin(le, re));
        }
      }
      Ok(t2.(spans := t2.spans[..idx] + [Begin(le, re)] + t2.spans[idx..]))
  }

  /** Neither edge of span `j` or later has `id` as its lower end, live or parked. */
  ghost predicate NoLowerFrom(spans: seq<Span>, id: PathVertexId, idx: nat) {
    forall j :: idx <= j < |spans| ==> spans[j].right.lower.id != id && spans[j].left.lower.id != id
  }

  function IntersectionFrom(t: Tesselator, inter: Intersection, o: Oracle, idx: nat): (r: Result<Tesselator>)
    requires idx <= |t.spans|
    ensures NoLowerFrom(t.spans, inter.bDown.id, idx) ==> r == Err(Unreachable)
    ensures r.Ok? ==>
              && r.value.intersections == t.intersections
              && r.value.nextNewVertex == t.nextNewVertex
              && r.value.output.vertices == t.output.vertices
    ensures r.Ok? && Valid(t) ==> Valid(r.value)
    ensures r.Ok? ==> Extends(t, r.value)
    decreases |t.spans| - idx
  {
    if idx == |t.spans| then Err(Unreachable)
    else if t.spans[idx].right.lower.id == inter.bDown.id then
      var t1 :- OnRightEvent(t, idx, inter.point, inter.aDown, o, false);
      var t2 :- OnLeftEvent(t1, idx + 1, inter.point, inter.bDown, o, false);
      ExtendsTransitive(t, t1, t2);
      Ok(t2)
    else if t.spans[idx].left.lower.id == inter.bDown.id then
      var t1 :- OnEndEvent(t, inter.point, idx, o);
      var l := SpanEdge(inter.point, inter.aDown, false);
      var r := SpanEdge(inter.point, inter.bDown, false);
      assert StacksOpen(t1.spans) ==> StacksOpen(t1.spans[..idx] + [Begin(l, r)] + t1.spans[idx..]) by {
        if StacksOpen(t1.spans) {
          StacksOpenInsert(t1.spans, idx, Begin(l, r));
        }
      }
      Ok(t1.(spans := t1.spans[..idx] + [Begin(l, r)] + t1.spans[idx..]))
    else
      IntersectionFrom(t, inter, o, idx + 1)
  }

  /** `on_intersection_event`: finds the first span with an edge ending at the crossing's
      `b_down` (right edge first) and turns the crossing into a right and a left event, or into
      an end and a start.  Handling a crossing never queues another one and never allocates a
      vertex; no such edge is `unreachable!`. */
  function OnIntersectionEvent(t: Tesselator, inter: Intersection, o: Oracle): (r: Result<Tesselator>)
    ensures NoLowerFrom(t.spans, inter.bDown.id, 0) ==> r == Err(Unreachable)
    ensures r.Ok? ==>
              && r.value.intersections == t.intersections
              && r.value.nextNewVertex == t.nextNewVertex
              && r.value.output.vertices == t.output.vertices
    ensures r.Ok? && Valid(t) ==> Valid(r.value)
    ensures r.Ok? ==> Extends(t, r.value)
  {
    IntersectionFrom(t, inter, o, 0)
  }

  datatype EventKind = Down | Up | Regular

  /** The three-way classification of `on_event` by the vertex's position relative to its two
      neighbours. */
  function Classify(e: Event, o: Oracle): (r: EventKind)
    ensures r == Down <==> o.below(e.current.position, e.previous.position) && o.below(e.current.position, e.next.position)
    ensures r == Up <==> !o.below(e.current.position, e.previous.position) && !o.below(e.current.position, e.next.position)
  {
    var belowPrev := o.below(e.current.position, e.previous.position);
    var belowNext := o.below(e.current.position, e.next.position);
    if belowPrev && belowNext then Down
    else if !belowPrev && !belowNext then Up
    else Regular
  }

  /** On a regular vertex the edge continues towards the neighbour that lies below it. */
  function RegularNext(e: Event, o: Oracle): (r: Vertex)
    ensures r == e.next <==> o.below(e.next.position, e.current.position) || e.next == e.previous
    ensures r == e.next || r == e.previous
  {
    if o.below(e.next.position, e.current.position) then e.next else e.previous
  }

  /** `on_event`: dispatches on the classification.  Down events never open spans, up events
      never close any, and a regular event keeps the span count or closes the one span whose
      right edge was parked. */
  function OnEvent(t: Tesselator, e: Event, o: Oracle): (r: Result<Tesselator>)
    ensures r.Ok? && Classify(e, o) == Down ==> |r.value.spans| <= |t.spans|
    ensures r.Ok? && Classify(e, o) == Up ==> |r.value.spans| >= |t.spans|
    ensures r.Ok? && Classify(e, o) == Regular ==> |t.spans| - 1 <= |r.value.spans| <= |t.spans|
    ensures r.Ok? && Valid(t) ==> Valid(r.value)
    ensures r.Ok? ==> Extends(t, r.value)
  {
    match Classify(e, o)
    case Down => OnDownEvent(t, e.current, o)
    case Up => OnUpEvent(t, e, o)
    case Regular => OnRegularEvent(t, e.current, RegularNext(e, o), o)
  }

  /** The drain loop of `tesselate`: handles queued crossings from the front while the current
      event lies below the first of them.  What is left is a suffix of the queue whose head is
      not above the event. */
  function Drain(t: Tesselator, current: Vertex, o: Oracle): (r: Result<Tesselator>)
    ensures r.Ok? ==>
              && |r.value.intersections| <= |t.intersections|
              && r.value.intersections == t.intersections[|t.intersections| - |r.value.intersections|..]
              && (|r.value.intersections| > 0 ==> !o.below(current.position, r.value.intersections[0].point.position))
              && r.value.nextNewVertex == t.nextNewVertex
    ensures r.Ok? && Valid(t) ==> Valid(r.value)
    ensures r.Ok? ==> Extends(t, r.value)
    decreases |t.intersections|
  {
    if |t.intersections| == 0 then Ok(t)
    else if o.below(current.position, t.intersections[0].point.position) then
      var t1 :- PopIntersection(t, o);
      var r :- Drain(t1, current, o);
      assert r.intersections == t.intersections[|t.intersections| - |r.intersections|..] by {
        assert t1.intersections == t.intersections[1..];
      }
      ExtendsTransitive(t, t1, r);
      Ok(r)
    else Ok(t)
  }

  /** One step of the drain loop: `intersections.remove(0)`, then the crossing is handled. */
  function PopIntersection(t: Tesselator, o: Oracle): (r: Result<Tesselator>)
    requires |t.intersections| > 0
    ensures r.Ok? ==> r.value.intersections == t.intersections[1..] && r.value.nextNewVertex == t.nextNewVertex
    ensures r.Ok? && Valid(t) ==> Valid(r.value)
    ensures r.Ok? ==> Extends(t, r.value)
  {
    var popped := t.(intersections := t.intersections[1..]);
    assert SortedBy(t.intersections, IntersectionKey) ==> SortedBy(popped.intersections, IntersectionKey);
    OnIntersectionEvent(popped, t.intersections[0], o)
  }

  /** The event of a path vertex: its position and its two neighbours on its sub-path. */
  function EventAt(p: Path, id: PathVertexId): (r: Event)
    requires ValidId(p, id)
    ensures r.current == Vertex(Position(p, id), id)
    ensures r.previous.id == PreviousId(p, id) && r.next.id == NextId(p, id)
    ensures r.previous.position == Position(p, r.previous.id) && r.next.position == Position(p, r.next.id)
  {
    var prev := PreviousId(p, id);
    var next := NextId(p, id);
    Event(Vertex(Position(p, id), id), Vertex(Position(p, next), next), Vertex(Position(p, prev), prev))
  }

  /** `tesselate`: for each event in order, drains the crossings above it, then handles it. */
  function Tesselate(t: Tesselator, p: Path, events: seq<PathVertexId>, o: Oracle): (r: Result<Tesselator>)
    requires forall i :: 0 <= i < |events| ==> ValidId(p, events[i])
    ensures events == [] ==> r == Ok(t)
    ensures r.Ok? && Valid(t) ==> Valid(r.value)
    ensures r.Ok? ==> Extends(t, r.value)
    decreases |events|
  {
    if events == [] then Ok(t)
    else
      var e := EventAt(p, events[0]);
      var t1 :- Drain(t, e.current, o);
      var t2 :- OnEvent(t1, e, o);
      var r :- Tesselate(t2, p, events[1..], o);
      ExtendsTransitive(t, t1, t2);
      ExtendsTransitive(t, t2, r);
      Ok(r)
  }

  /** `tesselate_path_fill`: pushes the path's vertices, sorts the events and runs the sweep.
      The output starts with the path's own vertices in order; every vertex after them is a
      synthetic crossing vertex whose id is its index. */
  function TesselatePathFill(p: Path, o: Oracle): (r: Result<Tesselator>)
    requires WellFormed(p)
    ensures r.Ok? ==>
              && Valid(r.value)
              && |r.value.output.vertices| >= |p.vertices|
              && r.value.output.vertices[..|p.vertices|] == p.vertices
              && r.value.nextNewVertex.pathId == |p.subPaths|
    ensures p.vertices == [] ==> r.Ok? && r.value.output == Output([], [])
  {
    var events := SetPath(p);
    var t := New(p, Output(p.vertices, []));
    Tesselate(t, p, events, o)
  }
}

=== FILE: sweep_span.dfy ===
/** The sweep line's span records (`Span`, `SpanEdge` in
    lyon/src/tesselation/path_tesselator.rs).

    A span is the region between a left and a right edge of the sweep line; each
    edge runs from an `upper` vertex already swept to a `lower` vertex still to
    come, unless it is parked in `merge` (its lower vertex is a merge vertex shared
    with the neighbouring span).  Every span owns a monotone tessellator fed with
    the vertices its edges pass through.
 */
module SweepSpan {
  import opened Results
  import opened Geometry
  import opened EventVector
  import MonotoneTesselator

  datatype Vertex = Vertex(position: Point, id: PathVertexId)

  datatype SpanEdge = SpanEdge(upper: Vertex, lower: Vertex, merge: bool)

  datatype Span = Span(left: SpanEdge, right: SpanEdge, tess: MonotoneTesselator.Tess)

  function Edge(s: Span, side: Side): SpanEdge {
    match side
    case Left => s.left
    case Right => s.right
  }

  /** Assignment through `mut_edge(side)`: only the edge on `side` changes. */
  function WithEdge(s: Span, side: Side, e: SpanEdge): (r: Span)
    ensures Edge(r, side) == e
    ensures Edge(r, side.Opposite()) == Edge(s, side.Opposite())
    ensures r.tess == s.tess
  {
    match side
    case Left => s.(left := e)
    case Right => s.(right := e)
  }

  /** `Span::begin`: a new span whose tessellator starts at the left edge's upper vertex. */
  function Begin(l: SpanEdge, r: SpanEdge): (s: Span)
    ensures s.left == l && s.right == r
    ensures MonotoneTesselator.Open(s.tess) && |s.tess.stack| == 1 && s.tess.triangles == []
    ensures s.tess.previous.pos == l.upper.position && s.tess.previous.id == l.upper.id.vertexId
  {
    Span(l, r, MonotoneTesselator.Begin(l.upper.position, l.upper.id.vertexId))
  }

  /** The two assertions the span's tessellator makes when fed `v`: it lies below the vertex
      fed last, and the stack is not empty. */
  predicate CanFeed(s: Span, v: Vertex, o: Oracle) {
    o.below(v.position, s.tess.previous.pos) && |s.tess.stack| > 0
  }

  /** `set_upper_vertex`: moves the edge's upper end to `v` and feeds `v` to the span's
      tessellator on that side; a failed tessellator assertion is a panic. */
  function SetUpperVertex(s: Span, v: Vertex, side: Side, o: Oracle): (r: Result<Span>)
    ensures r.Ok? <==> CanFeed(s, v, o)
    ensures r.Err? ==> r.fault == AssertionFailed
    ensures r.Ok? ==>
              && Edge(r.value, side) == Edge(s, side).(upper := v)
              && Edge(r.value, side.Opposite()) == Edge(s, side.Opposite())
              && r.value.tess.previous == MonotoneTesselator.MonotoneVertex(v.position, v.id.vertexId, side)
              && MonotoneTesselator.Open(r.value.tess) && |r.value.tess.stack| >= 2
              && |r.value.tess.triangles| + |r.value.tess.stack| == |s.tess.triangles| + |s.tess.stack| + 1
  {
    if !CanFeed(s, v, o) then Err(AssertionFailed)
    else
      var e := WithEdge(s, side, Edge(s, side).(upper := v));
      Ok(e.(tess := MonotoneTesselator.Vertex(s.tess, v.position, v.id.vertexId, side, o)))
  }

  /** `set_lower_vertex`: gives the edge a new lower end and takes it out of `merge`. */
  function SetLowerVertex(s: Span, v: Vertex, side: Side): (r: Span)
    ensures Edge(r, side).upper == Edge(s, side).upper
    ensures Edge(r, side).lower == v && !Edge(r, side).merge
    ensures Edge(r, side.Opposite()) == Edge(s, side.Opposite())
    ensures r.tess == s.tess
  {
    WithEdge(s, side, Edge(s, side).(lower := v, merge := false))
  }

  /** `set_no_lower_vertex`: parks the edge in `merge`, nothing else changes. */
  function SetNoLowerVertex(s: Span, side: Side): (r: Span)
    ensures Edge(r, side) == Edge(s, side).(merge := true)
    ensures Edge(r, side.Opposite()) == Edge(s, side.Opposite())
    ensures r.tess == s.tess
  {
    WithEdge(s, side, Edge(s, side).(merge := true))
  }

  /** `Span::vertex`: the edge on `side` now runs from `v` down to `next`. */
  function SpanVertex(s: Span, v: Vertex, next: Vertex, side: Side, o: Oracle): (r: Result<Span>)
    ensures r.Ok? <==> CanFeed(s, v, o)
    ensures r.Err? ==> r.fault == AssertionFailed
    ensures r.Ok? ==>
              && Edge(r.value, side) == SpanEdge(v, next, false)
              && Edge(r.value, side.Opposite()) == Edge(s, side.Opposite())
              && r.value.tess.previous.id == v.id.vertexId
              && |r.value.tess.stack| >= 2
  {
    var u :- SetUpperVertex(s, v, side, o);
    Ok(SetLowerVertex(u, next, side))
  }

  /** `merge_vertex`: the edge on `side` reaches the merge vertex `v` and is parked there. */
  function MergeVertex(s: Span, v: Vertex, side: Side, o: Oracle): (r: Result<Span>)
    ensures r.Ok? <==> CanFeed(s, v, o)
    ensures r.Err? ==> r.fault == AssertionFailed
    ensures r.Ok? ==>
              && Edge(r.value, side) == SpanEdge(v, Edge(s, side).lower, true)
              && Edge(r.value, side.Opposite()) == Edge(s, side.Opposite())
              && r.value.tess.previous.id == v.id.vertexId
              && |r.value.tess.stack| >= 2
  {
    var u :- SetUpperVertex(s, v, side, o);
    Ok(SetNoLowerVertex(u, side))
  }

  /** `Span::end`: closes the span's region at `v`.  Its edges are left as they were. */
  function SpanEnd(s: Span, v: Vertex, o: Oracle): (r: Result<Span>)
    ensures r.Ok? <==> CanFeed(s, v, o)
    ensures r.Err? ==> r.fault == AssertionFailed
    ensures r.Ok? ==>
              && r.value.left == s.left && r.value.right == s.right
              && r.value.tess.stack == []
              && |r.value.tess.triangles| == |s.tess.triangles| + |s.tess.stack| - 1
              && r.value.tess.triangles[..|s.tess.triangles|] == s.tess.triangles
  {
    if !CanFeed(s, v, o) then Err(AssertionFailed)
    else Ok(s.(tess := MonotoneTesselator.End(s.tess, v.position, v.id.vertexId, o)))
  }
}
